=== FILE: README.md ===
# MiniSQLEngine in Dafny

A model of the single-file in-memory SQL interpreter `code.cpp`. It reads
lines from standard input and buffers them until a line holds a `;`. It then
splits the buffer into statements and runs each one against a store of
tables:

- `CREATE TABLE name (col TYPE, ...)`
- `INSERT INTO name (cols) VALUES (vals)`
- `SELECT cols|* FROM name [WHERE col op lit AND ...]`
- `exit`

Every cell is stored as text. A column's type (`INT` or `TEXT`) only
decides whether WHERE compares it as a number or as a string.

The model follows the source's structure, one module per part:

| module | models |
|---|---|
| `Ascii` | the C character classes in the "C" locale, `trim` and `lower` |
| `Lexer` | `tokenize` |
| `Integers` | `isIntegerString`, and the `stoll` conversion that follows it |
| `Store` | `ColType`, `Table`, the `db` map, `std::find` over column lists, quote stripping |
| `Conditions` | `Cond`, `evalCond`, the AND of a condition list |
| `Create` | `handleCreate` |
| `Insert` | `handleInsert` |
| `Where` | `parseWhere` |
| `Select` | `handleSelect` |
| `Split` | `splitStatements` |
| `Session` | `main`'s read loop and keyword dispatch |

Handlers are pure functions. They return the new store with how the
statement ended (a `Step`) or what a SELECT answered (an `Answer`). Each
printed message becomes a constructor of `Store.Error`.

The source's defects are modelled as they are written, as explicit outcomes:

- A character outside the three character classes where a token should
  start makes `tokenize` loop forever. The word branch consumes nothing and
  keeps appending empty tokens. This is `Lexer.Lexed.Diverges(at)` and
  `Session.Stop.Hangs(at)`.
- A one-token `SELECT` reads `toks[1]` past the end of the vector, which is
  undefined behaviour in C++. The model makes it an outcome of its own that
  ends the session: `Select.Refusal.ReadPastEnd`,
  `Select.Answer.OutOfBounds` and `Session.Stop.IndexPastEnd`.
- A bare `+` or `-` passes `isIntegerString`, and the `stoll` that follows
  throws `std::invalid_argument`, which nothing catches. This is
  `Integers.StoLL` returning `None`, `Conditions.Eval.Throws`,
  `Select.Answer.ConversionThrows` and `Session.Stop.Uncaught`.

  Such a value can be stored by an INSERT. From then on, a `SELECT *` whose
  WHERE clause is a comparison of that column with an integer literal ends
  the program, whatever the operator (`Session.BareSignPoisonsTable`). In a
  longer AND chain the comparison is reached only on rows where every
  condition before it holds (`Conditions.AllHoldThrows`).

  Because the tokenizer splits `-5` into `-` and `5`, the condition
  `id > -5` is read as `id > -` and also throws
  (`Select.NegativeLiteralThrows`).

The banner at code.cpp:314 invites `exit;` to quit. The dispatch at
code.cpp:329-330 ends the session whenever the first token of a statement
is `exit` in any case, whatever follows it, and the model does the same
(`Session.ExitsExactly`).

## Model

| member | source | states |
|---|---|---|
| Ascii.Trim | code.cpp:23-28 | the result is empty exactly when the input is all white space, and otherwise starts and ends with a non-space character |
| Ascii.TrimPadded | code.cpp:23-28 | trimming removes exactly the blank padding: text with non-blank ends comes back unchanged from between any leading and trailing white space |
| Ascii.Lower | code.cpp:31-35 | lower-casing keeps the length |
| Ascii.LowerEach | code.cpp:31-35 | each character is case-folded on its own, in place |
| Lexer.OperatorsAreTheThree | code.cpp:56-61 | the two-character lookahead accepts exactly `!=`, `<=` and `>=` |
| Lexer.Tokenize | code.cpp:38-77 | every token is a word, a quoted literal with both quotes, a two-character operator or one punctuation character; the scan diverges only at a character outside the three classes; a statement written in those classes always tokenizes |
| Lexer.TokenizeFromShapes | code.cpp:38-77 | the same shapes for the scan from any position |
| Lexer.TokenizeSpaced | code.cpp:38-77 | tokenizing tokens written out with a blank after each gives the tokens back |
| Lexer.TokenStep | code.cpp:41-75 | one token followed by any white space character (blank, tab, newline, vertical tab, form feed, carriage return) is scanned as exactly that token, and the scan continues after that character |
| Lexer.BlanksSkipped | code.cpp:42 | a run of white space of any of the six kinds is skipped: the scan after it is the scan before it |
| Lexer.SymbolStep | code.cpp:53-65 | a punctuation character other than `_` and the quote is one token whatever follows it, a glued word included, unless it starts `!=`, `<=` or `>=` |
| Lexer.GluedExamples | code.cpp:41-75 | `(id)` gives `(`, `id` and `)`, and a tab and a newline between two words separate them |
| Lexer.SignIsSeparate | code.cpp:53-65 | `-5` is the two tokens `-` and `5` |
| Lexer.OperatorsAreWhole | code.cpp:56-61 | `>=` and `!=` between two words come out as one token |
| Lexer.UnterminatedQuote | code.cpp:43-52 | a literal whose closing quote is missing runs to the end and is still emitted closed |
| Lexer.ControlCharacterDiverges | code.cpp:66-74 | a control character where a token should start makes the scan diverge at that position |
| Integers.Magnitude | code.cpp:82 | the digits part is what follows at most one leading sign: one character shorter exactly when a sign leads, the whole string otherwise |
| Integers.StoLL | code.cpp:106-108 | the conversion throws exactly on a bare sign; otherwise the sign of the value follows the leading `-` |
| Integers.NatDigits | code.cpp:79-85 | the decimal spelling of a natural number is nonempty, all digits, without a leading zero, and has that value |
| Integers.DecimalRoundTrip | code.cpp:79-85 | every integer written in decimal passes the check and converts back to itself |
| Integers.PlusSignIgnored | code.cpp:82 | a leading `+` is accepted and does not change the value |
| Integers.BareSignsPass | code.cpp:80-84 | a bare `+` or `-` passes the check, and converting it throws |
| Integers.NonIntegerExamples | code.cpp:80-83 | the empty string, a doubled sign and a trailing letter fail the check |
| Integers.ConversionExamples | code.cpp:106-108 | leading zeros are accepted, and a `-` negates the digits |
| Integers.LeadingZeros | code.cpp:106-108 | any number of zeros in front of a decimal spelling, after a `-` or not, passes the check and converts to the same value |
| Store.IndexOf | code.cpp:97 | `std::find`: absent exactly when the name is not in the list, otherwise the first position holding it |
| Store.Unquote | code.cpp:182 | a value with a quote at both ends loses exactly those two quotes; any other value is kept |
| Store.UnquoteQuote | code.cpp:182 | stripping undoes quoting, whatever the value holds |
| Store.EmptyDb | code.cpp:21 | the session starts from an empty store that satisfies the store invariant |
| Conditions.LexLessFirstDifference | code.cpp:120-123 | string `<` holds exactly when the left side is a proper prefix of the right side or is smaller at their first difference |
| Conditions.LexLessTrichotomy | code.cpp:117-123 | string `<` is a strict total order |
| Conditions.EvalCond | code.cpp:95-126 | an unknown column is false; an unknown operator is never true; on an INT column a side that fails the integer check makes the condition false, the condition throws exactly when both sides pass the check and one of them is a bare sign, and otherwise each operator is the numeric comparison of the converted values that it names; on a TEXT column each operator is the string comparison it names |
| Conditions.IntCondComparesNumbers | code.cpp:104-113 | on an INT column, a cell and a literal written in decimal compare as the integers they spell |
| Conditions.Negations | code.cpp:109-123 | once a TEXT comparison or a comparison of two valid numbers is decided, `!=`, `>=` and `<=` are the negations of `=`, `<` and `>` |
| Conditions.NonNumericCellNeverMatches | code.cpp:106 | on an INT column whose cell is not a number, every operator is false |
| Conditions.IntVersusTextOrdering | code.cpp:104-123 | `10 > 9` holds in an INT column and fails in a TEXT column |
| Conditions.AllHold | code.cpp:276-278 | the left-to-right AND is true exactly when every condition is true |
| Conditions.AllHoldThrows | code.cpp:276-278 | the AND throws exactly when some condition throws and every condition before it is true |
| Conditions.SatisfiesAppend | code.cpp:276-277 | a row satisfies two condition lists joined exactly when it satisfies both |
| Conditions.SatisfiesFirst | code.cpp:276-277 | a row satisfies a list exactly when its first condition is true and it satisfies the rest |
| Create.ColumnDefs | code.cpp:139-151 | the definition loop yields as many types as columns and stops at a `)`; no column is named `)`; its errors are the truncated column, the missing `)` and an unknown lower-cased type other than `int` and `text` |
| Create.HandleCreate | code.cpp:129-156 | the checks in source order (fewer than six tokens, an existing name, no `(`, then the definitions); every failure leaves the store unchanged; success adds exactly one empty table with the parsed columns and types under the name in token 2 and leaves every other table untouched; the store invariant is kept |
| Create.TypeOfName | code.cpp:142-146 | `INT` and `TEXT` are read back as their types |
| Create.DefsPrefix | code.cpp:139-150 | written definitions (a column, a type word in any case, an optional `,`) in front of any tokens are read as written, and the loop goes on after them |
| Create.ColumnDefsWritten | code.cpp:139-151 | any tokens are read as written definitions up to a place where no definition can be read, and that place decides the outcome: a `)` gives exactly the definitions' columns and the types their words name, the end of the tokens a missing `)`, a lone last token a truncated definition, and a type word other than `int` and `text` an unknown type |
| Create.ColumnDefsRoundTrip | code.cpp:139-151 | definitions followed by `)` are parsed back column for column and type for type, whatever the case of the type words and whether or not a `,` follows each definition |
| Create.UnknownTypeRefused | code.cpp:142-146 | a definition whose type word is neither `int` nor `text` in any case, after any written definitions, stops the loop with that word lower-cased |
| Create.TruncatedRefused | code.cpp:140-141 | a column name with no token after it, after any written definitions, is a truncated definition |
| Create.UnclosedRefused | code.cpp:151 | written definitions that run to the end of the statement miss their `)` |
| Create.CanonicalReadable | code.cpp:142-149 | the spelling `c1 INT , c2 TEXT ...` of columns not named `)` is read back as exactly those columns and types |
| Create.CreateRoundTrip | code.cpp:129-156 | a CREATE written for a fresh name, with any number of readable definitions including none, adds exactly the described table, with no rows |
| Create.CreateUnknownType | code.cpp:142-146 | a CREATE for a fresh name whose definitions reach a type word other than `int` and `text` fails with that word lower-cased and changes nothing |
| Create.CreateTwice | code.cpp:133 | a second CREATE for the same name fails and changes nothing |
| Create.EmptyColumnList | code.cpp:131-154 | `()` with nothing after it is a syntax error, while `() ;` creates a table with no columns |
| Insert.ListItems | code.cpp:169-172 | the list loop stops at a `)` or at the end; no item is `)`; it takes at most one item per token |
| Insert.ListItemsSeparate | code.cpp:169-172 | the list stops at the first `)`, and its items are exactly the tokens passed over with every `,` that directly follows an item left out |
| Insert.SeparateNoCommas | code.cpp:171 | a list without any `,` is read token for token, so the separators are optional |
| Insert.SeparateCommaList | code.cpp:171 | the items of a list written `x1 , x2 ...` are the listed items |
| Insert.SeparateExamples | code.cpp:169-172 | `a b` gives two items, and `a , , b` gives `a`, `,` and `b` |
| Insert.ParseInsert | code.cpp:161-186 | fewer than six tokens and an unknown table are refused first, then a missing `(`, a column list without its `)`, a missing `VALUES`, a missing second `(` and a value list without its `)`; a parse that succeeds found the table in token 2 and `(` in token 3, a column list closed by `)` and followed by `VALUES` in any case and `(`, and a value list closed by `)`; it returns the columns and the values with their quotes stripped |
| Insert.LastIndexOf | code.cpp:190-198 | the last position holding a name: a column named twice keeps its last value |
| Insert.LayoutStep | code.cpp:198 | mapping one more named column writes its value at that column's first schema position and changes no other cell |
| Insert.Place | code.cpp:190-199 | the mapping loop succeeds exactly when every named column exists and every INT column gets an integer string, and then yields the expected row; it refuses the first unknown column or mistyped value |
| Insert.HandleInsert | code.cpp:159-203 | every refusal leaves the store unchanged; a parse error is reported as it is, differing counts as a count mismatch, and otherwise the first refused entry as an unknown column or a type mismatch for that column; success happens exactly when the statement parses, the counts agree and every column accepts its value, and then exactly the expected row is appended to the named table and nothing else changes; the store invariant and the INT-cell guarantee are kept |
| Insert.IntCellsOfNewRow | code.cpp:195-198 | a row an INSERT accepts keeps every INT cell empty or an integer string |
| Insert.ListItemsRoundTrip | code.cpp:169-172 | a list written `x1 , x2 ...` followed by `)` is read back item for item |
| Insert.UnquoteQuoteAll | code.cpp:182 | quoting every value and stripping the quotes gives the values back |
| Insert.ParseInsertRoundTrip | code.cpp:161-186 | a written INSERT for an existing table is parsed back into its columns and unquoted values |
| Insert.InsertRoundTrip | code.cpp:159-203 | a written INSERT whose columns exist and whose INT values are integer strings appends exactly the expected row |
| Insert.TypeGatedInsert | code.cpp:195-196 | a value that is not an integer string for an INT column makes the INSERT fail and leaves the store unchanged |
| Where.ParseWhere | code.cpp:206-222 | no condition exactly when fewer than three tokens remain, and at most one condition per three tokens |
| Where.ParseWhereReads | code.cpp:206-222 | the parse is a run of triples (column, operator, unquoted literal) joined by `AND` in any case, stopping after a triple not followed by `AND` or where no full triple follows |
| Where.WhereUnique | code.cpp:206-222 | that description determines the parse: any condition list it admits is the one returned |
| Where.WhereRoundTrip | code.cpp:206-222 | written conditions are parsed back when what follows them does not start with `AND` |
| Select.NonCommas | code.cpp:231 | the commas are left out: no token of the result is `,` |
| Select.SelectListStops | code.cpp:230-233 | the column list ends at the first `FROM` in any case, or at the end of the statement |
| Select.SelectListDropsCommas | code.cpp:230-233 | the column list is exactly the tokens passed over, with every `,` left out |
| Select.SelectListRoundTrip | code.cpp:230-233 | a written column list followed by `FROM` is read back name for name |
| Select.Resolve | code.cpp:250-256 | resolving succeeds exactly when every selected name is a column, giving each name's first position in order; otherwise it names the first selected name that is not a column |
| Select.ReadClauses | code.cpp:226-247 | a one-token statement reads past the end; a statement without `FROM` is refused; its refusals are the missing `FROM`, the missing table name and an unknown table; a statement is read exactly when the column list is followed by `FROM` and the name of an existing table, and then the selected names are that column list (`*` alone, or the tokens before the first `FROM` without commas), the table is the token after that `FROM`, and the conditions are the WHERE clause that follows it in any case, or none |
| Select.SelectedNamesWritten | code.cpp:230-231 | every selected name is a token of the statement other than `,` |
| Select.ParseSelect | code.cpp:248-257 | the clause errors pass through; `*` alone projects every column; otherwise the SELECT is accepted exactly when every selected name is a column, each projected position is the first column of that name, and a refusal names the first selected name that is not a column, before any row is read |
| Select.SelectUnknownColumn | code.cpp:250-254 | a written SELECT naming a column the table lacks is refused with the first such name |
| Select.Matching | code.cpp:274-279 | the reference filter keeps at most the rows it is given, each with one cell per column |
| Select.MatchingMembers | code.cpp:274-279 | a row is listed exactly when it is a row of the table and satisfies every condition |
| Select.MatchingNoConditions | code.cpp:242-246 | without a WHERE clause every row is listed, in table order |
| Select.MatchingConjunction | code.cpp:276-277 | AND-ed condition lists filter one after the other |
| Select.MatchingAppend | code.cpp:274 | rows appended to a table can only add listed lines at the end |
| Select.KeepMembers | code.cpp:279 | an element is kept exactly when it occurs at a marked position |
| Select.Scan | code.cpp:273-294 | the output loop shows at most one line per row |
| Select.ScanLists | code.cpp:273-294 | the output loop lists every line of the reference filter when no condition throws; otherwise it stops at the first row whose conditions throw, having listed exactly the lines of the rows before it |
| Select.HandleSelect | code.cpp:224-296 | a one-token statement reads out of bounds; a refusal happens exactly when parsing refuses, with the same error; otherwise the header is the projected column names and the listing is the projected reference filter, unless some row's conditions throw, which happens exactly when the answer is the uncaught conversion error |
| Select.SelectRoundTrip | code.cpp:224-257 | a written SELECT of existing columns is parsed back into its table, the first position of each column and its conditions |
| Select.SelectStarRoundTrip | code.cpp:226-250 | a written `SELECT *` is parsed back into its table and conditions |
| Select.NegativeLiteralThrows | code.cpp:106-108 | `WHERE id > -5` on a table with the single INT column `id`, whose first row holds an integer, ends in the uncaught conversion error |
| Split.SplitStatements | code.cpp:299-311 | every piece ends with its only `;`, except a last piece that holds no `;` and is not blank; the pieces spell out the input up to a blank remainder without `;` |
| Split.SplitCovers | code.cpp:299-311 | the statements found spell out the input up to a blank remainder that holds no `;` |
| Split.SplitJoin | code.cpp:299-311 | splitting closed statements written one after the other, followed by text without `;`, gives back the statements, and the text too when it is not blank |
| Split.SplitRemainder | code.cpp:309 | one closed statement followed by non-blank text without `;` splits into the two |
| Split.LineSplit | code.cpp:319-322 | a line holding one closed statement and a non-blank rest is processed at once, and its buffer splits into the statement and the rest with its newline |
| Session.Classify | code.cpp:328-339 | the dispatch: `exit` as the first token; `CREATE` with `TABLE` second and `INSERT` with `INTO` second; `SELECT` on the first token alone; no tokens at all is blank; keywords in any case |
| Session.RunStatement | code.cpp:324-340 | one statement keeps the store invariant and the INT-cell guarantee, only adds tables and appends rows, and reports at most once |
| Session.BlankSkipped | code.cpp:325-326 | a blank statement is skipped |
| Session.OnlySuccessChanges | code.cpp:129-203 | only a CREATE or INSERT that reports success changes the store |
| Session.HangsExactly | code.cpp:327 | the program hangs on a statement exactly when the tokenizer diverges on it |
| Session.ExitsExactly | code.cpp:329-330 | the program exits on a statement exactly when its first token is `exit` in any case |
| Session.CreateDispatched | code.cpp:331-332 | `CREATE TABLE` in any case runs the CREATE handler on the tokens and reports how it ended |
| Session.InsertDispatched | code.cpp:333-334 | `INSERT INTO` in any case runs the INSERT handler on the tokens and reports how it ended |
| Session.SelectDispatched | code.cpp:335-336 | `SELECT` in any case reports the SELECT handler's answer and leaves the store unchanged |
| Session.OthersUnsupported | code.cpp:337-338 | any other leading keyword, including `CREATE` without `TABLE` and `INSERT` without `INTO`, is reported as unsupported and changes nothing |
| Session.RunAll | code.cpp:324-340 | running the statements of a batch keeps the store invariants, only grows the store, and reports at most once per statement |
| Session.RunAllAppend | code.cpp:324-340 | running two statement lists one after the other is running their concatenation; the second runs only if the first did not stop the program |
| Session.StopDiscardsRest | code.cpp:330 | once a statement stops the program, nothing after it runs |
| Session.Interpret | code.cpp:316-341 | reading lines keeps the store invariants and only grows the store |
| Session.Session | code.cpp:313-343 | a whole session, from the empty store, ends with every INT cell empty or an integer string |
| Session.UnterminatedNeverRuns | code.cpp:321 | lines without `;` are only buffered: nothing runs |
| Session.TrailingLinesIgnored | code.cpp:318-321 | lines without `;` at the end of the input are never run, whatever came before them |
| Session.RemainderRunsAtOnce | code.cpp:319-324 | a line that closes a statement also runs at once, as a statement of its own, the non-blank text after its `;` |
| Session.LoneSelect | code.cpp:226-228 | a statement that is the single token `SELECT` reads past the end of its tokens, which the model treats as the end of the session |
| Session.BareSignAccepted | code.cpp:195-201 | an INSERT that gives any INT column of any table the value `-` is accepted, and the `-` is stored at that column's position |
| Session.BareSignCellThrows | code.cpp:106-108 | a bare sign stored in any row of any INT column makes a `SELECT *` whose WHERE clause compares that column with any integer literal, by any operator, end in the uncaught conversion error |
| Session.BareSignPoisonsTable | code.cpp:195-201 | after an INSERT of a bare `-` into any INT column of any table, a `SELECT *` whose WHERE clause compares that column with any integer literal ends in the uncaught conversion error |

## Left out

- Output formatting is not modelled: the prompt, the banner, the ` | ` joined lines, the `N row(s)` count, and the message texts. A refusal is a `Store.Error` constructor. A SELECT answer carries its header and its rows.
- Hashing in `unordered_map` is not modelled. The store is a Dafny `map` keyed by table name; iteration order is never observed.
- Reading standard input is a parameter: `Session.Interpret` and `Session.Session` take the input lines. The end of input is the end of that sequence.
- The locale is not modelled. The character classes are those of the "C" locale. Characters from 128 upwards stand for bytes `>= 0x80` and belong to no class.
- The process exit status is not modelled, and neither is how the process ends beyond which `Session.Stop` it reaches.
- Integers.StoLL: values are unbounded integers. A number outside the `long long` range, which makes `stoll` throw `std::out_of_range`, is not distinguished from a number that fits.
- Lexer.Tokenize: divergence is reported as the position where the scan stops advancing. The infinite growth of the token vector is not modelled.
- Select.Scan: states only the bound on the lines shown. What the loop lists is stated by `Select.ScanLists`.
- Select.HandleSelect: a one-token SELECT reads `toks[1]` past the end of the vector (code.cpp:228), which is undefined behaviour. The model ends the session there (`Select.Answer.OutOfBounds`, `Session.Stop.IndexPastEnd`). The real program may instead read garbage, print `Expected FROM` and carry on.
- Session.RunStatement, Session.RunAll and Session.Interpret: their contracts state the invariants they keep. What each statement does is stated by the dispatch lemmas. How batches compose is stated by `Session.RunAllAppend` and the `Interpret` lemmas.

=== FILE: ascii.dfy ===
/** The C library character classes and `trim`/`lower` helpers, as the engine
    uses them in the "C" locale. Characters stand for single bytes: every
    character from 128 upwards behaves like a byte >= 0x80 and belongs to
    none of the classes. */
module Ascii {

  /** `isspace`: blank, tab, newline, vertical tab, form feed, carriage return. */
  predicate IsSpace(c: char) {
    c == ' ' || 9 <= c as int <= 13
  }

  /** `isdigit` */
  predicate IsDigit(c: char) {
    '0' <= c <= '9'
  }

  predicate IsUpper(c: char) {
    'A' <= c <= 'Z'
  }

  /** `isalnum` */
  predicate IsAlnum(c: char) {
    IsDigit(c) || IsUpper(c) || 'a' <= c <= 'z'
  }

  /** `ispunct`: printable, not blank, not alphanumeric. */
  predicate IsPunct(c: char) {
    33 <= c as int <= 126 && !IsAlnum(c)
  }

  /** The characters that fall in at least one of the three classes the
      tokenizer branches on. */
  predicate InAlphabet(c: char) {
    IsSpace(c) || IsPunct(c) || IsAlnum(c)
  }

  /** Every character of `s` is white space (`s` may be empty). */
  predicate IsBlank(s: string) {
    forall k | 0 <= k < |s| :: IsSpace(s[k])
  }

  /** `tolower` */
  function ToLower(c: char): (r: char)
    ensures !IsUpper(r)
    ensures !IsUpper(c) ==> r == c
  {
    if IsUpper(c) then (c as int + 32) as char else c
  }

  /** `lower`: case-folds every ASCII letter and keeps everything else. */
  function Lower(s: string): (r: string)
    ensures |r| == |s|
  {
    if |s| == 0 then "" else [ToLower(s[0])] + Lower(s[1..])
  }

  /** Each character is case-folded on its own, in place. */
  lemma {:induction false} LowerEach(s: string)
    ensures forall k | 0 <= k < |s| :: Lower(s)[k] == ToLower(s[k])
  {
    if |s| > 0 {
      LowerEach(s[1..]);
      assert forall k | 1 <= k < |s| :: s[1..][k - 1] == s[k];
    }
  }

  /** `tok` is the keyword `kw` (given in lower case) written in any case,
      the way the handlers compare `lower(tok)` with a literal. */
  predicate IsKeyword(tok: string, kw: string) {
    Lower(tok) == kw
  }

  /** First index at or after `a` that does not hold white space. */
  function SkipSpace(s: string, a: nat): (b: nat)
    requires a <= |s|
    ensures a <= b <= |s|
    ensures forall k | a <= k < b :: IsSpace(s[k])
    ensures b == |s| || !IsSpace(s[b])
    decreases |s| - a
  {
    if a < |s| && IsSpace(s[a]) then SkipSpace(s, a + 1) else a
  }

  /** Smallest `e` in `[a, b]` such that `s[e..b]` is white space. */
  function SkipSpaceBack(s: string, a: nat, b: nat): (e: nat)
    requires a <= b <= |s|
    ensures a <= e <= b
    ensures forall k | e <= k < b :: IsSpace(s[k])
    ensures e == a || !IsSpace(s[e - 1])
    decreases b - a
  {
    if a < b && IsSpace(s[b - 1]) then SkipSpaceBack(s, a, b - 1) else b
  }

  /** `trim`: the slice `s[a..b]` left after removing leading and trailing
      white space; empty exactly when `s` is blank. */
  function Trim(s: string): (r: string)
    ensures |r| == 0 <==> IsBlank(s)
    ensures |r| > 0 ==> !IsSpace(r[0]) && !IsSpace(r[|r| - 1])
    ensures |r| <= |s|
  {
    var a := SkipSpace(s, 0);
    var b := SkipSpaceBack(s, a, |s|);
    s[a..b]
  }

  /** `trim` takes off exactly the blank padding: text whose first and last
      characters are not white space comes back unchanged from between any
      leading and trailing blanks. */
  lemma TrimPadded(pre: string, x: string, post: string)
    requires IsBlank(pre) && IsBlank(post)
    requires |x| > 0 ==> !IsSpace(x[0]) && !IsSpace(x[|x| - 1])
    ensures Trim(pre + x + post) == x
  {
    var s := pre + x + post;
    if |x| == 0 {
      assert IsBlank(s) by {
        forall k | 0 <= k < |s| ensures IsSpace(s[k]) {
          if k < |pre| { assert s[k] == pre[k]; } else { assert s[k] == post[k - |pre|]; }
        }
      }
    } else {
      var a := SkipSpace(s, 0);
      assert s[|pre|] == x[0] && s[|pre| + |x| - 1] == x[|x| - 1];
      assert a == |pre|;
      var b := SkipSpaceBack(s, a, |s|);
      assert b == |pre| + |x|;
      assert s[a..b] == x;
    }
  }
}

=== FILE: conditions.dfy ===
/** WHERE conditions and their evaluation against one row: `Cond` and
    `evalCond` (code.cpp:88-126), and the AND of a condition list that the
    SELECT scan applies to each row (code.cpp:275-279). */
module Conditions {
  import opened Outcomes
  import opened Integers
  import opened Store

  /** `Cond`: column, operator, literal with its quotes already removed. */
  datatype Cond = Cond(col: string, op: string, lit: string)

  /** The value of a condition on a row, or `Throws` when `stoll` raises
      `std::invalid_argument`, which nothing catches: the process ends. */
  datatype Eval = Value(b: bool) | Throws

  /** The six comparison operators. */
  predicate IsRelOp(op: string) {
    op == "=" || op == "!=" || op == "<" || op == "<=" || op == ">" || op == ">="
  }

  /** `std::string` `operator<`: byte-wise lexicographic order, a proper
      prefix coming first. */
  predicate LexLess(a: string, b: string) {
    if |a| == 0 then |b| > 0
    else if |b| == 0 then false
    else if a[0] != b[0] then a[0] < b[0]
    else LexLess(a[1..], b[1..])
  }

  /** `a` is a proper prefix of `b`. */
  predicate ProperPrefix(a: string, b: string) {
    |a| < |b| && a == b[..|a|]
  }

  /** `a` and `b` first differ at a position where `a` is smaller. */
  predicate SmallerAtFirstDifference(a: string, b: string) {
    exists k | 0 <= k < |a| && k < |b| :: a[..k] == b[..k] && a[k] < b[k]
  }

  /** A common first character does not change whether one is a proper
      prefix of the other. */
  lemma ProperPrefixCons(a: string, b: string)
    requires |a| > 0 && |b| > 0 && a[0] == b[0]
    ensures ProperPrefix(a, b) <==> ProperPrefix(a[1..], b[1..])
  {
    var a', b' := a[1..], b[1..];
    if ProperPrefix(a', b') {
      assert a == [a[0]] + a' && b[..|a|] == [b[0]] + b'[..|a'|];
    }
    if ProperPrefix(a, b) {
      assert a' == b'[..|a'|];
    }
  }

  /** A common first character moves the first difference one place. */
  lemma SmallerAtFirstDifferenceCons(a: string, b: string)
    requires |a| > 0 && |b| > 0 && a[0] == b[0]
    ensures SmallerAtFirstDifference(a, b) <==> SmallerAtFirstDifference(a[1..], b[1..])
  {
    var a', b' := a[1..], b[1..];
    if SmallerAtFirstDifference(a', b') {
      var k :| 0 <= k < |a'| && k < |b'| && a'[..k] == b'[..k] && a'[k] < b'[k];
      assert a[..k + 1] == [a[0]] + a'[..k] && b[..k + 1] == [b[0]] + b'[..k];
      assert a[k + 1] == a'[k] && b[k + 1] == b'[k];
    }
    if SmallerAtFirstDifference(a, b) {
      var k :| 0 <= k < |a| && k < |b| && a[..k] == b[..k] && a[k] < b[k];
      assert k > 0;
      assert a'[..k - 1] == a[1..k] == b[1..k] == b'[..k - 1];
      assert a'[k - 1] < b'[k - 1];
    }
  }

  /** `LexLess` agrees with the textbook definition: `a` is a proper prefix
      of `b`, or they first differ at a position where `a` is smaller. */
  lemma {:induction false} LexLessFirstDifference(a: string, b: string)
    ensures LexLess(a, b) <==> ProperPrefix(a, b) || SmallerAtFirstDifference(a, b)
    decreases |a|
  {
    if |a| == 0 || |b| == 0 {
    } else if a[0] != b[0] {
      if a[0] < b[0] {
        assert a[..0] == b[..0];
      }
      assert !ProperPrefix(a, b);
      assert SmallerAtFirstDifference(a, b) ==> a[0] < b[0] by {
        if SmallerAtFirstDifference(a, b) {
          var k :| 0 <= k < |a| && k < |b| && a[..k] == b[..k] && a[k] < b[k];
          if k > 0 {
            assert a[..k][0] == b[..k][0];
          }
        }
      }
    } else {
      LexLessFirstDifference(a[1..], b[1..]);
      ProperPrefixCons(a, b);
      SmallerAtFirstDifferenceCons(a, b);
    }
  }

  /** Exactly one of `a < b`, `a == b`, `b < a` holds: the order is a strict
      total order, so `<=` and `>=` written as negations mean what they say. */
  lemma {:induction false} LexLessTrichotomy(a: string, b: string)
    ensures LexLess(a, b) ==> a != b && !LexLess(b, a)
    ensures a != b ==> LexLess(a, b) || LexLess(b, a)
    decreases |a|
  {
    if |a| == 0 || |b| == 0 {
    } else if a[0] != b[0] {
    } else {
      LexLessTrichotomy(a[1..], b[1..]);
      if a[1..] == b[1..] {
        assert a == [a[0]] + a[1..] && b == [b[0]] + b[1..];
      }
    }
  }

  /** `std::string` comparisons as `operator<=` and the others define them:
      through `<` and its negation. Anything but the six operators is false. */
  predicate TextCompare(op: string, v: string, lit: string) {
    if op == "=" then v == lit
    else if op == "!=" then v != lit
    else if op == "<" then LexLess(v, lit)
    else if op == "<=" then !LexLess(lit, v)
    else if op == ">" then LexLess(lit, v)
    else if op == ">=" then !LexLess(v, lit)
    else false
  }

  /** Signed comparison of two converted integers. */
  predicate IntCompare(op: string, a: int, b: int) {
    if op == "=" then a == b
    else if op == "!=" then a != b
    else if op == "<" then a < b
    else if op == "<=" then a <= b
    else if op == ">" then a > b
    else if op == ">=" then a >= b
    else false
  }

  /** `evalCond`. An unknown column is false. On an INT column both the cell
      and the literal must pass `IsIntegerString`, else the condition is
      false; both are then converted with `stoll`, which throws on a bare
      sign, and compared as numbers. On a TEXT column they are compared as
      strings. */
  function EvalCond(c: Cond, t: Table, row: Row): (r: Eval)
    requires |t.types| == |t.cols| == |row|
    ensures c.col !in t.cols ==> r == Value(false)
    ensures !IsRelOp(c.op) ==> r != Value(true)
    ensures r == Throws <==>
      && c.col in t.cols
      && var j := Position(t.cols, c.col);
      && t.types[j] == IntCol
      && IsIntegerString(row[j]) && IsIntegerString(c.lit)
      && (IsBareSign(row[j]) || IsBareSign(c.lit))
    ensures c.col in t.cols && t.types[Position(t.cols, c.col)] == TextCol ==>
      var v := row[Position(t.cols, c.col)];
      r == Value(
        || (c.op == "=" && v == c.lit) || (c.op == "!=" && v != c.lit)
        || (c.op == "<" && LexLess(v, c.lit)) || (c.op == "<=" && (LexLess(v, c.lit) || v == c.lit))
        || (c.op == ">" && LexLess(c.lit, v)) || (c.op == ">=" && (LexLess(c.lit, v) || v == c.lit)))
    ensures c.col in t.cols && t.types[Position(t.cols, c.col)] == IntCol ==>
      var v := row[Position(t.cols, c.col)];
      !(IsIntegerString(v) && IsIntegerString(c.lit)) ==> r == Value(false)
    ensures c.col in t.cols && t.types[Position(t.cols, c.col)] == IntCol ==>
      var v := row[Position(t.cols, c.col)];
      IsIntegerString(v) && IsIntegerString(c.lit) && StoLL(v).Some? && StoLL(c.lit).Some? ==>
        var a, b := StoLL(v).value, StoLL(c.lit).value;
        r == Value(
          || (c.op == "=" && a == b) || (c.op == "!=" && a != b)
          || (c.op == "<" && a < b) || (c.op == "<=" && (a < b || a == b))
          || (c.op == ">" && b < a) || (c.op == ">=" && (b < a || a == b)))
  {
    match IndexOf(t.cols, c.col)
    case None => Value(false)
    case Some(j) =>
      var v := row[j];
      if t.types[j] == IntCol then
        if !IsIntegerString(v) || !IsIntegerString(c.lit) then Value(false)
        else
          match (StoLL(v), StoLL(c.lit))
          case (Some(a), Some(b)) => Value(IntCompare(c.op, a, b))
          case _ => Throws
      else
        LexLessTrichotomy(v, c.lit);
        Value(TextCompare(c.op, v, c.lit))
  }

  /** Condition `k` is the first one that is not true, and it throws. */
  predicate ThrowsAt(conds: seq<Cond>, t: Table, row: Row, k: nat)
    requires |t.types| == |t.cols| == |row|
  {
    && k < |conds|
    && EvalCond(conds[k], t, row) == Throws
    && forall m | 0 <= m < k :: EvalCond(conds[m], t, row) == Value(true)
  }

  /** A row satisfies a list exactly when its first condition is true and
      it satisfies the rest. */
  lemma SatisfiesFirst(conds: seq<Cond>, t: Table, row: Row)
    requires |t.types| == |t.cols| == |row| && |conds| > 0
    ensures Satisfies(conds, t, row) <==>
      EvalCond(conds[0], t, row) == Value(true) && Satisfies(conds[1..], t, row)
  {
    assert [conds[0]] + conds[1..] == conds;
    SatisfiesAppend([conds[0]], conds[1..], t, row);
  }

  /** Condition `k >= 1` is the first to throw exactly when the first is true
      and condition `k - 1` of the rest is the first of those to throw. */
  lemma ThrowsLater(conds: seq<Cond>, t: Table, row: Row, k: nat)
    requires |t.types| == |t.cols| == |row| && |conds| > 0 && k >= 1
    ensures ThrowsAt(conds, t, row, k) <==>
      EvalCond(conds[0], t, row) == Value(true) && ThrowsAt(conds[1..], t, row, k - 1)
  {
    assert forall m | 1 <= m < |conds| :: conds[1..][m - 1] == conds[m];
    if EvalCond(conds[0], t, row) == Value(true) && ThrowsAt(conds[1..], t, row, k - 1) {
      forall m | 0 <= m < k ensures EvalCond(conds[m], t, row) == Value(true) {
        if m > 0 {
          assert conds[m] == conds[1..][m - 1];
        }
      }
    }
  }

  /** The conjunction of a condition list, evaluated left to right and
      stopping at the first condition that is not true. */
  function AllHold(conds: seq<Cond>, t: Table, row: Row): (r: Eval)
    requires |t.types| == |t.cols| == |row|
    ensures r == Value(true) <==> Satisfies(conds, t, row)
  {
    if |conds| == 0 then Value(true)
    else
      var first := EvalCond(conds[0], t, row);
      SatisfiesFirst(conds, t, row);
      if first == Value(true) then AllHold(conds[1..], t, row) else first
  }

  /** The conjunction throws exactly when some condition throws and every
      condition before it is true: later conditions are never evaluated. */
  lemma {:induction false} AllHoldThrows(conds: seq<Cond>, t: Table, row: Row)
    requires |t.types| == |t.cols| == |row|
    ensures AllHold(conds, t, row) == Throws <==> exists k: nat :: ThrowsAt(conds, t, row, k)
    decreases |conds|
  {
    if |conds| > 0 {
      AllHoldThrows(conds[1..], t, row);
      if AllHold(conds, t, row) == Throws {
        if EvalCond(conds[0], t, row) == Throws {
          assert ThrowsAt(conds, t, row, 0);
        } else {
          var k: nat :| ThrowsAt(conds[1..], t, row, k);
          ThrowsLater(conds, t, row, k + 1);
        }
      } else {
        forall k: nat ensures !ThrowsAt(conds, t, row, k) {
          if k >= 1 {
            ThrowsLater(conds, t, row, k);
          }
        }
      }
    }
  }

  /** A row satisfies a condition list when every condition on it is true;
      the empty list is satisfied by every row. */
  predicate Satisfies(conds: seq<Cond>, t: Table, row: Row)
    requires |t.types| == |t.cols| == |row|
  {
    forall k | 0 <= k < |conds| :: EvalCond(conds[k], t, row) == Value(true)
  }

  /** Conditions AND together: a row satisfies `c1 + c2` exactly when it
      satisfies both lists. */
  lemma SatisfiesAppend(c1: seq<Cond>, c2: seq<Cond>, t: Table, row: Row)
    requires |t.types| == |t.cols| == |row|
    ensures Satisfies(c1 + c2, t, row) <==> Satisfies(c1, t, row) && Satisfies(c2, t, row)
  {
    assert forall k | 0 <= k < |c1| :: (c1 + c2)[k] == c1[k];
    assert forall k | 0 <= k < |c2| :: (c1 + c2)[|c1| + k] == c2[k];
  }

  /** Once a condition on a TEXT column or on two valid numbers is decided,
      `!=`, `>=` and `<=` are the negations of `=`, `<` and `>`. */
  lemma Negations(col: string, lit: string, t: Table, row: Row)
    requires |t.types| == |t.cols| == |row|
    requires col in t.cols
    requires var j := Position(t.cols, col);
      t.types[j] == TextCol ||
      (IsIntegerString(row[j]) && IsIntegerString(lit) && !IsBareSign(row[j]) && !IsBareSign(lit))
    ensures EvalCond(Cond(col, "!=", lit), t, row).b == !EvalCond(Cond(col, "=", lit), t, row).b
    ensures EvalCond(Cond(col, ">=", lit), t, row).b == !EvalCond(Cond(col, "<", lit), t, row).b
    ensures EvalCond(Cond(col, "<=", lit), t, row).b == !EvalCond(Cond(col, ">", lit), t, row).b
  {
    var j := Position(t.cols, col);
    if t.types[j] == TextCol {
      LexLessTrichotomy(row[j], lit);
    }
  }

  /** On an INT column whose cell is not a number (an INSERT that left the
      column out stores ""), every operator is false: `=` and `!=` do not
      complement each other there. */
  lemma NonNumericCellNeverMatches(c: Cond, t: Table, row: Row)
    requires |t.types| == |t.cols| == |row|
    requires c.col in t.cols
    requires t.types[Position(t.cols, c.col)] == IntCol
    requires !IsIntegerString(row[Position(t.cols, c.col)])
    ensures EvalCond(c, t, row) == Value(false)
  {
  }

  /** On an INT column, a cell and a literal that spell integers in
      decimal compare as those integers, whatever the operator. */
  lemma IntCondComparesNumbers(c: Cond, t: Table, row: Row, a: int, b: int)
    requires |t.types| == |t.cols| == |row|
    requires c.col in t.cols && t.types[Position(t.cols, c.col)] == IntCol
    requires row[Position(t.cols, c.col)] == Decimal(a) && c.lit == Decimal(b)
    ensures EvalCond(c, t, row) == Value(IntCompare(c.op, a, b))
  {
    DecimalRoundTrip(a);
    DecimalRoundTrip(b);
  }

  /** The same cells compare as numbers in an INT column and as strings in a
      TEXT column: "10" > "9" holds only in the first. */
  lemma IntVersusTextOrdering()
    ensures var ti := Table("t", ["c"], [IntCol], []);
      EvalCond(Cond("c", ">", "9"), ti, ["10"]) == Value(true) &&
      EvalCond(Cond("c", ">", "9"), ti, ["9"]) == Value(false)
    ensures var tt := Table("t", ["c"], [TextCol], []);
      EvalCond(Cond("c", ">", "9"), tt, ["10"]) == Value(false) &&
      EvalCond(Cond("c", ">", "9"), tt, ["9"]) == Value(false)
  {
    assert Magnitude("10") == "10" && Magnitude("9") == "9";
    assert "10"[..1] == "1";
    assert DigitsValue("1") == 1 by { assert "1"[..0] == ""; }
    assert DigitsValue("10") == 10;
    assert StoLL("10") == Some(10);
    assert StoLL("9") == Some(9);
    assert LexLess("10", "9");
  }
}

=== FILE: create.dfy ===
/** CREATE TABLE (`handleCreate`, code.cpp:129-156). */
module Create {
  import opened Ascii
  import opened Outcomes
  import opened Store
  import opened Seqs

  /** The column definitions parsed between the parentheses, and the
      position of the `)` that closed them. */
  datatype Defs = Defs(cols: seq<string>, types: seq<ColType>, close: nat)

  /** The type keyword, case-insensitively. */
  function TypeOf(word: string): Option<ColType> {
    var typ := Lower(word);
    if typ == "int" then Some(IntCol)
    else if typ == "text" then Some(TextCol)
    else None
  }

  /** The definition loop of code.cpp:139-151 from token `i`: pairs of a
      column name and a type keyword, each pair optionally followed by `,`,
      up to a `)`. */
  function ColumnDefs(toks: seq<string>, i: nat): (r: Result<Defs, Error>)
    requires i <= |toks|
    ensures r.Ok? ==> |r.value.cols| == |r.value.types|
    ensures r.Ok? ==> i <= r.value.close < |toks| && toks[r.value.close] == ")"
    ensures r.Ok? ==> forall k | 0 <= k < |r.value.cols| :: r.value.cols[k] != ")"
    ensures r.Err? ==> r.error in {TruncatedColumn, MissingCloseParen} || r.error.UnknownType?
    ensures r.Err? && r.error.UnknownType? ==> r.error.typ !in {"int", "text"}
    decreases |toks| - i
  {
    if i == |toks| then Err(MissingCloseParen)
    else if toks[i] == ")" then Ok(Defs([], [], i))
    else if i + 1 == |toks| then Err(TruncatedColumn)
    else
      match TypeOf(toks[i + 1])
      case None => Err(UnknownType(Lower(toks[i + 1])))
      case Some(ct) =>
        var next := if i + 2 < |toks| && toks[i + 2] == "," then i + 3 else i + 2;
        match ColumnDefs(toks, next)
        case Err(e) => Err(e)
        case Ok(d) => Ok(Defs([toks[i]] + d.cols, [ct] + d.types, d.close))
  }

  /** `handleCreate`. Fewer than six tokens, an existing name, a missing
      `(` or `)`, a column without a type and an unknown type each leave the
      store as it was; otherwise exactly one table, empty, is added under
      the name in token 2 and every other table is untouched. */
  function HandleCreate(db: Db, toks: seq<string>): (r: Step)
    ensures r.status.Failed? ==> r.db == db
    ensures |toks| < 6 ==> r.status == Failed(CreateSyntax)
    ensures |toks| >= 6 && toks[2] in db ==> r.status == Failed(TableExists)
    ensures |toks| >= 6 && toks[2] !in db && toks[3] != "(" ==> r.status == Failed(ExpectedOpenParen)
    ensures r.status.Done? <==> |toks| >= 6 && toks[2] !in db && toks[3] == "(" && ColumnDefs(toks, 4).Ok?
    ensures r.status.Done? ==>
      var name := toks[2];
      var d := ColumnDefs(toks, 4).value;
      && r.db.Keys == db.Keys + {name}
      && r.db[name] == Table(name, d.cols, d.types, [])
      && |d.cols| == |d.types|
      && forall n | n in db :: r.db[n] == db[n]
    ensures Consistent(db) ==> Consistent(r.db)
    ensures Checked(db) ==> Checked(r.db)
  {
    if |toks| < 6 then Step(db, Failed(CreateSyntax))
    else
      var name := toks[2];
      if name in db then Step(db, Failed(TableExists))
      else if toks[3] != "(" then Step(db, Failed(ExpectedOpenParen))
      else
        match ColumnDefs(toks, 4)
        case Err(e) => Step(db, Failed(e))
        case Ok(d) => Step(db[name := Table(name, d.cols, d.types, [])], Done)
  }

  /** The canonical spelling of a column type. */
  function TypeName(ct: ColType): string {
    match ct
    case IntCol => "INT"
    case TextCol => "TEXT"
  }

  /** The canonical spelling is read back as the same type. */
  lemma TypeOfName(ct: ColType)
    ensures TypeOf(TypeName(ct)) == Some(ct)
  {
    assert Lower("INT") == "int" by {
      assert Lower("T") == "t";
      assert Lower("NT") == "nt";
    }
    assert Lower("TEXT") == "text" by {
      assert Lower("T") == "t";
      assert Lower("XT") == "xt";
      assert Lower("EXT") == "ext";
    }
  }

  /** One written column definition: the column name, the type word as
      written (in any case), and whether a `,` follows it. */
  datatype Def = Def(col: string, word: string, comma: bool)

  /** Definitions as tokens: `c1 w1 [,] c2 w2 [,] ...`. */
  function DefTokens(ds: seq<Def>): (r: seq<string>)
    ensures |r| >= |ds| + |ds|
  {
    if |ds| == 0 then []
    else [ds[0].col, ds[0].word] + (if ds[0].comma then [","] else []) + DefTokens(ds[1..])
  }

  /** Every type word names a type. */
  predicate Typed(ds: seq<Def>) {
    |ds| == 0 || (TypeOf(ds[0].word).Some? && Typed(ds[1..]))
  }

  /** A token `x` may follow the definitions `ds` without being skipped: it
      is not a `,`, unless the last definition already has its own. */
  predicate MayFollow(ds: seq<Def>, x: string) {
    |ds| > 0 && !ds[|ds| - 1].comma ==> x != ","
  }

  /** No column is named `)`, and a column that follows a definition without
      a `,` is not itself named `,`. */
  predicate Apart(ds: seq<Def>) {
    || |ds| == 0
    || (&& ds[0].col != ")"
        && (|ds| > 1 && !ds[0].comma ==> ds[1].col != ",")
        && Apart(ds[1..]))
  }

  /** Definitions the loop reads back as written. */
  predicate Readable(ds: seq<Def>) {
    Typed(ds) && Apart(ds)
  }

  /** The column names of the definitions. */
  function Cols(ds: seq<Def>): (r: seq<string>)
    ensures |r| == |ds|
  {
    if |ds| == 0 then [] else [ds[0].col] + Cols(ds[1..])
  }

  /** The types the type words name. */
  function Types(ds: seq<Def>): (r: seq<ColType>)
    requires Typed(ds)
    ensures |r| == |ds|
  {
    if |ds| == 0 then [] else [TypeOf(ds[0].word).value] + Types(ds[1..])
  }

  /** A result of the definition loop with the definitions `ds` in front. */
  function Prepend(ds: seq<Def>, r: Result<Defs, Error>): Result<Defs, Error>
    requires Typed(ds)
  {
    match r
    case Err(e) => Err(e)
    case Ok(d) => Ok(Defs(Cols(ds) + d.cols, Types(ds) + d.types, d.close))
  }

  /** Written definitions in front of any tokens are read as written, and
      the loop then goes on after them. */
  lemma {:induction false} DefsPrefix(toks: seq<string>, i: nat, ds: seq<Def>, rest: seq<string>, r: Result<Defs, Error>)
    requires Readable(ds)
    requires i <= |toks| && toks[i..] == DefTokens(ds) + rest
    requires |rest| > 0 ==> MayFollow(ds, rest[0])
    requires i + |DefTokens(ds)| <= |toks| && ColumnDefs(toks, i + |DefTokens(ds)|) == r
    ensures ColumnDefs(toks, i) == Prepend(ds, r)
    decreases |ds|
  {
    if |ds| == 0 {
      PrependNone(ds, r);
    } else {
      DefsHead(toks, i, ds, rest);
      var next := if ds[0].comma then i + 3 else i + 2;
      DefsPrefix(toks, next, ds[1..], rest, r);
      DefStep(toks, i, ds[0]);
      PrependCons(ds, r);
    }
  }

  /** How the first of the written definitions sits in the tokens. */
  lemma DefsHead(toks: seq<string>, i: nat, ds: seq<Def>, rest: seq<string>)
    requires |ds| > 0 && Readable(ds)
    requires i <= |toks| && toks[i..] == DefTokens(ds) + rest
    requires |rest| > 0 ==> MayFollow(ds, rest[0])
    ensures var d0 := ds[0];
      var next := if d0.comma then i + 3 else i + 2;
      && i + 1 < |toks| && toks[i] == d0.col && toks[i + 1] == d0.word
      && d0.col != ")" && TypeOf(d0.word).Some?
      && (d0.comma ==> i + 2 < |toks| && toks[i + 2] == ",")
      && (!d0.comma && i + 2 < |toks| ==> toks[i + 2] != ",")
      && next <= |toks| && toks[next..] == DefTokens(ds[1..]) + rest
      && Readable(ds[1..]) && (|rest| > 0 ==> MayFollow(ds[1..], rest[0]))
      && next + |DefTokens(ds[1..])| == i + |DefTokens(ds)|
  {
    var d0 := ds[0];
    var more := ds[1..];
    var next := if d0.comma then i + 3 else i + 2;
    HeadSplit(toks, i, ds, rest);
    assert |more| > 0 ==> more[|more| - 1] == ds[|ds| - 1];
    assert !d0.comma && next < |toks| ==> toks[next] != "," by {
      if !d0.comma && next < |toks| {
        assert toks[next] == (DefTokens(more) + rest)[0];
      }
    }
  }

  /** Where the tokens of the first written definition sit. */
  lemma HeadSplit(toks: seq<string>, i: nat, ds: seq<Def>, rest: seq<string>)
    requires |ds| > 0
    requires i <= |toks| && toks[i..] == DefTokens(ds) + rest
    ensures var d0 := ds[0];
      var next := if d0.comma then i + 3 else i + 2;
      && i + 1 < |toks| && toks[i] == d0.col && toks[i + 1] == d0.word
      && (d0.comma ==> i + 2 < |toks| && toks[i + 2] == ",")
      && next <= |toks| && toks[next..] == DefTokens(ds[1..]) + rest
      && next + |DefTokens(ds[1..])| == i + |DefTokens(ds)|
  {
    var d0 := ds[0];
    var after := DefTokens(ds[1..]) + rest;
    var head := if d0.comma then [d0.col, d0.word, ","] else [d0.col, d0.word];
    assert DefTokens(ds) == head + DefTokens(ds[1..]);
    Assoc(head, DefTokens(ds[1..]), rest);
    SuffixSplit(toks, i, head, after);
  }

  /** One written definition is read as written, in front of whatever the
      loop reads after it. */
  lemma DefStep(toks: seq<string>, i: nat, d0: Def)
    requires i + 1 < |toks| && toks[i] == d0.col && toks[i + 1] == d0.word
    requires d0.col != ")" && TypeOf(d0.word).Some?
    requires d0.comma ==> i + 2 < |toks| && toks[i + 2] == ","
    requires !d0.comma && i + 2 < |toks| ==> toks[i + 2] != ","
    ensures var next := if d0.comma then i + 3 else i + 2;
      ColumnDefs(toks, i) == Prepend([d0], ColumnDefs(toks, next))
  {
    assert Cols([d0]) == [d0.col] && Types([d0]) == [TypeOf(d0.word).value];
  }

  /** Putting no definitions in front changes nothing. */
  lemma PrependNone(ds: seq<Def>, r: Result<Defs, Error>)
    requires |ds| == 0
    ensures Prepend(ds, r) == r
  {
    if r.Ok? {
      assert Cols(ds) + r.value.cols == r.value.cols;
      assert Types(ds) + r.value.types == r.value.types;
    }
  }

  /** Putting definitions in front one at a time. */
  lemma PrependCons(ds: seq<Def>, r: Result<Defs, Error>)
    requires |ds| > 0 && Typed(ds)
    ensures Typed(ds[1..]) && Prepend(ds, r) == Prepend([ds[0]], Prepend(ds[1..], r))
  {
    assert Typed(ds[1..]) by {
      assert forall k | 0 <= k < |ds| - 1 :: ds[1..][k] == ds[k + 1];
    }
    assert Cols([ds[0]]) == [ds[0].col] && Types([ds[0]]) == [TypeOf(ds[0].word).value];
    if r.Ok? {
      var d := r.value;
      Assoc([ds[0].col], Cols(ds[1..]), d.cols);
      Assoc([TypeOf(ds[0].word).value], Types(ds[1..]), d.types);
    }
  }

  /** Parsing written definitions followed by `)` gives back the columns
      and the types their words name, whatever the case of the words and
      wherever the optional `,` are. */
  lemma ColumnDefsRoundTrip(toks: seq<string>, i: nat, ds: seq<Def>, tail: seq<string>)
    requires Readable(ds)
    requires |tail| > 0 && tail[0] == ")"
    requires i <= |toks| && toks[i..] == DefTokens(ds) + tail
    ensures ColumnDefs(toks, i) == Ok(Defs(Cols(ds), Types(ds), i + |DefTokens(ds)|))
  {
    var j := i + |DefTokens(ds)|;
    assert j < |toks| && toks[j] == ")" by {
      SuffixSplit(toks, i, DefTokens(ds), tail);
      assert toks[j] == tail[0];
    }
    DefsPrefix(toks, i, ds, tail, Ok(Defs([], [], j)));
    assert Cols(ds) + [] == Cols(ds) && Types(ds) + [] == Types(ds);
  }

  /** A definition whose type word is neither `int` nor `text`, after
      written definitions, stops the loop with that word lower-cased. */
  lemma UnknownTypeRefused(toks: seq<string>, i: nat, ds: seq<Def>, c: string, w: string, tail: seq<string>)
    requires Readable(ds) && c != ")" && MayFollow(ds, c) && TypeOf(w).None?
    requires i <= |toks| && toks[i..] == DefTokens(ds) + [c, w] + tail
    ensures ColumnDefs(toks, i) == Err(UnknownType(Lower(w)))
  {
    var rest := [c, w] + tail;
    assert DefTokens(ds) + [c, w] + tail == DefTokens(ds) + rest;
    var j := i + |DefTokens(ds)|;
    assert j + 1 < |toks| && toks[j] == c && toks[j + 1] == w by {
      SuffixSplit(toks, i, DefTokens(ds), rest);
    }
    DefsPrefix(toks, i, ds, rest, Err(UnknownType(Lower(w))));
  }

  /** A column name with nothing after it, after written definitions, is a
      truncated definition. */
  lemma TruncatedRefused(toks: seq<string>, i: nat, ds: seq<Def>, c: string)
    requires Readable(ds) && c != ")" && MayFollow(ds, c)
    requires i <= |toks| && toks[i..] == DefTokens(ds) + [c]
    ensures ColumnDefs(toks, i) == Err(TruncatedColumn)
  {
    var j := i + |DefTokens(ds)|;
    assert j + 1 == |toks| && toks[j] == c by {
      SuffixSplit(toks, i, DefTokens(ds), [c]);
    }
    DefsPrefix(toks, i, ds, [c], Err(TruncatedColumn));
  }

  /** Written definitions that run to the end of the tokens miss their `)`. */
  lemma UnclosedRefused(toks: seq<string>, i: nat, ds: seq<Def>)
    requires Readable(ds)
    requires i <= |toks| && toks[i..] == DefTokens(ds)
    ensures ColumnDefs(toks, i) == Err(MissingCloseParen)
  {
    assert toks[i..] == DefTokens(ds) + [];
    assert i + |DefTokens(ds)| == |toks|;
    DefsPrefix(toks, i, ds, [], Err(MissingCloseParen));
  }

  /** No definition can be read at the start of `rest`: it is empty, or it
      starts with `)`, or it has one token only, or its second token is not
      a type word. */
  predicate Stops(rest: seq<string>) {
    |rest| <= 1 || rest[0] == ")" || TypeOf(rest[1]).None?
  }

  /** How the loop ends at position `j` of the tokens, where `rest` begins
      and no definition can be read. */
  function StopAt(rest: seq<string>, j: nat): Result<Defs, Error> {
    if |rest| == 0 then Err(MissingCloseParen)
    else if rest[0] == ")" then Ok(Defs([], [], j))
    else if |rest| == 1 then Err(TruncatedColumn)
    else Err(UnknownType(Lower(rest[1])))
  }

  /** The loop ends as `StopAt` says where no definition can be read. */
  lemma StopOutcome(toks: seq<string>, j: nat, rest: seq<string>)
    requires j <= |toks| && toks[j..] == rest && Stops(rest)
    ensures ColumnDefs(toks, j) == StopAt(rest, j)
  {
    if |rest| > 0 {
      assert toks[j] == rest[0];
    }
    if |rest| > 1 {
      assert toks[j + 1] == rest[1];
    }
  }

  /** The written definitions the loop reads from `i`, and what follows
      them. */
  lemma {:induction false} Decompose(toks: seq<string>, i: nat) returns (ds: seq<Def>, rest: seq<string>)
    requires i <= |toks|
    ensures Readable(ds) && toks[i..] == DefTokens(ds) + rest && Stops(rest)
    ensures |rest| > 0 ==> MayFollow(ds, rest[0])
    decreases |toks| - i
  {
    if Stops(toks[i..]) {
      ds, rest := [], toks[i..];
      assert toks[i..] == DefTokens(ds) + rest;
    } else {
      assert i + 1 < |toks| && toks[i] != ")" && TypeOf(toks[i + 1]).Some? by {
        assert toks[i..][0] == toks[i];
        assert toks[i..][1] == toks[i + 1];
      }
      var comma := i + 2 < |toks| && toks[i + 2] == ",";
      var next := if comma then i + 3 else i + 2;
      var d0 := Def(toks[i], toks[i + 1], comma);
      var more;
      more, rest := Decompose(toks, next);
      ds := [d0] + more;
      assert ds[1..] == more;
      var head := if comma then [toks[i], toks[i + 1], ","] else [toks[i], toks[i + 1]];
      assert DefTokens(ds) == head + DefTokens(more);
      assert toks[i..] == head + toks[next..];
      Assoc(head, DefTokens(more), rest);
      assert !comma && next < |toks| ==> toks[next] != ",";
      assert next < |toks| ==> toks[next] == (DefTokens(more) + rest)[0] by {
        if next < |toks| {
          assert toks[next..][0] == toks[next];
        }
      }
      assert Apart(ds);
      assert |rest| > 0 ==> MayFollow(ds, rest[0]);
    }
  }

  /** Any tokens are read as written definitions followed by a place where
      no definition can be read, and that place decides the outcome: a `)`
      gives the columns and types of the definitions, the end of the tokens
      a missing `)`, a lone last token a truncated definition, and a
      second token that is not a type word an unknown type. */
  lemma ColumnDefsWritten(toks: seq<string>, i: nat)
    requires i <= |toks|
    ensures exists ds: seq<Def>, rest: seq<string> ::
      && Readable(ds) && toks[i..] == DefTokens(ds) + rest && Stops(rest)
      && ColumnDefs(toks, i) == Prepend(ds, StopAt(rest, i + |DefTokens(ds)|))
  {
    var ds, rest := Decompose(toks, i);
    var j := i + |DefTokens(ds)|;
    assert j <= |toks| && toks[j..] == rest by {
      SuffixSplit(toks, i, DefTokens(ds), rest);
    }
    StopOutcome(toks, j, rest);
    DefsPrefix(toks, i, ds, rest, StopAt(rest, j));
  }

  /** The canonical definitions: each type in its canonical spelling and a
      `,` between two definitions. */
  function Canonical(cols: seq<string>, types: seq<ColType>): (ds: seq<Def>)
    requires |cols| == |types|
    ensures |ds| == |cols|
  {
    if |cols| == 0 then []
    else [Def(cols[0], TypeName(types[0]), |cols| > 1)] + Canonical(cols[1..], types[1..])
  }

  /** The canonical definitions of columns not named `)` are readable and
      name exactly those columns and types. */
  lemma {:induction false} CanonicalReadable(cols: seq<string>, types: seq<ColType>)
    requires |cols| == |types|
    requires forall k | 0 <= k < |cols| :: cols[k] != ")"
    ensures var ds := Canonical(cols, types);
      Readable(ds) && Cols(ds) == cols && Types(ds) == types
    decreases |cols|
  {
    if |cols| > 0 {
      var ds := Canonical(cols, types);
      var ds' := Canonical(cols[1..], types[1..]);
      assert ds[1..] == ds';
      CanonicalReadable(cols[1..], types[1..]);
      TypeOfName(types[0]);
      assert Typed(ds) && Apart(ds);
      HeadTail(cols);
      HeadTail(types);
    }
  }

  /** The tokens of `CREATE TABLE name ( c1 w1 [,] ... ) ;`. */
  function CreateTokens(name: string, ds: seq<Def>): seq<string> {
    ["CREATE", "TABLE", name, "("] + DefTokens(ds) + [")", ";"]
  }

  /** A CREATE statement written for a fresh name, with any number of
      readable definitions including none, adds exactly the described
      table, with no rows. */
  lemma CreateRoundTrip(db: Db, name: string, ds: seq<Def>)
    requires name !in db && Readable(ds)
    ensures HandleCreate(db, CreateTokens(name, ds))
         == Step(db[name := Table(name, Cols(ds), Types(ds), [])], Done)
  {
    var toks := CreateTokens(name, ds);
    AfterPrefix(["CREATE", "TABLE", name, "("], DefTokens(ds), [")", ";"]);
    ColumnDefsRoundTrip(toks, 4, ds, [")", ";"]);
  }

  /** A CREATE statement whose definitions reach a type word other than
      `int` and `text` fails with that word and changes nothing. */
  lemma CreateUnknownType(db: Db, name: string, ds: seq<Def>, c: string, w: string, tail: seq<string>)
    requires name !in db && Readable(ds) && c != ")" && MayFollow(ds, c) && TypeOf(w).None?
    ensures var toks := ["CREATE", "TABLE", name, "("] + DefTokens(ds) + [c, w] + tail;
      HandleCreate(db, toks) == Step(db, Failed(UnknownType(Lower(w))))
  {
    var head := ["CREATE", "TABLE", name, "("];
    var toks := head + DefTokens(ds) + [c, w] + tail;
    assert toks == head + DefTokens(ds) + ([c, w] + tail);
    AfterPrefix(head, DefTokens(ds), [c, w] + tail);
    assert toks[4..] == DefTokens(ds) + [c, w] + tail;
    UnknownTypeRefused(toks, 4, ds, c, w, tail);
  }

  /** A second CREATE for an existing name fails and changes nothing. */
  lemma CreateTwice(db: Db, name: string, ds: seq<Def>, toks: seq<string>)
    requires name !in db && Readable(ds)
    requires |toks| >= 6 && toks[2] == name
    ensures var db' := HandleCreate(db, CreateTokens(name, ds)).db;
      HandleCreate(db', toks) == Step(db', Failed(TableExists))
  {
    CreateRoundTrip(db, name, ds);
  }

  /** An empty column list is a syntax error unless something follows the
      `)`, in which case a table with no columns is created. */
  lemma EmptyColumnList(db: Db)
    requires "t" !in db
    ensures HandleCreate(db, ["CREATE", "TABLE", "t", "(", ")"]).status == Failed(CreateSyntax)
    ensures HandleCreate(db, ["CREATE", "TABLE", "t", "(", ")", ";"]).db == db["t" := Table("t", [], [], [])]
  {
  }
}

=== FILE: insert.dfy ===
/** INSERT INTO (`handleInsert`, code.cpp:159-203). */
module Insert {
  import opened Ascii
  import opened Outcomes
  import opened Integers
  import opened Store
  import opened Seqs

  /** The items of a parenthesised list and the position where it stopped:
      the `)` that closed it, or the end of the tokens. */
  datatype Items = Items(items: seq<string>, stop: nat)

  /** The items written in a list segment: every token is an item, except a
      `,` directly after an item, which separates it from the next one. So
      the separators are optional, and of two `,` in a row the second is an
      item. */
  function Separate(s: seq<string>): (r: seq<string>)
    ensures |r| <= |s|
  {
    if |s| == 0 then []
    else if |s| >= 2 && s[1] == "," then [s[0]] + Separate(s[2..])
    else [s[0]] + Separate(s[1..])
  }

  /** The list loop of code.cpp:169-172 and 180-185 from token `i`: take a
      token, skip one `,` after it, until a `)` (which tokens become items
      is stated by `ListItemsSeparate`). */
  function ListItems(toks: seq<string>, i: nat): (r: Items)
    requires i <= |toks|
    ensures i <= r.stop <= |toks|
    ensures r.stop < |toks| ==> toks[r.stop] == ")"
    ensures forall k | 0 <= k < |r.items| :: r.items[k] != ")"
    ensures |r.items| <= r.stop - i
    decreases |toks| - i
  {
    if i == |toks| || toks[i] == ")" then Items([], i)
    else
      var next := if i + 1 < |toks| && toks[i + 1] == "," then i + 2 else i + 1;
      var rest := ListItems(toks, next);
      Items([toks[i]] + rest.items, rest.stop)
  }

  /** The list stops at the first `)`, and its items are the written items
      of the tokens passed over. */
  lemma {:induction false} ListItemsSeparate(toks: seq<string>, i: nat)
    requires i <= |toks|
    ensures var r := ListItems(toks, i);
      && (forall k | i <= k < r.stop :: toks[k] != ")")
      && r.items == Separate(toks[i..r.stop])
    decreases |toks| - i
  {
    if i < |toks| && toks[i] != ")" {
      var next := if i + 1 < |toks| && toks[i + 1] == "," then i + 2 else i + 1;
      ListItemsSeparate(toks, next);
      var stop := ListItems(toks, next).stop;
      var seg := toks[i..stop];
      assert seg[0] == toks[i] && seg[1..] == toks[i + 1..stop];
      assert next == i + 2 ==> seg[1] == "," && seg[2..] == toks[i + 2..stop];
      assert next == i + 1 && |seg| >= 2 ==> seg[1] != ",";
    }
  }

  /** A list without any `,` is read token for token. */
  lemma {:induction false} SeparateNoCommas(s: seq<string>)
    requires forall k | 0 <= k < |s| :: s[k] != ","
    ensures Separate(s) == s
    decreases |s|
  {
    if |s| > 0 {
      SeparateNoCommas(s[1..]);
      assert [s[0]] + s[1..] == s;
    }
  }

  /** The items of a comma-separated list are the listed items. */
  lemma {:induction false} SeparateCommaList(xs: seq<string>)
    ensures Separate(CommaList(xs)) == xs
    decreases |xs|
  {
    if |xs| > 1 {
      var more := CommaList(xs[1..]);
      assert CommaList(xs) == [xs[0], ","] + more;
      assert ([xs[0], ","] + more)[2..] == more;
      SeparateCommaList(xs[1..]);
      assert [xs[0]] + xs[1..] == xs;
    } else if |xs| == 1 {
      assert Separate(CommaList(xs)) == [xs[0]] + Separate([]);
    }
  }

  /** A missing separator joins nothing, and a doubled one leaves a `,` item. */
  lemma SeparateExamples()
    ensures Separate(["a", "b"]) == ["a", "b"]
    ensures Separate(["a", ",", ",", "b"]) == ["a", ",", "b"]
  {
    assert ["a", "b"][1..] == ["b"];
    assert ["a", ",", ",", "b"][2..] == [",", "b"];
    assert [",", "b"][1..] == ["b"];
  }

  /** Every value with its quotes stripped. */
  function UnquoteAll(vs: seq<string>): (r: seq<string>)
    ensures |r| == |vs|
    ensures forall k | 0 <= k < |vs| :: r[k] == Unquote(vs[k])
  {
    seq(|vs|, k requires 0 <= k < |vs| => Unquote(vs[k]))
  }

  /** The column names and the values of one INSERT. */
  datatype Request = Request(cols: seq<string>, vals: seq<string>)

  /** The syntax checks of code.cpp:161-186, in the order they are made. */
  function ParseInsert(db: Db, toks: seq<string>): (r: Result<Request, Error>)
    ensures |toks| < 6 ==> r == Err(InsertSyntax)
    ensures |toks| >= 6 && toks[2] !in db ==> r == Err(NoSuchTable)
    ensures r.Ok? ==> |toks| >= 6 && toks[2] in db && toks[3] == "("
    ensures r.Ok? ==> forall k | 0 <= k < |r.value.cols| :: r.value.cols[k] != ")"
    ensures r.Ok? ==>
      var names := ListItems(toks, 4);
      && names.stop + 2 < |toks| && toks[names.stop] == ")"
      && IsKeyword(toks[names.stop + 1], "values") && toks[names.stop + 2] == "("
      && var values := ListItems(toks, names.stop + 3);
      && values.stop < |toks| && toks[values.stop] == ")"
      && r.value.cols == names.items && r.value.vals == UnquoteAll(values.items)
    ensures r.Err? ==> r.error in {InsertSyntax, NoSuchTable, ExpectedOpenParen, MissingCloseParen, ExpectedValues}
    ensures |toks| >= 6 && toks[2] in db && toks[3] != "(" ==> r == Err(ExpectedOpenParen)
    ensures |toks| >= 6 && toks[2] in db && toks[3] == "(" ==>
      var stop := ListItems(toks, 4).stop;
      && (stop == |toks| ==> r == Err(MissingCloseParen))
      && (stop < |toks| && (stop + 1 == |toks| || !IsKeyword(toks[stop + 1], "values")) ==> r == Err(ExpectedValues))
      && (stop + 1 < |toks| && IsKeyword(toks[stop + 1], "values") ==>
            && (stop + 2 == |toks| || toks[stop + 2] != "(" ==> r == Err(ExpectedOpenParen))
            && ((stop + 2 < |toks| && toks[stop + 2] == "(" && ListItems(toks, stop + 3).stop == |toks|)
                  ==> r == Err(MissingCloseParen)))
  {
    if |toks| < 6 then Err(InsertSyntax)
    else if toks[2] !in db then Err(NoSuchTable)
    else if toks[3] != "(" then Err(ExpectedOpenParen)
    else
      var names := ListItems(toks, 4);
      if names.stop == |toks| then Err(MissingCloseParen)
      else
        var kw := names.stop + 1;
        if kw == |toks| || !IsKeyword(toks[kw], "values") then Err(ExpectedValues)
        else if kw + 1 == |toks| || toks[kw + 1] != "(" then Err(ExpectedOpenParen)
        else
          var values := ListItems(toks, kw + 2);
          if values.stop == |toks| then Err(MissingCloseParen)
          else Ok(Request(names.items, UnquoteAll(values.items)))
  }

  /** Position of the last occurrence of `x`. */
  function LastIndexOf(xs: seq<string>, x: string): (j: nat)
    requires x in xs
    ensures j < |xs| && xs[j] == x
    ensures forall k | j < k < |xs| :: xs[k] != x
  {
    if xs[|xs| - 1] == x then |xs| - 1
    else
      assert x in xs[..|xs| - 1] by {
        var k :| 0 <= k < |xs| && xs[k] == x;
        assert xs[..|xs| - 1][k] == x;
      }
      LastIndexOf(xs[..|xs| - 1], x)
  }

  /** The row an INSERT should store: at the schema position of each column
      it names, the value given for that column (the last one, if it is
      named twice); the empty string everywhere else. A position whose name
      repeats an earlier column never receives a value, because `find`
      always stops at the first. */
  function Layout(tcols: seq<string>, cols: seq<string>, vals: seq<string>): (row: Row)
    requires |cols| == |vals|
    ensures |row| == |tcols|
  {
    seq(|tcols|, j requires 0 <= j < |tcols| =>
      if IndexOf(tcols, tcols[j]) == Some(j) && tcols[j] in cols
      then vals[LastIndexOf(cols, tcols[j])]
      else "")
  }

  /** A named column exists, and an INT column gets an integer string. */
  predicate Accepts(t: Table, col: string, val: string)
    requires |t.types| == |t.cols|
  {
    col in t.cols && (t.types[Position(t.cols, col)] == IntCol ==> IsIntegerString(val))
  }

  /** Naming one more column updates the expected row at that column's
      position and nowhere else. */
  lemma LayoutStep(tcols: seq<string>, cols: seq<string>, vals: seq<string>, k: nat)
    requires |cols| == |vals| && k < |cols| && cols[k] in tcols
    ensures Layout(tcols, cols[..k + 1], vals[..k + 1])
         == Layout(tcols, cols[..k], vals[..k])[Position(tcols, cols[k]) := vals[k]]
  {
    var after := Layout(tcols, cols[..k + 1], vals[..k + 1]);
    var before := Layout(tcols, cols[..k], vals[..k])[Position(tcols, cols[k]) := vals[k]];
    forall j | 0 <= j < |tcols| ensures after[j] == before[j] {
      LayoutStepAt(tcols, cols, vals, k, j);
    }
  }

  /** The same, one position of the row at a time. */
  lemma LayoutStepAt(tcols: seq<string>, cols: seq<string>, vals: seq<string>, k: nat, j: nat)
    requires |cols| == |vals| && k < |cols| && cols[k] in tcols && j < |tcols|
    ensures Layout(tcols, cols[..k + 1], vals[..k + 1])[j]
         == Layout(tcols, cols[..k], vals[..k])[Position(tcols, cols[k]) := vals[k]][j]
  {
    var c := tcols[j];
    assert cols[..k + 1] == cols[..k] + [cols[k]];
    if c == cols[k] {
      assert c in cols[..k + 1];
      assert LastIndexOf(cols[..k + 1], c) == k;
    } else if c in cols[..k] {
      assert c in cols[..k + 1];
      var m := LastIndexOf(cols[..k], c);
      assert cols[..k + 1][..k] == cols[..k];
      assert LastIndexOf(cols[..k + 1], c) == m;
      assert vals[..k + 1][m] == vals[..k][m];
    } else {
      assert c !in cols[..k + 1];
    }
  }

  /** Entry `m` is the first from `k` on that the table refuses. */
  predicate FirstRefused(t: Table, cols: seq<string>, vals: seq<string>, k: nat, m: nat)
    requires |t.types| == |t.cols| && |cols| == |vals|
  {
    && k <= m < |cols| && !Accepts(t, cols[m], vals[m])
    && forall i | k <= i < m :: Accepts(t, cols[i], vals[i])
  }

  /** When entry `k` is accepted, the first refusal from `k + 1` on is the
      first from `k` on. */
  lemma RefusedLater(t: Table, cols: seq<string>, vals: seq<string>, k: nat)
    requires |t.types| == |t.cols| && |cols| == |vals| && k < |cols|
    requires Accepts(t, cols[k], vals[k])
    ensures forall m: nat :: FirstRefused(t, cols, vals, k + 1, m) ==> FirstRefused(t, cols, vals, k, m)
  {
  }

  /** The mapping loop of code.cpp:190-199 from entry `k`: the first unknown
      column or mistyped value stops it; otherwise every value is written
      at its column's position. */
  function Place(t: Table, cols: seq<string>, vals: seq<string>, k: nat, row: Row): (r: Result<Row, Error>)
    requires |t.types| == |t.cols| && |cols| == |vals| && k <= |cols|
    requires row == Layout(t.cols, cols[..k], vals[..k])
    ensures r.Ok? <==> forall m | k <= m < |cols| :: Accepts(t, cols[m], vals[m])
    ensures r.Ok? ==> r.value == Layout(t.cols, cols, vals)
    ensures r.Err? ==> r.error.UnknownColumn? || r.error.TypeMismatch?
    ensures r.Err? ==>
      exists m: nat :: (FirstRefused(t, cols, vals, k, m)
        && r.error.col == cols[m] && (r.error.UnknownColumn? <==> cols[m] !in t.cols))
    decreases |cols| - k
  {
    if k == |cols| then
      assert cols[..k] == cols && vals[..k] == vals;
      Ok(row)
    else
      match IndexOf(t.cols, cols[k])
      case None =>
        assert FirstRefused(t, cols, vals, k, k);
        Err(UnknownColumn(cols[k]))
      case Some(idx) =>
        if t.types[idx] == IntCol && !IsIntegerString(vals[k]) then
          assert FirstRefused(t, cols, vals, k, k);
          Err(TypeMismatch(cols[k]))
        else
          LayoutStep(t.cols, cols, vals, k);
          RefusedLater(t, cols, vals, k);
          Place(t, cols, vals, k + 1, row[idx := vals[k]])
  }

  /** `handleInsert`. Every refusal leaves the store as it was. On success
      exactly one row is appended to the named table and nothing else
      changes: the row has one cell per column, each named value sits at
      its column's position and every other cell is empty. */
  function HandleInsert(db: Db, toks: seq<string>): (r: Step)
    requires Consistent(db)
    ensures r.status.Failed? ==> r.db == db
    ensures r.status.Done? <==>
      && ParseInsert(db, toks).Ok?
      && var req := ParseInsert(db, toks).value;
      && |req.cols| == |req.vals|
      && forall m | 0 <= m < |req.cols| :: Accepts(db[toks[2]], req.cols[m], req.vals[m])
    ensures ParseInsert(db, toks).Err? ==> r.status == Failed(ParseInsert(db, toks).error)
    ensures ParseInsert(db, toks).Ok? ==>
      var req := ParseInsert(db, toks).value;
      && (|req.cols| != |req.vals| ==> r.status == Failed(CountMismatch))
      && (|req.cols| == |req.vals| && r.status.Failed? ==>
            var t := db[toks[2]];
            exists m: nat :: (FirstRefused(t, req.cols, req.vals, 0, m)
              && r.status.error == (if req.cols[m] in t.cols then TypeMismatch(req.cols[m]) else UnknownColumn(req.cols[m]))))
    ensures r.status.Done? ==>
      var t := db[toks[2]];
      var req := ParseInsert(db, toks).value;
      r.db == db[toks[2] := t.(rows := t.rows + [Layout(t.cols, req.cols, req.vals)])]
    ensures Consistent(r.db)
    ensures Checked(db) ==> Checked(r.db)
  {
    match ParseInsert(db, toks)
    case Err(e) => Step(db, Failed(e))
    case Ok(req) =>
      var name := toks[2];
      var t := db[name];
      if |req.cols| != |req.vals| then Step(db, Failed(CountMismatch))
      else
        assert req.cols[..0] == [] && req.vals[..0] == [];
        var blank := Layout(t.cols, [], []);
        match Place(t, req.cols, req.vals, 0, blank)
        case Err(e) => Step(db, Failed(e))
        case Ok(row) =>
          var t' := t.(rows := t.rows + [row]);
          IntCellsOfNewRow(t, req.cols, req.vals);
          ReplaceTable(db, t');
          Step(db[name := t'], Done)
  }

  /** Putting a well-formed table back under its own name keeps the store
      invariant, and keeps the INT cells checked when the table's are. */
  lemma ReplaceTable(db: Db, t: Table)
    requires Consistent(db) && WellFormed(t)
    ensures Consistent(db[t.name := t])
    ensures Checked(db) && IntCellsChecked(t) ==> Checked(db[t.name := t])
  {
  }

  /** The row an accepted INSERT stores keeps the INT cells checked. */
  lemma IntCellsOfNewRow(t: Table, cols: seq<string>, vals: seq<string>)
    requires WellFormed(t) && |cols| == |vals|
    requires forall m | 0 <= m < |cols| :: Accepts(t, cols[m], vals[m])
    ensures var t' := t.(rows := t.rows + [Layout(t.cols, cols, vals)]);
      WellFormed(t') && (IntCellsChecked(t) ==> IntCellsChecked(t'))
  {
    var row := Layout(t.cols, cols, vals);
    forall j | 0 <= j < |t.cols| && t.types[j] == IntCol
      ensures row[j] == "" || IsIntegerString(row[j])
    {
      if IndexOf(t.cols, t.cols[j]) == Some(j) && t.cols[j] in cols {
        var m := LastIndexOf(cols, t.cols[j]);
        assert Accepts(t, cols[m], vals[m]);
      }
    }
  }

  /** A written list followed by `)` is read back item for item. */
  lemma {:induction false} ListItemsRoundTrip(p: seq<string>, xs: seq<string>, tail: seq<string>)
    requires forall k | 0 <= k < |xs| :: xs[k] != ")"
    requires |tail| > 0 && tail[0] == ")"
    ensures ListItems(p + CommaList(xs) + tail, |p|) == Items(xs, |p| + |CommaList(xs)|)
    decreases |xs|
  {
    var toks := p + CommaList(xs) + tail;
    var i := |p|;
    if |xs| <= 1 {
      assert CommaList(xs) == xs;
      assert toks[i + |xs|] == ")" by {
        Parts(p, xs, tail);
      }
      if |xs| == 1 {
        assert toks[i] == xs[0] by {
          Parts(p, xs, tail);
        }
        assert ListItems(toks, i + 1) == Items([], i + 1);
        assert [xs[0]] + [] == xs;
      }
    } else {
      CommaListShift(p, xs, tail);
      ListItemsRoundTrip(p + [xs[0], ","], xs[1..], tail);
      assert [xs[0]] + xs[1..] == xs;
    }
  }

  /** Every value written as a quoted literal. */
  function QuoteAll(vs: seq<string>): (r: seq<string>)
    ensures |r| == |vs|
    ensures forall k | 0 <= k < |vs| :: r[k] == Quote(vs[k])
  {
    seq(|vs|, k requires 0 <= k < |vs| => Quote(vs[k]))
  }

  /** The tokens of `) VALUES ( 'v1' , ... ) ;`, which end a written INSERT. */
  function ValuesTokens(vals: seq<string>): seq<string> {
    [")", "VALUES", "("] + CommaList(QuoteAll(vals)) + [")", ";"]
  }

  /** The tokens of `INSERT INTO name ( c1 , ... ) VALUES ( 'v1' , ... ) ;`. */
  function InsertTokens(name: string, cols: seq<string>, vals: seq<string>): seq<string> {
    ["INSERT", "INTO", name, "("] + CommaList(cols) + ValuesTokens(vals)
  }

  lemma LowerValues()
    ensures IsKeyword("VALUES", "values")
  {
    assert Lower("S") == "s";
    assert Lower("ES") == "es";
    assert Lower("UES") == "ues";
    assert Lower("LUES") == "lues";
    assert Lower("ALUES") == "alues";
  }

  /** Quoting and then stripping every value gives the values back. */
  lemma UnquoteQuoteAll(vals: seq<string>)
    ensures UnquoteAll(QuoteAll(vals)) == vals
    ensures forall k | 0 <= k < |vals| :: QuoteAll(vals)[k] != ")"
  {
    var qs := QuoteAll(vals);
    forall k | 0 <= k < |vals| ensures UnquoteAll(qs)[k] == vals[k] && qs[k] != ")" {
      UnquoteQuote(vals[k]);
      assert |qs[k]| == |vals[k]| + 2;
    }
  }

  /** How the values of a written INSERT begin, and how they read,
      whatever precedes them. */
  lemma ValuesShape(a: seq<string>, vals: seq<string>)
    ensures var rest := ValuesTokens(vals);
      var qs := QuoteAll(vals);
      && |rest| == 5 + |CommaList(qs)|
      && rest[0] == ")" && IsKeyword(rest[1], "values") && rest[2] == "("
      && ListItems(a + rest, |a| + 3) == Items(qs, |a| + 3 + |CommaList(qs)|)
  {
    var qs := QuoteAll(vals);
    UnquoteQuoteAll(vals);
    var a' := a + [")", "VALUES", "("];
    assert a + ValuesTokens(vals) == a' + CommaList(qs) + [")", ";"] by {
      Rebase(a, [")", "VALUES", "("], CommaList(qs), [")", ";"]);
    }
    ListItemsRoundTrip(a', qs, [")", ";"]);
    ValuesKeyword(vals);
  }

  /** The values part opens with `) VALUES (`, the keyword in any case. */
  lemma ValuesKeyword(vals: seq<string>)
    ensures var rest := ValuesTokens(vals);
      && |rest| == 5 + |CommaList(QuoteAll(vals))|
      && rest[0] == ")" && IsKeyword(rest[1], "values") && rest[2] == "("
  {
    assert ValuesTokens(vals)[1] == "VALUES";
    LowerValues();
  }

  /** Where the table name and the column list of a written INSERT sit. */
  lemma InsertColumnsShape(name: string, cols: seq<string>, vals: seq<string>)
    requires forall k | 0 <= k < |cols| :: cols[k] != ")"
    ensures var toks := InsertTokens(name, cols, vals);
      && toks[2] == name && toks[3] == "("
      && ListItems(toks, 4) == Items(cols, 4 + |CommaList(cols)|)
  {
    var head := ["INSERT", "INTO", name, "("];
    var toks := InsertTokens(name, cols, vals);
    assert toks[2] == name && toks[3] == "(" by {
      Parts(head, CommaList(cols), ValuesTokens(vals));
    }
    UnquoteQuoteAll(vals);
    ListItemsRoundTrip(head, cols, ValuesTokens(vals));
  }

  /** A written INSERT is parsed back into its columns and unquoted values. */
  lemma ParseInsertRoundTrip(db: Db, name: string, cols: seq<string>, vals: seq<string>)
    requires name in db
    requires forall k | 0 <= k < |cols| :: cols[k] != ")"
    ensures ParseInsert(db, InsertTokens(name, cols, vals)) == Ok(Request(cols, vals))
  {
    var a := ["INSERT", "INTO", name, "("] + CommaList(cols);
    InsertColumnsShape(name, cols, vals);
    ParseWritten(db, a, cols, vals);
  }

  /** Whatever spells the table and the columns, the written values that
      follow them are parsed back. */
  lemma ParseWritten(db: Db, a: seq<string>, cols: seq<string>, vals: seq<string>)
    requires |a| >= 4 && a[2] in db && a[3] == "("
    requires ListItems(a + ValuesTokens(vals), 4) == Items(cols, |a|)
    ensures ParseInsert(db, a + ValuesTokens(vals)) == Ok(Request(cols, vals))
  {
    var qs := QuoteAll(vals);
    ValuesShape(a, vals);
    ParseInsertOk(db, a, ValuesTokens(vals), cols, Items(qs, |a| + 3 + |CommaList(qs)|));
    UnquoteQuoteAll(vals);
  }

  /** A statement made of a table-and-columns part `a` and a values part
      `rest` that sit where they should is parsed into the column list and
      the unquoted value list. */
  lemma ParseInsertOk(db: Db, a: seq<string>, rest: seq<string>, cols: seq<string>, values: Items)
    requires |a| >= 4 && a[2] in db && a[3] == "("
    requires ListItems(a + rest, 4) == Items(cols, |a|)
    requires |rest| >= 3 && rest[0] == ")" && IsKeyword(rest[1], "values") && rest[2] == "("
    requires ListItems(a + rest, |a| + 3) == values && values.stop < |a| + |rest|
    ensures ParseInsert(db, a + rest) == Ok(Request(cols, UnquoteAll(values.items)))
  {
    var toks := a + rest;
    assert toks[2] == a[2] && toks[3] == a[3];
    assert toks[|a| + 1] == rest[1] && toks[|a| + 2] == rest[2];
    ParseInsertAt(db, toks, cols, |a|, values);
  }

  /** The same for the statement as one token sequence. */
  lemma ParseInsertAt(db: Db, toks: seq<string>, cols: seq<string>, stop: nat, values: Items)
    requires |toks| >= 6 && toks[2] in db && toks[3] == "("
    requires 4 <= stop && stop + 2 < |toks| && ListItems(toks, 4) == Items(cols, stop)
    requires IsKeyword(toks[stop + 1], "values") && toks[stop + 2] == "("
    requires ListItems(toks, stop + 3) == values && values.stop < |toks|
    ensures ParseInsert(db, toks) == Ok(Request(cols, UnquoteAll(values.items)))
  {
  }

  /** A written INSERT whose columns exist and whose INT values are integer
      strings appends exactly the expected row. */
  lemma InsertRoundTrip(db: Db, name: string, cols: seq<string>, vals: seq<string>)
    requires Consistent(db) && name in db
    requires |cols| == |vals|
    requires forall k | 0 <= k < |cols| :: cols[k] != ")" && Accepts(db[name], cols[k], vals[k])
    ensures var t := db[name];
      HandleInsert(db, InsertTokens(name, cols, vals))
        == Step(db[name := t.(rows := t.rows + [Layout(t.cols, cols, vals)])], Done)
  {
    ParseInsertRoundTrip(db, name, cols, vals);
  }

  /** A value that is not an integer string for an INT column never adds a
      row, whatever else the statement holds. */
  lemma TypeGatedInsert(db: Db, toks: seq<string>, m: nat)
    requires Consistent(db)
    requires ParseInsert(db, toks).Ok?
    requires var req := ParseInsert(db, toks).value;
      m < |req.cols| && m < |req.vals| && req.cols[m] in db[toks[2]].cols &&
      db[toks[2]].types[Position(db[toks[2]].cols, req.cols[m])] == IntCol &&
      !IsIntegerString(req.vals[m])
    ensures HandleInsert(db, toks) == Step(db, HandleInsert(db, toks).status)
    ensures HandleInsert(db, toks).status.Failed?
  {
  }
}

=== FILE: integers.dfy ===
/** Integer literals: the `isIntegerString` check (code.cpp:79-85) and the
    `stoll` conversion the condition evaluator applies after it
    (code.cpp:106-108). */
module Integers {
  import opened Ascii
  import opened Outcomes

  predicate IsSign(c: char) {
    c == '+' || c == '-'
  }

  predicate AllDigits(s: string) {
    forall k | 0 <= k < |s| :: IsDigit(s[k])
  }

  /** The part of `s` after an optional leading sign. */
  function Magnitude(s: string): (m: string)
    requires |s| > 0
    ensures |s| - 1 <= |m| <= |s| && m == s[|s| - |m|..]
    ensures |m| < |s| <==> IsSign(s[0])
  {
    if IsSign(s[0]) then s[1..] else s
  }

  /** `isIntegerString`: nonempty, and digits only after an optional single
      sign. A bare `+` or `-` passes. */
  predicate IsIntegerString(s: string) {
    |s| > 0 && AllDigits(Magnitude(s))
  }

  /** A sign with no digits after it: passes the check, then makes `stoll` throw. */
  predicate IsBareSign(s: string) {
    s == "+" || s == "-"
  }

  function DigitValue(c: char): (d: nat)
    requires IsDigit(c)
    ensures d < 10
  {
    c as int - '0' as int
  }

  function DigitChar(d: nat): (c: char)
    requires d < 10
    ensures IsDigit(c) && DigitValue(c) == d
  {
    ('0' as int + d) as char
  }

  /** Value of a string of decimal digits, most significant first. */
  function DigitsValue(ds: string): nat
    requires AllDigits(ds)
  {
    if |ds| == 0 then 0 else DigitsValue(ds[..|ds| - 1]) * 10 + DigitValue(ds[|ds| - 1])
  }

  /** `stoll` on a string that passed `IsIntegerString`; `None` is the
      `std::invalid_argument` it throws when no digit follows the sign.
      Values are unbounded: the `out_of_range` case is not modelled. */
  function StoLL(s: string): (r: Option<int>)
    requires IsIntegerString(s)
    ensures r.None? <==> IsBareSign(s)
    ensures r.Some? && s[0] == '-' ==> r.value <= 0
    ensures r.Some? && s[0] != '-' ==> r.value >= 0
  {
    var m := Magnitude(s);
    var v: int := if |m| == 0 then 0 else DigitsValue(m);
    if |m| == 0 then None
    else if s[0] == '-' then Some(-v)
    else Some(v)
  }

  /** Decimal digits of a natural number, without leading zeros. */
  function NatDigits(n: nat): (ds: string)
    ensures |ds| > 0 && AllDigits(ds)
    ensures DigitsValue(ds) == n
    ensures ds[0] != '0' || n == 0
    decreases n
  {
    if n < 10 then [DigitChar(n)]
    else
      var prefix := NatDigits(n / 10);
      var ds := prefix + [DigitChar(n % 10)];
      assert ds[..|ds| - 1] == prefix;
      ds
  }

  /** The usual decimal spelling of an integer, with `-` for negatives. */
  function Decimal(n: int): string {
    if n < 0 then "-" + NatDigits(-n) else NatDigits(n)
  }

  /** Every integer, written in decimal, passes the check and converts back
      to itself. */
  lemma DecimalRoundTrip(n: int)
    ensures IsIntegerString(Decimal(n))
    ensures StoLL(Decimal(n)) == Some(n)
  {
    var s := Decimal(n);
    if n < 0 {
      assert Magnitude(s) == NatDigits(-n);
    } else {
      assert !IsSign(s[0]);
    }
  }

  /** A leading `+` is accepted and ignored. */
  lemma PlusSignIgnored(ds: string)
    requires |ds| > 0 && AllDigits(ds)
    ensures IsIntegerString("+" + ds) && IsIntegerString(ds)
    ensures StoLL("+" + ds) == StoLL(ds)
  {
    assert Magnitude("+" + ds) == ds;
    assert !IsSign(ds[0]);
  }

  /** A bare sign passes the check, and converting it throws. */
  lemma BareSignsPass()
    ensures IsIntegerString("-") && StoLL("-") == None
    ensures IsIntegerString("+") && StoLL("+") == None
  {
    assert Magnitude("-") == [];
    assert Magnitude("+") == [];
  }

  /** The empty string, the empty magnitude after two signs and a letter fail. */
  lemma NonIntegerExamples()
    ensures !IsIntegerString("") && !IsIntegerString("+-1") && !IsIntegerString("1a")
  {
    assert Magnitude("+-1") == "-1" && !IsDigit("-1"[0]);
    assert !IsDigit("1a"[1]);
  }

  predicate AllZeros(z: string) {
    forall k | 0 <= k < |z| :: z[k] == '0'
  }

  /** Zeros in front of a digit string do not change its value. */
  lemma {:induction false} ZerosInFront(z: string, ds: string)
    requires AllZeros(z) && AllDigits(ds)
    ensures AllDigits(z + ds) && DigitsValue(z + ds) == DigitsValue(ds)
    decreases |ds|
  {
    if |ds| == 0 {
      assert z + ds == z;
      ZerosValue(z);
    } else {
      var init := ds[..|ds| - 1];
      assert (z + ds)[..|z + ds| - 1] == z + init;
      assert (z + ds)[|z + ds| - 1] == ds[|ds| - 1];
      ZerosInFront(z, init);
    }
  }

  /** A string of zeros is worth zero. */
  lemma {:induction false} ZerosValue(z: string)
    requires AllZeros(z)
    ensures AllDigits(z) && DigitsValue(z) == 0
    decreases |z|
  {
    if |z| > 0 {
      ZerosValue(z[..|z| - 1]);
    }
  }

  /** Any number of leading zeros is accepted, after a `-` as well, and
      does not change the value. */
  lemma LeadingZeros(z: string, n: nat)
    requires AllZeros(z)
    ensures IsIntegerString(z + Decimal(n)) && StoLL(z + Decimal(n)) == Some(n)
    ensures IsIntegerString("-" + z + Decimal(n)) && StoLL("-" + z + Decimal(n)) == Some(-(n as int))
  {
    var ds := Decimal(n);
    assert ds == NatDigits(n);
    ZerosInFront(z, ds);
    var s := z + ds;
    assert !IsSign(s[0]) by {
      if |z| > 0 {
        assert s[0] == z[0];
      } else {
        assert s[0] == ds[0];
      }
    }
    assert Magnitude(s) == s && DigitsValue(s) == n;
    assert Magnitude("-" + s) == s;
    assert "-" + z + ds == "-" + s;
  }

  /** Leading zeros are accepted, and the sign is applied to the digits. */
  lemma ConversionExamples()
    ensures IsIntegerString("007") && StoLL("007") == Some(7)
    ensures IsIntegerString("-12") && StoLL("-12") == Some(-12)
  {
    assert StoLL("007") == Some(7) by {
      assert Magnitude("007") == "007";
      assert "007"[..2] == "00" && "00"[..1] == "0";
      assert DigitsValue("00") == 0;
    }
    assert StoLL("-12") == Some(-12) by {
      assert Magnitude("-12") == "12";
      assert "12"[..1] == "1" && "1"[..0] == "";
      assert DigitsValue("1") == 1;
      assert DigitsValue("12") == 12;
    }
  }
}

=== FILE: lexer.dfy ===
/** The statement tokenizer (`tokenize`, code.cpp:38-77). */
module Lexer {
  import opened Ascii
  import opened Seqs

  /** What `tokenize` does with a string: it returns a token list, or it
      reaches position `at`, where the word branch consumes nothing and the
      scan never advances again (it keeps appending empty tokens forever). */
  datatype Lexed = Tokens(toks: seq<string>) | Diverges(at: nat)

  /** Characters a word token is made of. */
  predicate IsWordChar(c: char) {
    IsAlnum(c) || c == '_' || c == '.'
  }

  /** The three operators recognised by one character of lookahead, compared
      character by character (`OperatorsAreTheThree`). */
  predicate IsOperator2(t: string) {
    |t| == 2 && (t[0] == '!' || t[0] == '<' || t[0] == '>') && t[1] == '='
  }

  /** `IsOperator2` is the source's test `two == "!=" || two == "<=" || two == ">="`. */
  lemma OperatorsAreTheThree(t: string)
    ensures IsOperator2(t) <==> t == "!=" || t == "<=" || t == ">="
  {
    if IsOperator2(t) {
      assert t == [t[0], t[1]];
    }
  }

  /** A word token: a run of word characters. It never starts with `.`,
      because `.` is punctuation and is split off on its own. */
  predicate IsWord(t: string) {
    && |t| > 0
    && (IsAlnum(t[0]) || t[0] == '_')
    && forall k | 0 <= k < |t| :: IsWordChar(t[k])
  }

  /** A quoted literal, kept with both of its quotes and without a quote inside. */
  predicate IsQuoted(t: string) {
    && |t| >= 2
    && t[0] == '\'' && t[|t| - 1] == '\''
    && forall k | 0 < k < |t| - 1 :: t[k] != '\''
  }

  /** A one-character punctuation token. */
  predicate IsSymbol(t: string) {
    |t| == 1 && IsPunct(t[0]) && t[0] != '_' && t[0] != '\''
  }

  /** Every shape of token the tokenizer can emit. */
  predicate IsToken(t: string) {
    IsWord(t) || IsQuoted(t) || IsOperator2(t) || IsSymbol(t)
  }

  /** End of the maximal run of word characters starting at `i`. */
  function WordEnd(s: string, i: nat): (j: nat)
    requires i <= |s|
    ensures i <= j <= |s|
    ensures forall k | i <= k < j :: IsWordChar(s[k])
    ensures j == |s| || !IsWordChar(s[j])
    decreases |s| - i
  {
    if i < |s| && IsWordChar(s[i]) then WordEnd(s, i + 1) else i
  }

  /** Position of the first quote at or after `j`, or `|s|` if there is none. */
  function QuoteEnd(s: string, j: nat): (k: nat)
    requires j <= |s|
    ensures j <= k <= |s|
    ensures forall m | j <= m < k :: s[m] != '\''
    ensures k == |s| || s[k] == '\''
    decreases |s| - j
  {
    if j < |s| && s[j] != '\'' then QuoteEnd(s, j + 1) else j
  }

  /** Puts `t` in front of the tokens that follow it. */
  function Cons(t: string, rest: Lexed): Lexed {
    match rest
    case Tokens(ts) => Tokens([t] + ts)
    case Diverges(_) => rest
  }

  /** Tokens of `s` from position `i` on (what they look like is stated by
      `TokenizeFromShapes`). */
  function TokenizeFrom(s: string, i: nat): (r: Lexed)
    requires i <= |s|
    ensures r.Diverges? ==> i <= r.at < |s|
    decreases |s| - i
  {
    if i == |s| then Tokens([])
    else if IsSpace(s[i]) then TokenizeFrom(s, i + 1)
    else if s[i] == '\'' then
      // an unterminated literal runs to the end and is still closed
      var k := QuoteEnd(s, i + 1);
      Cons("'" + s[i + 1..k] + "'", TokenizeFrom(s, if k < |s| then k + 1 else k))
    else if IsPunct(s[i]) && s[i] != '_' then
      if i + 1 < |s| && IsOperator2(s[i..i + 2]) then Cons(s[i..i + 2], TokenizeFrom(s, i + 2))
      else Cons([s[i]], TokenizeFrom(s, i + 1))
    else
      var j := WordEnd(s, i);
      if j == i then Diverges(i) else Cons(s[i..j], TokenizeFrom(s, j))
  }

  /** Every token of `r` has one of the four shapes, and if `r` diverges it
      does so at a character of `s` outside the three character classes. */
  predicate WellShaped(s: string, r: Lexed) {
    && (r.Tokens? ==> forall k | 0 <= k < |r.toks| :: IsToken(r.toks[k]))
    && (r.Diverges? ==> r.at < |s| && !InAlphabet(s[r.at]))
  }

  lemma ConsShaped(s: string, t: string, rest: Lexed)
    requires IsToken(t) && WellShaped(s, rest)
    ensures WellShaped(s, Cons(t, rest))
  {
    if rest.Tokens? {
      var r := Cons(t, rest);
      forall k | 0 <= k < |r.toks| ensures IsToken(r.toks[k]) {
        if k > 0 {
          assert r.toks[k] == rest.toks[k - 1];
        }
      }
    }
  }

  /** Every token emitted from position `i` on has one of the four shapes,
      and the scan diverges only at a character outside the three character
      classes. */
  lemma {:induction false} TokenizeFromShapes(s: string, i: nat)
    requires i <= |s|
    ensures WellShaped(s, TokenizeFrom(s, i))
    decreases |s| - i
  {
    if i == |s| {
    } else if IsSpace(s[i]) {
      TokenizeFromShapes(s, i + 1);
    } else if s[i] == '\'' {
      var k := QuoteEnd(s, i + 1);
      var next := if k < |s| then k + 1 else k;
      TokenizeFromShapes(s, next);
      QuotedShape(s, i);
      ConsShaped(s, "'" + s[i + 1..k] + "'", TokenizeFrom(s, next));
    } else if IsPunct(s[i]) && s[i] != '_' {
      if i + 1 < |s| && IsOperator2(s[i..i + 2]) {
        TokenizeFromShapes(s, i + 2);
        ConsShaped(s, s[i..i + 2], TokenizeFrom(s, i + 2));
      } else {
        TokenizeFromShapes(s, i + 1);
        assert IsSymbol([s[i]]);
        ConsShaped(s, [s[i]], TokenizeFrom(s, i + 1));
      }
    } else {
      var j := WordEnd(s, i);
      if j > i {
        TokenizeFromShapes(s, j);
        WordShape(s, i);
        ConsShaped(s, s[i..j], TokenizeFrom(s, j));
      }
    }
  }

  /** A literal the quote branch emits is a quoted token. */
  lemma QuotedShape(s: string, i: nat)
    requires i < |s| && s[i] == '\''
    ensures IsQuoted("'" + s[i + 1..QuoteEnd(s, i + 1)] + "'")
  {
    var t := "'" + s[i + 1..QuoteEnd(s, i + 1)] + "'";
    forall m | 0 < m < |t| - 1 ensures t[m] != '\'' {
      assert t[m] == s[i + m];
    }
  }

  /** A run the word branch emits is a word, when it is not empty. */
  lemma WordShape(s: string, i: nat)
    requires i < |s| && !IsSpace(s[i]) && s[i] != '\'' && !(IsPunct(s[i]) && s[i] != '_')
    requires WordEnd(s, i) > i
    ensures IsWord(s[i..WordEnd(s, i)])
  {
    var j := WordEnd(s, i);
    forall m | 0 <= m < j - i ensures IsWordChar(s[i..j][m]) {
      assert s[i..j][m] == s[i + m];
    }
  }

  /** `tokenize`. On a statement written in the three character classes it
      always terminates. */
  function Tokenize(s: string): (r: Lexed)
    ensures r.Tokens? ==> forall k | 0 <= k < |r.toks| :: IsToken(r.toks[k])
    ensures r.Diverges? ==> r.at < |s| && !InAlphabet(s[r.at])
    ensures (forall k | 0 <= k < |s| :: InAlphabet(s[k])) ==> r.Tokens?
  {
    TokenizeFromShapes(s, 0);
    TokenizeFrom(s, 0)
  }

  /** The tokens written out, each followed by one blank. */
  function Spaced(ts: seq<string>): string {
    if |ts| == 0 then "" else ts[0] + " " + Spaced(ts[1..])
  }

  /** A quoted literal followed by a blank is scanned back as itself. */
  lemma QuotedStep(s: string, i: nat, t: string)
    requires IsQuoted(t) && i + |t| < |s| && s[i..i + |t|] == t
    ensures TokenizeFrom(s, i) == Cons(t, TokenizeFrom(s, i + |t|))
  {
    assert s[i] == t[0];
    assert forall m | i + 1 <= m < i + |t| - 1 :: s[m] == t[m - i];
    assert s[i + |t| - 1] == t[|t| - 1];
    var k := QuoteEnd(s, i + 1);
    assert k == i + |t| - 1;
    assert s[i + 1..k] == t[1..|t| - 1];
    assert "'" + s[i + 1..k] + "'" == t;
  }

  /** A word followed by a character outside words is scanned back as itself. */
  lemma WordStep(s: string, i: nat, t: string)
    requires IsWord(t) && i + |t| < |s| && s[i..i + |t|] == t && !IsWordChar(s[i + |t|])
    ensures TokenizeFrom(s, i) == Cons(t, TokenizeFrom(s, i + |t|))
  {
    assert s[i] == t[0];
    assert forall m | i <= m < i + |t| :: s[m] == t[m - i];
    assert WordEnd(s, i) == i + |t|;
  }

  /** A one-character symbol is scanned back as itself whatever follows
      it, glued word characters included, unless it starts one of the
      three two-character operators. */
  lemma SymbolStep(s: string, i: nat, t: string)
    requires IsSymbol(t) && i < |s| && s[i] == t[0]
    requires !(i + 1 < |s| && IsOperator2(s[i..i + 2]))
    ensures TokenizeFrom(s, i) == Cons(t, TokenizeFrom(s, i + 1))
  {
    assert [s[i]] == t;
  }

  /** A two-character operator is scanned back as itself. */
  lemma OperatorStep(s: string, i: nat, t: string)
    requires IsOperator2(t) && i + 2 <= |s| && s[i..i + 2] == t
    ensures TokenizeFrom(s, i) == Cons(t, TokenizeFrom(s, i + 2))
  {
    assert s[i] == t[0];
  }

  /** A run of white space of any kind (blank, tab, newline, vertical tab,
      form feed, carriage return) is skipped. */
  lemma {:induction false} BlanksSkipped(s: string, i: nat, j: nat)
    requires i <= j <= |s|
    requires forall k | i <= k < j :: IsSpace(s[k])
    ensures TokenizeFrom(s, i) == TokenizeFrom(s, j)
    decreases j - i
  {
    if i < j {
      BlanksSkipped(s, i + 1, j);
    }
  }

  /** One token followed by white space is scanned back as exactly that
      token, and the scan goes on after the white space character. */
  lemma TokenStep(s: string, i: nat, t: string)
    requires IsToken(t) && i + |t| < |s| && s[i..i + |t|] == t && IsSpace(s[i + |t|])
    ensures TokenizeFrom(s, i) == Cons(t, TokenizeFrom(s, i + |t| + 1))
  {
    BlanksSkipped(s, i + |t|, i + |t| + 1);
    if IsQuoted(t) {
      QuotedStep(s, i, t);
    } else if IsOperator2(t) {
      OperatorStep(s, i, t);
    } else if IsSymbol(t) {
      assert s[i] == t[0] && s[i..i + 2][1] == s[i + 1];
      SymbolStep(s, i, t);
    } else {
      WordStep(s, i, t);
    }
  }

  /** A suffix that spells out a token sequence starts with the first token
      and a blank, and the rest spells out the other tokens. */
  lemma SpacedSplit(s: string, i: nat, ts: seq<string>)
    requires |ts| > 0 && i <= |s| && s[i..] == Spaced(ts)
    ensures var t := ts[0];
      && i + |t| < |s| && s[i..i + |t|] == t && s[i + |t|] == ' '
      && s[i + |t| + 1..] == Spaced(ts[1..])
  {
    var t := ts[0];
    assert s[i..] == t + " " + Spaced(ts[1..]);
    assert s[i..i + |t|] == s[i..][..|t|];
    assert s[i + |t| + 1..] == s[i..][|t| + 1..];
  }

  /** Every token of `ts` has one of the four shapes, stated one token at a
      time (`AllTokensEach` gives the indexed form). */
  predicate AllTokens(ts: seq<string>) {
    |ts| == 0 || (IsToken(ts[0]) && AllTokens(ts[1..]))
  }

  lemma {:induction false} AllTokensEach(ts: seq<string>)
    requires forall k | 0 <= k < |ts| :: IsToken(ts[k])
    ensures AllTokens(ts)
    decreases |ts|
  {
    if |ts| > 0 {
      forall k | 0 <= k < |ts[1..]| ensures IsToken(ts[1..][k]) {
        assert ts[1..][k] == ts[k + 1];
      }
      AllTokensEach(ts[1..]);
    }
  }

  /** Tokenizing a suffix that spells out a token sequence, each token
      followed by a blank, gives the sequence back. */
  lemma {:induction false} TokenizeSpacedFrom(s: string, i: nat, ts: seq<string>)
    requires i <= |s| && s[i..] == Spaced(ts) && AllTokens(ts)
    ensures TokenizeFrom(s, i) == Tokens(ts)
    decreases |ts|
  {
    if |ts| == 0 {
      assert |s[i..]| == 0;
    } else {
      var t := ts[0];
      var j := i + |t| + 1;
      assert j <= |s| && TokenizeFrom(s, i) == Cons(t, TokenizeFrom(s, j)) by {
        SpacedSplit(s, i, ts);
        TokenStep(s, i, t);
      }
      assert TokenizeFrom(s, j) == Tokens(ts[1..]) by {
        SpacedSplit(s, i, ts);
        TokenizeSpacedFrom(s, j, ts[1..]);
      }
      assert [t] + ts[1..] == ts;
    }
  }

  /** `Tokenize` inverts `Spaced`. */
  lemma TokenizeSpaced(ts: seq<string>)
    requires forall k | 0 <= k < |ts| :: IsToken(ts[k])
    ensures Tokenize(Spaced(ts)) == Tokens(ts)
  {
    var s := Spaced(ts);
    assert s[0..] == s;
    AllTokensEach(ts);
    TokenizeSpacedFrom(s, 0, ts);
  }

  /** A sign in front of a number is a token of its own. */
  lemma SignIsSeparate()
    ensures Tokenize("-5") == Tokens(["-", "5"])
  {
    var s := "-5";
    assert WordEnd(s, 2) == 2;
    assert WordEnd(s, 1) == 2;
    assert s[1..2] == "5";
    assert TokenizeFrom(s, 2) == Tokens([]);
    assert TokenizeFrom(s, 1) == Tokens(["5"]);
    assert s[0..2] == "-5";
  }

  /** The two-character operators come out whole. */
  lemma OperatorsAreWhole()
    ensures Tokenize("a>=b") == Tokens(["a", ">=", "b"])
    ensures Tokenize("a!=b") == Tokens(["a", "!=", "b"])
  {
    var s := "a>=b";
    assert WordEnd(s, 3) == 4;
    assert s[3..4] == "b";
    assert TokenizeFrom(s, 4) == Tokens([]);
    assert TokenizeFrom(s, 3) == Tokens(["b"]);
    assert s[1..3] == ">=";
    assert TokenizeFrom(s, 1) == Tokens([">=", "b"]);
    assert WordEnd(s, 0) == 1;
    assert s[0..1] == "a";
    var s' := "a!=b";
    assert WordEnd(s', 3) == 4;
    assert s'[3..4] == "b";
    assert TokenizeFrom(s', 4) == Tokens([]);
    assert TokenizeFrom(s', 3) == Tokens(["b"]);
    assert s'[1..3] == "!=";
    assert TokenizeFrom(s', 1) == Tokens(["!=", "b"]);
    assert WordEnd(s', 0) == 1;
    assert s'[0..1] == "a";
  }

  /** An unterminated literal still comes out closed. */
  lemma UnterminatedQuote()
    ensures Tokenize("'ab") == Tokens(["'ab'"])
  {
    var s := "'ab";
    assert QuoteEnd(s, 1) == 3;
    assert s[1..3] == "ab";
    assert TokenizeFrom(s, 3) == Tokens([]);
    assert "'" + s[1..3] + "'" == "'ab'";
  }

  /** Punctuation glued to a word is split off, and tabs and newlines
      separate tokens like blanks. */
  lemma GluedExamples()
    ensures Tokenize("(id)") == Tokens(["(", "id", ")"])
    ensures Tokenize("a\t\nb") == Tokens(["a", "b"])
  {
    var s := "(id)";
    assert TokenizeFrom(s, 3) == Tokens([")"]);
    assert WordEnd(s, 1) == 3 && s[1..3] == "id";
    assert TokenizeFrom(s, 1) == Tokens(["id", ")"]);
    var s' := "a\t\nb";
    assert WordEnd(s', 3) == 4 && s'[3..4] == "b";
    assert TokenizeFrom(s', 3) == Tokens(["b"]);
    assert TokenizeFrom(s', 1) == Tokens(["b"]);
    assert WordEnd(s', 0) == 1 && s'[0..1] == "a";
  }

  /** A control character where a token should start stops the scan. */
  lemma ControlCharacterDiverges()
    ensures Tokenize("a \U{1}") == Diverges(2)
  {
  }
}

=== FILE: outcomes.dfy ===
/** Failure-carrying wrappers shared by every component of the engine. */
module Outcomes {

  /** A value that may be missing, as `std::find` reports "not found". */
  datatype Option<+T> = None | Some(value: T)

  /** A computation that either produced a value or stopped with an error. */
  datatype Result<+T, +E> = Ok(value: T) | Err(error: E)
}

=== FILE: select.dfy ===
/** SELECT (`handleSelect`, code.cpp:224-296): the column list, the table,
    the WHERE conditions, and the lines the statement lists. The model
    returns the header and the projected rows; the ` | ` separators and the
    `N row(s)` line (N is the number of rows listed) are formatting. */
module Select {
  import opened Ascii
  import opened Outcomes
  import opened Integers
  import opened Store
  import opened Conditions
  import opened Where
  import opened Seqs

  /** The selected column names and the position of the token after the list. */
  datatype Selection = Selection(cols: seq<string>, next: nat)

  /** The tokens with every `,` left out, in order (defined from the end,
      independently of the loop that reads the list from the front). */
  function NonCommas(s: seq<string>): (r: seq<string>)
    ensures |r| <= |s|
    ensures forall k | 0 <= k < |r| :: r[k] != ","
  {
    if |s| == 0 then []
    else NonCommas(s[..|s| - 1]) + (if s[|s| - 1] == "," then [] else [s[|s| - 1]])
  }

  lemma {:induction false} NonCommasCons(x: string, s: seq<string>)
    ensures NonCommas([x] + s) == (if x == "," then [] else [x]) + NonCommas(s)
    decreases |s|
  {
    var xs := [x] + s;
    if |s| == 0 {
      assert xs[..0] == [];
    } else {
      assert xs[..|xs| - 1] == [x] + s[..|s| - 1];
      NonCommasCons(x, s[..|s| - 1]);
    }
  }

  /** The column-list loop of code.cpp:230-233 from token `i`: every token
      except `,` up to the first token that is `FROM` in any case, or to the
      end of the statement. */
  function SelectList(toks: seq<string>, i: nat): (r: Selection)
    requires i <= |toks|
    ensures i <= r.next <= |toks|
    ensures |r.cols| <= r.next - i
    decreases |toks| - i
  {
    if i == |toks| || IsKeyword(toks[i], "from") then Selection([], i)
    else
      var rest := SelectList(toks, i + 1);
      Selection((if toks[i] == "," then [] else [toks[i]]) + rest.cols, rest.next)
  }

  /** The list ends at the first `FROM` at or after `i`, or at the end of
      the statement when there is none. */
  lemma {:induction false} SelectListStops(toks: seq<string>, i: nat)
    requires i <= |toks|
    ensures var next := SelectList(toks, i).next;
      && (next < |toks| ==> IsKeyword(toks[next], "from"))
      && forall k | i <= k < next :: !IsKeyword(toks[k], "from")
    decreases |toks| - i
  {
    if i < |toks| && !IsKeyword(toks[i], "from") {
      SelectListStops(toks, i + 1);
    }
  }

  /** The list read is exactly the tokens it passed over, commas left out. */
  lemma {:induction false} SelectListDropsCommas(toks: seq<string>, i: nat)
    requires i <= |toks|
    ensures SelectList(toks, i).cols == NonCommas(toks[i..SelectList(toks, i).next])
    decreases |toks| - i
  {
    if i < |toks| && !IsKeyword(toks[i], "from") {
      var next := SelectList(toks, i + 1).next;
      SelectListDropsCommas(toks, i + 1);
      NonCommasCons(toks[i], toks[i + 1..next]);
      assert toks[i..next] == [toks[i]] + toks[i + 1..next];
    }
  }

  /** The positions the projection reads, each the first column of that name
      (`std::find`, code.cpp:250-254). The error is the first selected name
      that is not a column. */
  function Resolve(cols: seq<string>, sel: seq<string>): (r: Result<seq<nat>, string>)
    ensures r.Ok? <==> forall k | 0 <= k < |sel| :: sel[k] in cols
    ensures r.Ok? ==> |r.value| == |sel|
    ensures r.Ok? ==> forall k | 0 <= k < |sel| :: r.value[k] == Position(cols, sel[k])
    ensures r.Err? ==> exists k | 0 <= k < |sel| ::
      sel[k] == r.error && sel[k] !in cols && forall m | 0 <= m < k :: sel[m] in cols
  {
    if |sel| == 0 then Ok([])
    else
      match IndexOf(cols, sel[0])
      case None =>
        assert sel[0] == sel[0] && sel[0] !in cols;
        Err(sel[0])
      case Some(j) =>
        match Resolve(cols, sel[1..])
        case Err(c) =>
          var k :| 0 <= k < |sel| - 1 && sel[1..][k] == c && sel[1..][k] !in cols
            && forall m | 0 <= m < k :: sel[1..][m] in cols;
          assert sel[k + 1] == c;
          assert forall m | 0 <= m < k + 1 :: sel[m] in cols by {
            forall m | 0 <= m < k + 1 ensures sel[m] in cols {
              if m > 0 {
                assert sel[m] == sel[1..][m - 1];
              }
            }
          }
          Err(c)
        case Ok(idx) =>
          assert forall k | 0 <= k < |sel| - 1 :: sel[k + 1] == sel[1..][k];
          Ok([j] + idx)
  }

  /** Which cells an output line shows: the whole row for `*`, otherwise
      the cells at the resolved positions, in the order selected. */
  datatype Projection = AllColumns | Columns(idx: seq<nat>)

  /** Every position the projection reads exists in a row of `width` cells. */
  predicate Fits(proj: Projection, width: nat) {
    proj.Columns? ==> forall k | 0 <= k < |proj.idx| :: proj.idx[k] < width
  }

  /** One output line (also the header, when applied to the column names). */
  function Project(proj: Projection, row: Row): Row
    requires Fits(proj, |row|)
  {
    match proj
    case AllColumns => row
    case Columns(idx) => seq(|idx|, k requires 0 <= k < |idx| => row[idx[k]])
  }

  /** Every row with all cells present, for a table whose types line up. */
  predicate Sized(t: Table, rows: seq<Row>) {
    && |t.types| == |t.cols|
    && forall k | 0 <= k < |rows| :: |rows[k]| == |t.cols|
  }

  function ProjectAll(proj: Projection, rows: seq<Row>, width: nat): (r: seq<Row>)
    requires Fits(proj, width)
    requires forall k | 0 <= k < |rows| :: |rows[k]| == width
    ensures |r| == |rows|
  {
    seq(|rows|, k requires 0 <= k < |rows| => Project(proj, rows[k]))
  }

  lemma ProjectAllCons(proj: Projection, x: Row, xs: seq<Row>, width: nat)
    requires Fits(proj, width) && |x| == width
    requires forall k | 0 <= k < |xs| :: |xs[k]| == width
    ensures ProjectAll(proj, [x] + xs, width) == [Project(proj, x)] + ProjectAll(proj, xs, width)
  {
    var ys := [x] + xs;
    assert forall k | 0 <= k < |xs| :: ys[k + 1] == xs[k];
  }

  /** The parsed statement: the table, the projection and the conditions. */
  datatype Query = Query(name: string, proj: Projection, conds: seq<Cond>)

  /** Why a SELECT produced no listing before scanning: a refusal with a
      message, or the read of `toks[1]` past the end of a one-token
      statement (code.cpp:228), which the source does not guard. */
  datatype Refusal = Refused(error: Error) | ReadPastEnd

  /** code.cpp:228-234: `*` as the second token is the whole list;
      otherwise the list runs up to `FROM`. */
  function ColumnList(toks: seq<string>): (r: Selection)
    requires |toks| >= 2
    ensures 1 <= r.next <= |toks|
    ensures toks[1] == "*" ==> r == Selection(["*"], 2)
    ensures toks[1] != "*" ==> r == SelectList(toks, 1)
  {
    if toks[1] == "*" then Selection(["*"], 2) else SelectList(toks, 1)
  }

  /** What a SELECT names before its columns are looked up: the selected
      names (`*` alone for the star form), the table and the conditions. */
  datatype Clauses = Clauses(sel: seq<string>, name: string, conds: seq<Cond>)

  /** code.cpp:226-247: the column list, `FROM`, the table name and the
      optional WHERE clause, checked in this order. Whatever follows the
      table name other than `WHERE` is ignored. */
  function ReadClauses(db: Db, toks: seq<string>): (r: Result<Clauses, Refusal>)
    ensures r == Err(ReadPastEnd) <==> |toks| < 2
    ensures |toks| >= 2 && (forall k | 1 <= k < |toks| :: !IsKeyword(toks[k], "from")) ==>
      r == Err(Refused(ExpectedFrom))
    ensures r.Ok? ==> r.value.name in db
    ensures r.Ok? ==> exists j | 1 <= j < |toks| - 1 :: IsKeyword(toks[j], "from") && toks[j + 1] == r.value.name
    ensures r.Err? && r.error.Refused? ==> r.error.error in {ExpectedFrom, ExpectedTableName, NoSuchTable}
    ensures r.Ok? ==>
      var s := ColumnList(toks);
      && s.next + 1 < |toks| && IsKeyword(toks[s.next], "from")
      && (toks[1] != "*" ==> forall k | 1 <= k < s.next :: !IsKeyword(toks[k], "from"))
      && r.value.sel == s.cols && r.value.name == toks[s.next + 1]
      && r.value.conds == (if s.next + 2 < |toks| && IsKeyword(toks[s.next + 2], "where")
                           then ParseWhere(toks, s.next + 3) else [])
    ensures (|toks| >= 2 && ColumnList(toks).next + 1 < |toks| && IsKeyword(toks[ColumnList(toks).next], "from")
      && toks[ColumnList(toks).next + 1] in db) ==> r.Ok?
  {
    if |toks| < 2 then Err(ReadPastEnd)
    else
      var s := ColumnList(toks);
      SelectListStops(toks, 1);
      if s.next >= |toks| || !IsKeyword(toks[s.next], "from") then Err(Refused(ExpectedFrom))
      else if s.next + 1 >= |toks| then Err(Refused(ExpectedTableName))
      else if toks[s.next + 1] !in db then Err(Refused(NoSuchTable))
      else
        var conds := if s.next + 2 < |toks| && IsKeyword(toks[s.next + 2], "where")
          then ParseWhere(toks, s.next + 3) else [];
        Ok(Clauses(s.cols, toks[s.next + 1], conds))
  }

  /** Every selected name is a token of the statement other than `,`. */
  lemma SelectedNamesWritten(db: Db, toks: seq<string>)
    requires ReadClauses(db, toks).Ok?
    ensures var sel := ReadClauses(db, toks).value.sel;
      forall k | 0 <= k < |sel| :: sel[k] in toks && sel[k] != ","
  {
    var sel := ReadClauses(db, toks).value.sel;
    if toks[1] != "*" {
      var next := SelectList(toks, 1).next;
      SelectListDropsCommas(toks, 1);
      NonCommasMembers(toks[1..next]);
      forall k | 0 <= k < |sel| ensures sel[k] in toks && sel[k] != "," {
        var m :| 0 <= m < |toks[1..next]| && toks[1..next][m] == sel[k];
        assert toks[m + 1] == sel[k];
      }
    }
  }

  /** code.cpp:248-255: `*` alone selects every column; otherwise each
      name is looked up, and the first that is not a column is refused. */
  function ParseSelect(db: Db, toks: seq<string>): (r: Result<Query, Refusal>)
    ensures ReadClauses(db, toks).Err? ==> r == Err(ReadClauses(db, toks).error)
    ensures r == Err(ReadPastEnd) <==> |toks| < 2
    ensures r.Ok? ==> r.value.name in db && Fits(r.value.proj, |db[r.value.name].cols|)
    ensures r.Ok? ==>
      && ReadClauses(db, toks).Ok?
      && r.value.name == ReadClauses(db, toks).value.name
      && r.value.conds == ReadClauses(db, toks).value.conds
    ensures r.Ok? && r.value.proj.Columns? ==>
      var sel := ReadClauses(db, toks).value.sel;
      && |r.value.proj.idx| == |sel|
      && forall k | 0 <= k < |sel| ::
           sel[k] in db[r.value.name].cols && r.value.proj.idx[k] == Position(db[r.value.name].cols, sel[k])
    ensures r.Err? && r.error.Refused? && r.error.error.UnknownSelectColumn? ==>
      && ReadClauses(db, toks).Ok?
      && var c := ReadClauses(db, toks).value;
      && r.error.error.col in c.sel && r.error.error.col !in db[c.name].cols
    ensures ReadClauses(db, toks).Ok? && ReadClauses(db, toks).value.sel == ["*"] ==>
      var c := ReadClauses(db, toks).value;
      r == Ok(Query(c.name, AllColumns, c.conds))
    ensures ReadClauses(db, toks).Ok? && ReadClauses(db, toks).value.sel != ["*"] ==>
      var c := ReadClauses(db, toks).value;
      && (r.Ok? <==> forall k | 0 <= k < |c.sel| :: c.sel[k] in db[c.name].cols)
      && (r.Err? ==>
            && r.error.Refused? && r.error.error.UnknownSelectColumn?
            && exists k | 0 <= k < |c.sel| :: (c.sel[k] == r.error.error.col
                 && c.sel[k] !in db[c.name].cols && forall m | 0 <= m < k :: c.sel[m] in db[c.name].cols))
  {
    match ReadClauses(db, toks)
    case Err(e) => Err(e)
    case Ok(c) =>
      assert |c.sel| == 1 && c.sel[0] == "*" <==> c.sel == ["*"];
      if |c.sel| == 1 && c.sel[0] == "*" then Ok(Query(c.name, AllColumns, c.conds))
      else
        match Resolve(db[c.name].cols, c.sel)
        case Err(col) => Err(Refused(UnknownSelectColumn(col)))
        case Ok(idx) => Ok(Query(c.name, Columns(idx), c.conds))
  }

  lemma {:induction false} NonCommasMembers(s: seq<string>)
    ensures forall k | 0 <= k < |NonCommas(s)| :: NonCommas(s)[k] in s
    decreases |s|
  {
    if |s| > 0 {
      NonCommasMembers(s[..|s| - 1]);
      var r := NonCommas(s);
      forall k | 0 <= k < |r| ensures r[k] in s {
        if k < |NonCommas(s[..|s| - 1])| {
          assert r[k] == NonCommas(s[..|s| - 1])[k];
          var m :| 0 <= m < |s| - 1 && s[..|s| - 1][m] == r[k];
          assert s[m] == r[k];
        } else {
          assert r[k] == s[|s| - 1];
        }
      }
    }
  }

  /** The elements whose mark is set, in order. */
  function Keep<T>(xs: seq<T>, marks: seq<bool>): (r: seq<T>)
    requires |marks| == |xs|
    ensures |r| <= |xs|
  {
    if |xs| == 0 then [] else (if marks[0] then [xs[0]] else []) + Keep(xs[1..], marks[1..])
  }

  lemma KeepCons<T>(x: T, xs: seq<T>, m: bool, ms: seq<bool>)
    requires |ms| == |xs|
    ensures Keep([x] + xs, [m] + ms) == (if m then [x] else []) + Keep(xs, ms)
  {
    assert ([x] + xs)[1..] == xs && ([m] + ms)[1..] == ms;
  }

  /** Keeping commutes with concatenation. */
  lemma {:induction false} KeepAppend<T>(a: seq<T>, ma: seq<bool>, b: seq<T>, mb: seq<bool>)
    requires |ma| == |a| && |mb| == |b|
    ensures Keep(a + b, ma + mb) == Keep(a, ma) + Keep(b, mb)
    decreases |a|
  {
    if |a| == 0 {
      assert a + b == b && ma + mb == mb;
    } else {
      assert a + b == [a[0]] + (a[1..] + b) && ma + mb == [ma[0]] + (ma[1..] + mb);
      assert a == [a[0]] + a[1..] && ma == [ma[0]] + ma[1..];
      KeepCons(a[0], a[1..] + b, ma[0], ma[1..] + mb);
      KeepCons(a[0], a[1..], ma[0], ma[1..]);
      KeepAppend(a[1..], ma[1..], b, mb);
    }
  }

  /** Everything kept is an element whose mark is set, and every such
      element is kept. */
  lemma {:induction false} KeepMembers<T>(xs: seq<T>, marks: seq<bool>, x: T)
    requires |marks| == |xs|
    ensures x in Keep(xs, marks) <==> exists k | 0 <= k < |xs| :: xs[k] == x && marks[k]
    decreases |xs|
  {
    if |xs| > 0 {
      KeepMembers(xs[1..], marks[1..], x);
      if exists k | 0 <= k < |xs| :: xs[k] == x && marks[k] {
        var k :| 0 <= k < |xs| && xs[k] == x && marks[k];
        if k > 0 {
          assert xs[1..][k - 1] == x && marks[1..][k - 1];
        }
      }
      if exists k | 0 <= k < |xs| - 1 :: xs[1..][k] == x && marks[1..][k] {
        var k :| 0 <= k < |xs| - 1 && xs[1..][k] == x && marks[1..][k];
        assert xs[k + 1] == x && marks[k + 1];
      }
    }
  }

  /** With every mark set, everything is kept. */
  lemma {:induction false} KeepAll<T>(xs: seq<T>, marks: seq<bool>)
    requires |marks| == |xs| && forall k | 0 <= k < |marks| :: marks[k]
    ensures Keep(xs, marks) == xs
    decreases |xs|
  {
    if |xs| > 0 {
      assert forall k | 0 <= k < |xs| - 1 :: marks[1..][k] == marks[k + 1];
      KeepAll(xs[1..], marks[1..]);
      assert [xs[0]] + xs[1..] == xs;
    }
  }

  /** Rows of one width stay of that width when some are left out. */
  lemma {:induction false} KeepWidth(rows: seq<Row>, marks: seq<bool>, w: nat)
    requires |marks| == |rows| && forall k | 0 <= k < |rows| :: |rows[k]| == w
    ensures forall k | 0 <= k < |Keep(rows, marks)| :: |Keep(rows, marks)[k]| == w
    decreases |rows|
  {
    if |rows| > 0 {
      assert forall k | 0 <= k < |rows| - 1 :: rows[1..][k] == rows[k + 1];
      KeepWidth(rows[1..], marks[1..], w);
    }
  }

  /** Whether each row satisfies the conditions. */
  function Marks(conds: seq<Cond>, t: Table, rows: seq<Row>): (m: seq<bool>)
    requires Sized(t, rows)
    ensures |m| == |rows|
  {
    seq(|rows|, k requires 0 <= k < |rows| => Satisfies(conds, t, rows[k]))
  }

  /** The reference filter: the rows that satisfy every condition, in
      table order. It has no notion of an exception. */
  function Matching(conds: seq<Cond>, t: Table, rows: seq<Row>): (r: seq<Row>)
    requires Sized(t, rows)
    ensures |r| <= |rows|
    ensures forall k | 0 <= k < |r| :: |r[k]| == |t.cols|
  {
    KeepWidth(rows, Marks(conds, t, rows), |t.cols|);
    Keep(rows, Marks(conds, t, rows))
  }

  /** The first row is listed when it satisfies the conditions, followed by
      what the rest lists. */
  lemma MatchingCons(conds: seq<Cond>, t: Table, x: Row, xs: seq<Row>)
    requires Sized(t, [x] + xs) && |x| == |t.cols|
    ensures Sized(t, xs)
    ensures Matching(conds, t, [x] + xs) ==
      (if Satisfies(conds, t, x) then [x] else []) + Matching(conds, t, xs)
  {
    MatchingAppend(conds, t, [x], xs);
    var m := Marks(conds, t, [x]);
    assert m == [Satisfies(conds, t, x)];
    assert Keep([x], m) == (if m[0] then [x] else []) + Keep([], []);
  }

  /** Row `k` is the first whose condition list throws. */
  predicate FirstThrow(conds: seq<Cond>, t: Table, rows: seq<Row>, k: nat)
    requires Sized(t, rows)
  {
    && k < |rows|
    && AllHold(conds, t, rows[k]) == Throws
    && forall m | 0 <= m < k :: AllHold(conds, t, rows[m]) != Throws
  }

  /** The line a row contributes, if its conditions do not throw. */
  function LineOf(conds: seq<Cond>, t: Table, proj: Projection, x: Row): seq<Row>
    requires |t.types| == |t.cols| == |x| && Fits(proj, |t.cols|)
  {
    if AllHold(conds, t, x) == Value(true) then [Project(proj, x)] else []
  }

  /** A row whose conditions do not throw, put in front of rows none of
      whose conditions throw, adds its line in front of theirs. */
  lemma CompleteCons(conds: seq<Cond>, t: Table, proj: Projection, x: Row, xs: seq<Row>)
    requires Sized(t, [x] + xs) && |x| == |t.cols| && Fits(proj, |t.cols|)
    requires AllHold(conds, t, x) != Throws
    requires forall k | 0 <= k < |xs| :: |xs[k]| == |t.cols| && AllHold(conds, t, xs[k]) != Throws
    ensures forall k | 0 <= k < |xs| + 1 :: AllHold(conds, t, ([x] + xs)[k]) != Throws
    ensures LineOf(conds, t, proj, x) + ProjectAll(proj, Matching(conds, t, xs), |t.cols|)
      == ProjectAll(proj, Matching(conds, t, [x] + xs), |t.cols|)
  {
    var ys := [x] + xs;
    forall k | 0 <= k < |ys| ensures AllHold(conds, t, ys[k]) != Throws {
      if k > 0 {
        assert ys[k] == xs[k - 1];
      }
    }
    MatchingCons(conds, t, x, xs);
    ProjectAllCons(proj, x, Matching(conds, t, xs), |t.cols|);
  }

  /** A row whose conditions do not throw, put in front, moves the first
      throwing row one place on. */
  lemma FirstThrowCons(conds: seq<Cond>, t: Table, x: Row, xs: seq<Row>, k: nat)
    requires Sized(t, [x] + xs) && |x| == |t.cols|
    requires forall m | 0 <= m < |xs| :: |xs[m]| == |t.cols|
    requires AllHold(conds, t, x) != Throws && FirstThrow(conds, t, xs, k)
    ensures FirstThrow(conds, t, [x] + xs, k + 1)
  {
    var ys := [x] + xs;
    assert ys[k + 1] == xs[k];
    forall m | 0 <= m < k + 1 ensures AllHold(conds, t, ys[m]) != Throws {
      if m > 0 {
        assert ys[m] == xs[m - 1];
      }
    }
  }

  /** The lines shown before row `k + 1` of `[x] + xs` are the line of `x`
      and those shown before row `k` of `xs`. */
  lemma PrefixCons(conds: seq<Cond>, t: Table, proj: Projection, x: Row, xs: seq<Row>, k: nat)
    requires Sized(t, [x] + xs) && |x| == |t.cols| && Fits(proj, |t.cols|) && k < |xs|
    requires forall m | 0 <= m < |xs| :: |xs[m]| == |t.cols|
    ensures LineOf(conds, t, proj, x) + ProjectAll(proj, Matching(conds, t, xs[..k]), |t.cols|)
      == ProjectAll(proj, Matching(conds, t, ([x] + xs)[..k + 1]), |t.cols|)
  {
    assert ([x] + xs)[..k + 1] == [x] + xs[..k];
    MatchingCons(conds, t, x, xs[..k]);
    ProjectAllCons(proj, x, Matching(conds, t, xs[..k]), |t.cols|);
  }

  /** What the output loop shows: every line, or the lines shown before the
      row whose condition threw `std::invalid_argument`, which nothing
      catches and which ends the program. */
  datatype Listing = Complete(shown: seq<Row>) | Aborted(shown: seq<Row>)

  /** The output loop of code.cpp:275-293: conditions in order, stopping at
      the first that is not true, each matching row projected. */
  function Scan(conds: seq<Cond>, t: Table, proj: Projection, rows: seq<Row>): (r: Listing)
    requires Sized(t, rows) && Fits(proj, |t.cols|)
    ensures |r.shown| <= |rows|
  {
    if |rows| == 0 then Complete([])
    else
      assert forall k | 0 <= k < |rows| - 1 :: rows[1..][k] == rows[k + 1];
      if AllHold(conds, t, rows[0]) == Throws then Aborted([])
      else
        var line := LineOf(conds, t, proj, rows[0]);
        match Scan(conds, t, proj, rows[1..])
        case Complete(shown) => Complete(line + shown)
        case Aborted(shown) => Aborted(line + shown)
  }

  /** `r` lists every line of the reference filter when no condition
      throws; otherwise it stops at the first row whose conditions throw,
      having listed the lines of the rows before it. */
  ghost predicate ListsAsFilter(conds: seq<Cond>, t: Table, proj: Projection, rows: seq<Row>, r: Listing)
    requires Sized(t, rows) && Fits(proj, |t.cols|)
  {
    && (r.Complete? <==> forall k | 0 <= k < |rows| :: AllHold(conds, t, rows[k]) != Throws)
    && (r.Complete? ==> r.shown == ProjectAll(proj, Matching(conds, t, rows), |t.cols|))
    && (r.Aborted? ==> exists k: nat ::
      && FirstThrow(conds, t, rows, k)
      && r.shown == ProjectAll(proj, Matching(conds, t, rows[..k]), |t.cols|))
  }

  /** The scan is the reference filter, up to the first throwing row. */
  lemma {:induction false} ScanLists(conds: seq<Cond>, t: Table, proj: Projection, rows: seq<Row>)
    requires Sized(t, rows) && Fits(proj, |t.cols|)
    ensures ListsAsFilter(conds, t, proj, rows, Scan(conds, t, proj, rows))
    decreases |rows|
  {
    if |rows| == 0 {
      assert Matching(conds, t, rows) == [];
    } else {
      var x := rows[0];
      var xs := rows[1..];
      assert rows == [x] + xs;
      assert forall k | 0 <= k < |xs| :: xs[k] == rows[k + 1];
      if AllHold(conds, t, x) == Throws {
        ScanThrowsFirst(conds, t, proj, rows);
      } else {
        ScanLists(conds, t, proj, xs);
        ScanStep(conds, t, proj, x, xs);
      }
    }
  }

  /** A first row whose conditions throw ends the scan with nothing shown. */
  lemma ScanThrowsFirst(conds: seq<Cond>, t: Table, proj: Projection, rows: seq<Row>)
    requires Sized(t, rows) && Fits(proj, |t.cols|)
    requires |rows| > 0 && AllHold(conds, t, rows[0]) == Throws
    ensures ListsAsFilter(conds, t, proj, rows, Scan(conds, t, proj, rows))
  {
    assert Scan(conds, t, proj, rows) == Aborted([]);
    assert FirstThrow(conds, t, rows, 0);
    assert rows[..0] == [];
    assert Matching(conds, t, rows[..0]) == [];
  }

  /** A first row whose conditions do not throw adds its line in front of
      what the rest lists. */
  lemma ScanStep(conds: seq<Cond>, t: Table, proj: Projection, x: Row, xs: seq<Row>)
    requires Sized(t, [x] + xs) && |x| == |t.cols| && Fits(proj, |t.cols|)
    requires forall k | 0 <= k < |xs| :: |xs[k]| == |t.cols|
    requires AllHold(conds, t, x) != Throws
    requires ListsAsFilter(conds, t, proj, xs, Scan(conds, t, proj, xs))
    ensures ListsAsFilter(conds, t, proj, [x] + xs, Scan(conds, t, proj, [x] + xs))
  {
    var rows := [x] + xs;
    if Scan(conds, t, proj, xs).Complete? {
      ScanStepComplete(conds, t, proj, x, xs);
    } else {
      var shown := Scan(conds, t, proj, xs).shown;
      var k: nat :| FirstThrow(conds, t, xs, k)
        && shown == ProjectAll(proj, Matching(conds, t, xs[..k]), |t.cols|);
      ScanStepAborted(conds, t, proj, x, xs, k);
      assert AllHold(conds, t, rows[k + 1]) == Throws;
    }
  }

  /** The step when no later row throws either. */
  lemma ScanStepComplete(conds: seq<Cond>, t: Table, proj: Projection, x: Row, xs: seq<Row>)
    requires Sized(t, [x] + xs) && |x| == |t.cols| && Fits(proj, |t.cols|)
    requires forall k | 0 <= k < |xs| :: |xs[k]| == |t.cols|
    requires AllHold(conds, t, x) != Throws
    requires Scan(conds, t, proj, xs).Complete?
    requires ListsAsFilter(conds, t, proj, xs, Scan(conds, t, proj, xs))
    ensures ListsAsFilter(conds, t, proj, [x] + xs, Scan(conds, t, proj, [x] + xs))
  {
    var rows := [x] + xs;
    assert rows[0] == x && rows[1..] == xs;
    var line := LineOf(conds, t, proj, x);
    var shown := Scan(conds, t, proj, xs).shown;
    var r := Scan(conds, t, proj, rows);
    assert r == Complete(line + shown);
    CompleteCons(conds, t, proj, x, xs);
  }

  /** The step when row `k` of the rest is the first to throw. */
  lemma ScanStepAborted(conds: seq<Cond>, t: Table, proj: Projection, x: Row, xs: seq<Row>, k: nat)
    requires Sized(t, [x] + xs) && |x| == |t.cols| && Fits(proj, |t.cols|)
    requires forall m | 0 <= m < |xs| :: |xs[m]| == |t.cols|
    requires AllHold(conds, t, x) != Throws
    requires FirstThrow(conds, t, xs, k)
    requires Scan(conds, t, proj, xs) == Aborted(ProjectAll(proj, Matching(conds, t, xs[..k]), |t.cols|))
    ensures FirstThrow(conds, t, [x] + xs, k + 1)
    ensures Scan(conds, t, proj, [x] + xs)
         == Aborted(ProjectAll(proj, Matching(conds, t, ([x] + xs)[..k + 1]), |t.cols|))
  {
    var rows := [x] + xs;
    assert rows[0] == x && rows[1..] == xs;
    FirstThrowCons(conds, t, x, xs, k);
    PrefixCons(conds, t, proj, x, xs, k);
  }

  /** What one SELECT ends with: the header and the listed rows; a refusal
      with its message; the out-of-bounds read of a one-token statement; or
      the uncaught conversion error, with the header and the lines shown
      before it. */
  datatype Answer =
    | Listed(header: seq<string>, rows: seq<Row>)
    | Rejected(error: Error)
    | OutOfBounds
    | ConversionThrows(header: seq<string>, shown: seq<Row>)

  /** `handleSelect`. The store is only read. */
  function HandleSelect(db: Db, toks: seq<string>): (r: Answer)
    requires Consistent(db)
    ensures r.OutOfBounds? <==> |toks| < 2
    ensures r.Rejected? <==> ParseSelect(db, toks).Err? && ParseSelect(db, toks).error.Refused?
    ensures r.Rejected? ==> r.error == ParseSelect(db, toks).error.error
    ensures r.Listed? || r.ConversionThrows? <==> ParseSelect(db, toks).Ok?
    ensures r.Listed? || r.ConversionThrows? ==>
      var q := ParseSelect(db, toks).value;
      r.header == Project(q.proj, db[q.name].cols)
    ensures r.Listed? ==>
      var q := ParseSelect(db, toks).value;
      var t := db[q.name];
      r.rows == ProjectAll(q.proj, Matching(q.conds, t, t.rows), |t.cols|)
    ensures r.ConversionThrows? <==>
      && ParseSelect(db, toks).Ok?
      && var q := ParseSelect(db, toks).value;
      && var t := db[q.name];
      && exists k | 0 <= k < |t.rows| :: AllHold(q.conds, t, t.rows[k]) == Throws
  {
    match ParseSelect(db, toks)
    case Err(ReadPastEnd) => OutOfBounds
    case Err(Refused(e)) => Rejected(e)
    case Ok(q) =>
      var t := db[q.name];
      var header := Project(q.proj, t.cols);
      ScanLists(q.conds, t, q.proj, t.rows);
      match Scan(q.conds, t, q.proj, t.rows)
      case Complete(shown) => Listed(header, shown)
      case Aborted(shown) => ConversionThrows(header, shown)
  }

  /** No conditions: every row is listed, in table order. */
  lemma MatchingNoConditions(t: Table, rows: seq<Row>)
    requires Sized(t, rows)
    ensures Matching([], t, rows) == rows
  {
    KeepAll(rows, Marks([], t, rows));
  }

  /** A row is listed exactly when it is a row of the table that satisfies
      the conditions. */
  lemma MatchingMembers(conds: seq<Cond>, t: Table, rows: seq<Row>, row: Row)
    requires Sized(t, rows)
    ensures row in Matching(conds, t, rows) <==>
      row in rows && |row| == |t.cols| && Satisfies(conds, t, row)
  {
    var marks := Marks(conds, t, rows);
    KeepMembers(rows, marks, row);
    if row in rows {
      var k :| 0 <= k < |rows| && rows[k] == row;
      assert marks[k] == Satisfies(conds, t, row);
    }
  }

  /** AND-ed condition lists filter one after the other. */
  lemma {:induction false} MatchingConjunction(c1: seq<Cond>, c2: seq<Cond>, t: Table, rows: seq<Row>)
    requires Sized(t, rows)
    ensures Matching(c1 + c2, t, rows) == Matching(c2, t, Matching(c1, t, rows))
    decreases |rows|
  {
    if |rows| > 0 {
      var x := rows[0];
      var xs := rows[1..];
      assert rows == [x] + xs;
      SatisfiesAppend(c1, c2, t, x);
      MatchingCons(c1 + c2, t, x, xs);
      MatchingCons(c1, t, x, xs);
      MatchingConjunction(c1, c2, t, xs);
      if Satisfies(c1, t, x) {
        MatchingCons(c2, t, x, Matching(c1, t, xs));
        assert Matching(c1, t, rows) == [x] + Matching(c1, t, xs);
      } else {
        assert Matching(c1, t, rows) == Matching(c1, t, xs);
        assert Matching(c1 + c2, t, rows) == Matching(c1 + c2, t, xs);
      }
    } else {
      assert Matching(c1, t, rows) == [];
    }
  }

  /** Both parts of a table whose rows all have a cell per column have too. */
  lemma SizedAppend(t: Table, a: seq<Row>, b: seq<Row>)
    requires Sized(t, a + b)
    ensures Sized(t, a) && Sized(t, b)
  {
    assert forall k | 0 <= k < |a| :: a[k] == (a + b)[k];
    assert forall k | 0 <= k < |b| :: b[k] == (a + b)[|a| + k];
  }

  /** Rows added at the end of a table can only add lines at the end of the
      listing. */
  lemma MatchingAppend(conds: seq<Cond>, t: Table, a: seq<Row>, b: seq<Row>)
    requires Sized(t, a + b)
    ensures Sized(t, a) && Sized(t, b)
    ensures Matching(conds, t, a + b) == Matching(conds, t, a) + Matching(conds, t, b)
  {
    SizedAppend(t, a, b);
    assert forall k | 0 <= k < |a| :: (a + b)[k] == a[k];
    assert forall k | 0 <= k < |b| :: (a + b)[|a| + k] == b[k];
    assert Marks(conds, t, a + b) == Marks(conds, t, a) + Marks(conds, t, b);
    KeepAppend(a, Marks(conds, t, a), b, Marks(conds, t, b));
  }

  /** A WHERE clause written out after a table name. */
  function WhereClause(conds: seq<Cond>): seq<string> {
    if |conds| == 0 then [] else ["WHERE"] + WhereTokens(conds)
  }

  /** The tokens of `FROM name [WHERE ...] ;`, which end every written SELECT. */
  function FromTokens(name: string, conds: seq<Cond>): seq<string> {
    ["FROM", name] + WhereClause(conds) + [";"]
  }

  /** The tokens of `SELECT c1 , c2 ... FROM name [WHERE ...] ;`. */
  function SelectTokens(sel: seq<string>, name: string, conds: seq<Cond>): seq<string> {
    ["SELECT"] + CommaList(sel) + FromTokens(name, conds)
  }

  /** The tokens of `SELECT * FROM name [WHERE ...] ;`. */
  function SelectStarTokens(name: string, conds: seq<Cond>): seq<string> {
    ["SELECT", "*"] + FromTokens(name, conds)
  }

  lemma LowerFrom()
    ensures IsKeyword("FROM", "from")
  {
    assert Lower("M") == "m";
    assert Lower("OM") == "om";
    assert Lower("ROM") == "rom";
  }

  lemma LowerWhere()
    ensures IsKeyword("WHERE", "where") && !IsKeyword(";", "where")
  {
    assert Lower("E") == "e";
    assert Lower("RE") == "re";
    assert Lower("ERE") == "ere";
    assert Lower("HERE") == "here";
  }

  /** One turn of the column-list loop. */
  lemma SelectListStep(toks: seq<string>, i: nat)
    requires i < |toks| && !IsKeyword(toks[i], "from")
    ensures SelectList(toks, i).next == SelectList(toks, i + 1).next
    ensures SelectList(toks, i).cols ==
      (if toks[i] == "," then [] else [toks[i]]) + SelectList(toks, i + 1).cols
  {
  }

  /** The loop takes a name that is neither `,` nor `FROM`. */
  lemma SelectListName(toks: seq<string>, i: nat)
    requires i < |toks| && toks[i] != "," && !IsKeyword(toks[i], "from")
    ensures var rest := SelectList(toks, i + 1);
      SelectList(toks, i) == Selection([toks[i]] + rest.cols, rest.next)
  {
  }

  /** The loop skips a `,`. */
  lemma SelectListComma(toks: seq<string>, i: nat)
    requires i < |toks| && toks[i] == ","
    ensures SelectList(toks, i) == SelectList(toks, i + 1)
  {
    assert |Lower(toks[i])| == 1;
    var rest := SelectList(toks, i + 1);
    assert [] + rest.cols == rest.cols;
  }

  /** A written column list followed by `FROM` is read back name for name. */
  lemma {:induction false} SelectListRoundTrip(p: seq<string>, sel: seq<string>, tail: seq<string>)
    requires forall k | 0 <= k < |sel| :: sel[k] != "," && !IsKeyword(sel[k], "from")
    requires |tail| > 0 && IsKeyword(tail[0], "from")
    ensures SelectList(p + CommaList(sel) + tail, |p|) == Selection(sel, |p| + |CommaList(sel)|)
    decreases |sel|
  {
    if |sel| <= 1 {
      ShortListRoundTrip(p, sel, tail);
    } else {
      var toks := p + CommaList(sel) + tail;
      var i := |p|;
      var more := CommaList(sel[1..]);
      CommaListShift(p, sel, tail);
      assert |CommaList(sel)| == 2 + |more|;
      SelectListRoundTrip(p + [sel[0], ","], sel[1..], tail);
      var rest := SelectList(toks, i + 2);
      assert rest == Selection(sel[1..], i + 2 + |more|);
      SelectListComma(toks, i + 1);
      SelectListName(toks, i);
      assert [sel[0]] + sel[1..] == sel;
    }
  }

  /** The base cases: no name, or one name, before the `FROM`. */
  lemma ShortListRoundTrip(p: seq<string>, sel: seq<string>, tail: seq<string>)
    requires |sel| <= 1 && forall k | 0 <= k < |sel| :: sel[k] != "," && !IsKeyword(sel[k], "from")
    requires |tail| > 0 && IsKeyword(tail[0], "from")
    ensures SelectList(p + CommaList(sel) + tail, |p|) == Selection(sel, |p| + |CommaList(sel)|)
  {
    assert CommaList(sel) == sel;
    if |sel| == 0 {
      FromRead(p, sel, tail);
    } else {
      OneNameRead(p, sel, tail);
    }
  }

  lemma FromRead(p: seq<string>, none: seq<string>, tail: seq<string>)
    requires |none| == 0 && |tail| > 0 && IsKeyword(tail[0], "from")
    ensures SelectList(p + none + tail, |p|) == Selection(none, |p|)
  {
    assert (p + none + tail)[|p|] == tail[0] by {
      Parts(p, none, tail);
    }
  }

  lemma OneNameRead(p: seq<string>, sel: seq<string>, tail: seq<string>)
    requires |sel| == 1 && sel[0] != "," && !IsKeyword(sel[0], "from")
    requires |tail| > 0 && IsKeyword(tail[0], "from")
    ensures SelectList(p + sel + tail, |p|) == Selection(sel, |p| + 1)
  {
    var toks := p + sel + tail;
    assert toks[|p|] == sel[0] && toks[|p| + 1] == tail[0] by {
      Parts(p, sel, tail);
    }
    assert SelectList(toks, |p| + 1) == Selection([], |p| + 1);
    SelectListStep(toks, |p|);
    assert [sel[0]] + [] == sel;
  }

  /** The conditions after a table name are read back: the WHERE test of
      code.cpp:244-247 finds them, and no clause reads as none. */
  lemma WhereClauseRoundTrip(p: seq<string>, conds: seq<Cond>)
    ensures var toks := p + WhereClause(conds) + [";"];
      (if |p| + 1 < |toks| && IsKeyword(toks[|p|], "where") then ParseWhere(toks, |p| + 1) else [])
        == conds
  {
    LowerWhere();
    var toks := p + WhereClause(conds) + [";"];
    if |conds| > 0 {
      Regroup(p, ["WHERE"], WhereTokens(conds), [";"]);
      WhereRoundTrip(p + ["WHERE"], conds, [";"]);
    } else {
      assert toks[|p|] == ";";
    }
  }

  /** `ReadClauses` on a statement whose column list, `FROM`, table name
      and conditions are known. */
  lemma ReadKnownClauses(db: Db, toks: seq<string>, s: Selection, conds: seq<Cond>)
    requires |toks| >= 2 && ColumnList(toks) == s
    requires s.next + 1 < |toks| && IsKeyword(toks[s.next], "from") && toks[s.next + 1] in db
    requires conds == (if s.next + 2 < |toks| && IsKeyword(toks[s.next + 2], "where")
      then ParseWhere(toks, s.next + 3) else [])
    ensures ReadClauses(db, toks) == Ok(Clauses(s.cols, toks[s.next + 1], conds))
  {
  }

  /** The column list of a written SELECT is read back, up to its `FROM`. */
  lemma SelectTokensList(sel: seq<string>, name: string, conds: seq<Cond>)
    requires forall k | 0 <= k < |sel| :: sel[k] != "," && sel[k] != "*" && !IsKeyword(sel[k], "from")
    ensures var toks := SelectTokens(sel, name, conds);
      var j := 1 + |CommaList(sel)|;
      && j + 1 < |toks| && ColumnList(toks) == Selection(sel, j)
      && toks[j] == "FROM" && toks[j + 1] == name
  {
    LowerFrom();
    var toks := SelectTokens(sel, name, conds);
    var tail := FromTokens(name, conds);
    assert tail[0] == "FROM" && tail[1] == name;
    SelectListRoundTrip(["SELECT"], sel, tail);
    Parts(["SELECT"], CommaList(sel), tail);
    assert toks[1] != "*" by {
      if |sel| > 0 {
        assert CommaList(sel)[0] == sel[0];
      }
    }
  }

  /** The conditions after `FROM name` are read back, whatever precedes it. */
  lemma WhereAfterFrom(a: seq<string>, name: string, conds: seq<Cond>)
    ensures var toks := a + FromTokens(name, conds);
      (if |a| + 2 < |toks| && IsKeyword(toks[|a| + 2], "where") then ParseWhere(toks, |a| + 3) else [])
        == conds
  {
    Rebase(a, ["FROM", name], WhereClause(conds), [";"]);
    WhereClauseRoundTrip(a + ["FROM", name], conds);
  }

  /** The conditions of a written SELECT are read back after its table name. */
  lemma SelectTokensWhere(sel: seq<string>, name: string, conds: seq<Cond>)
    ensures var toks := SelectTokens(sel, name, conds);
      var j := 1 + |CommaList(sel)|;
      (if j + 2 < |toks| && IsKeyword(toks[j + 2], "where") then ParseWhere(toks, j + 3) else [])
        == conds
  {
    var a := ["SELECT"] + CommaList(sel);
    assert SelectTokens(sel, name, conds) == a + FromTokens(name, conds);
    assert |a| == 1 + |CommaList(sel)|;
    WhereAfterFrom(a, name, conds);
  }

  /** The clauses of a written SELECT are read back. */
  lemma SelectTokensClauses(db: Db, sel: seq<string>, name: string, conds: seq<Cond>)
    requires name in db
    requires forall k | 0 <= k < |sel| :: sel[k] != "," && sel[k] != "*" && !IsKeyword(sel[k], "from")
    ensures ReadClauses(db, SelectTokens(sel, name, conds)) == Ok(Clauses(sel, name, conds))
  {
    LowerFrom();
    SelectTokensList(sel, name, conds);
    SelectTokensWhere(sel, name, conds);
    var toks := SelectTokens(sel, name, conds);
    ReadKnownClauses(db, toks, Selection(sel, 1 + |CommaList(sel)|), conds);
  }

  /** A written SELECT of existing columns is parsed back into its table,
      the positions of its columns and its conditions. */
  lemma SelectRoundTrip(db: Db, sel: seq<string>, name: string, conds: seq<Cond>)
    requires name in db
    requires forall k | 0 <= k < |sel| ::
      sel[k] in db[name].cols && sel[k] != "," && sel[k] != "*" && !IsKeyword(sel[k], "from")
    ensures var r := ParseSelect(db, SelectTokens(sel, name, conds));
      && r.Ok? && r.value.name == name && r.value.conds == conds && r.value.proj.Columns?
      && |r.value.proj.idx| == |sel|
      && forall k | 0 <= k < |sel| :: r.value.proj.idx[k] == Position(db[name].cols, sel[k])
  {
    SelectTokensClauses(db, sel, name, conds);
    assert |sel| == 1 ==> sel[0] != "*";
  }

  /** A written SELECT that names a column the table lacks is refused with
      the first such name, before any row is read. */
  lemma SelectUnknownColumn(db: Db, sel: seq<string>, name: string, conds: seq<Cond>, k: nat)
    requires Consistent(db) && name in db
    requires forall m | 0 <= m < |sel| :: sel[m] != "," && sel[m] != "*" && !IsKeyword(sel[m], "from")
    requires k < |sel| && sel[k] !in db[name].cols
    requires forall m | 0 <= m < k :: sel[m] in db[name].cols
    ensures HandleSelect(db, SelectTokens(sel, name, conds)) == Rejected(UnknownSelectColumn(sel[k]))
  {
    SelectTokensClauses(db, sel, name, conds);
    assert sel != ["*"] by {
      if |sel| == 1 {
        assert sel[0] != "*";
      }
    }
    var r := ParseSelect(db, SelectTokens(sel, name, conds));
    assert !r.Ok?;
    var j :| 0 <= j < |sel| && sel[j] == r.error.error.col
      && sel[j] !in db[name].cols && forall m | 0 <= m < j :: sel[m] in db[name].cols;
    assert j == k;
  }

  /** A written `SELECT *` is parsed back into its table and conditions. */
  lemma SelectStarRoundTrip(db: Db, name: string, conds: seq<Cond>)
    requires name in db
    ensures ParseSelect(db, SelectStarTokens(name, conds)) == Ok(Query(name, AllColumns, conds))
  {
    LowerFrom();
    var toks := SelectStarTokens(name, conds);
    assert toks[1] == "*" && toks[2] == "FROM" && toks[3] == name;
    WhereAfterFrom(["SELECT", "*"], name, conds);
    ReadKnownClauses(db, toks, Selection(["*"], 2), conds);
  }

  /** `WHERE id > -5`: the tokenizer splits off the sign, so the condition
      read is `id > -` and the `5` ends the clause; on the first row whose
      `id` is an integer, converting `-` throws and the SELECT never lists. */
  lemma NegativeLiteralThrows(db: Db, name: string)
    requires Consistent(db) && name in db
    requires db[name].cols == ["id"] && db[name].types == [IntCol]
    requires |db[name].rows| > 0 && IsIntegerString(db[name].rows[0][0])
    ensures HandleSelect(db, ["SELECT", "*", "FROM", name, "WHERE", "id", ">", "-", "5", ";"]).ConversionThrows?
  {
    LowerFrom();
    LowerWhere();
    var toks := ["SELECT", "*", "FROM", name, "WHERE", "id", ">", "-", "5", ";"];
    assert Lower("5") == "5";
    assert ParseWhere(toks, 5) == [Cond("id", ">", "-")];
    var t := db[name];
    assert Position(t.cols, "id") == 0;
    assert EvalCond(Cond("id", ">", "-"), t, t.rows[0]) == Throws;
    assert AllHold([Cond("id", ">", "-")], t, t.rows[0]) == Throws;
  }
}

=== FILE: seqs.dfy ===
/** Facts about concatenation, stated once for any element type so that
    the solver does not reason about the contents of the elements, and the
    comma-separated token lists that INSERT and SELECT share. */
module Seqs {

  /** Moving a middle part from one side of a concatenation to the other;
      its elements sit right after the prefix. */
  lemma Regroup<T>(p: seq<T>, m: seq<T>, c: seq<T>, rest: seq<T>)
    ensures p + (m + c) + rest == (p + m) + c + rest
    ensures forall k | 0 <= k < |m| :: (p + (m + c) + rest)[|p| + k] == m[k]
  {
  }

  /** Where the parts of `p + m + tail` sit. */
  lemma Parts<T>(p: seq<T>, m: seq<T>, tail: seq<T>)
    ensures |p + m + tail| == |p| + |m| + |tail|
    ensures forall k | 0 <= k < |p| :: (p + m + tail)[k] == p[k]
    ensures forall k | 0 <= k < |m| :: (p + m + tail)[|p| + k] == m[k]
    ensures forall k | 0 <= k < |tail| :: (p + m + tail)[|p| + |m| + k] == tail[k]
  {
  }

  /** Moving the front of a three-part tail onto the prefix. */
  lemma Rebase<T>(a: seq<T>, b: seq<T>, c: seq<T>, d: seq<T>)
    ensures a + (b + c + d) == (a + b) + c + d
  {
  }

  /** A nonempty sequence is its first element followed by the rest. */
  lemma HeadTail<T>(s: seq<T>)
    requires |s| > 0
    ensures [s[0]] + s[1..] == s
  {
  }

  /** A suffix that starts with `m`: where `m` sits and what follows it. */
  lemma SuffixSplit<T>(s: seq<T>, i: nat, m: seq<T>, rest: seq<T>)
    requires i <= |s| && s[i..] == m + rest
    ensures i + |m| <= |s| && s[i + |m|..] == rest
    ensures forall k | 0 <= k < |m| :: s[i + k] == m[k]
  {
    assert s[i..][|m|..] == (m + rest)[|m|..] == rest;
  }

  /** What follows a prefix of a three-part concatenation. */
  lemma AfterPrefix<T>(a: seq<T>, b: seq<T>, c: seq<T>)
    ensures (a + b + c)[|a|..] == b + c
  {
  }

  /** Moving the first element of `s` onto the end of `a`. */
  lemma ShiftOne<T>(a: seq<T>, s: seq<T>)
    requires |s| > 0
    ensures a + s == (a + [s[0]]) + s[1..]
  {
  }

  /** Concatenation is associative. */
  lemma Assoc<T>(a: seq<T>, b: seq<T>, c: seq<T>)
    ensures a + (b + c) == (a + b) + c
  {
  }

  /** Tokens of a comma-separated list: `x1 , x2 , ...`. */
  function CommaList(xs: seq<string>): seq<string> {
    if |xs| <= 1 then xs else [xs[0], ","] + CommaList(xs[1..])
  }

  /** A list of two or more items starts with the first item and a comma. */
  lemma CommaListShift(p: seq<string>, xs: seq<string>, rest: seq<string>)
    requires |xs| >= 2
    ensures var toks := p + CommaList(xs) + rest;
      && toks == (p + [xs[0], ","]) + CommaList(xs[1..]) + rest
      && toks[|p|] == xs[0] && toks[|p| + 1] == ","
  {
    var c := CommaList(xs[1..]);
    assert CommaList(xs) == [xs[0], ","] + c;
    Regroup(p, [xs[0], ","], c, rest);
  }
}

=== FILE: session.dfy ===
/** The interpreter loop of `main` (code.cpp:313-343): input lines are
    buffered until one holds a `;`, the buffer is split into statements,
    and each statement is trimmed, tokenized and dispatched on its leading
    keywords. */
module Session {
  import opened Ascii
  import opened Outcomes
  import opened Store
  import opened Lexer
  import opened Create
  import opened Insert
  import opened Select
  import opened Split
  import opened Integers
  import opened Conditions
  import opened Seqs

  /** Which branch of the dispatch (code.cpp:328-339) a token list takes. */
  datatype Command = Blank | Quit | CreateTable | InsertInto | SelectFrom | Unrecognised

  /** The dispatch: the first token, lower-cased, picks the handler; CREATE
      and INSERT also need `TABLE` or `INTO`, in any case, as the second
      token, while SELECT is taken on its first token alone. */
  function Classify(toks: seq<string>): (r: Command)
    ensures r == Blank <==> |toks| == 0
    ensures r == Quit <==> |toks| > 0 && IsKeyword(toks[0], "exit")
    ensures r == CreateTable <==> |toks| > 1 && IsKeyword(toks[0], "create") && IsKeyword(toks[1], "table")
    ensures r == InsertInto <==> |toks| > 1 && IsKeyword(toks[0], "insert") && IsKeyword(toks[1], "into")
    ensures r == SelectFrom <==> |toks| > 0 && IsKeyword(toks[0], "select")
  {
    if |toks| == 0 then Blank
    else
      var kw := Lower(toks[0]);
      if kw == "exit" then Quit
      else if kw == "create" && |toks| > 1 && Lower(toks[1]) == "table" then CreateTable
      else if kw == "insert" && |toks| > 1 && Lower(toks[1]) == "into" then InsertInto
      else if kw == "select" then SelectFrom
      else Unrecognised
  }

  /** What a statement prints: how a CREATE or INSERT ended (an unsupported
      statement ends as `Failed(Unsupported)`), or what a SELECT answered. */
  datatype Report = Ended(status: Status) | Answered(answer: Answer)

  /** Why the program stops: `exit`, a tokenizer that never returns, the
      out-of-bounds read of a one-token SELECT, or the uncaught exception
      of a conversion. */
  datatype Stop = Exit | Hangs(at: nat) | IndexPastEnd | Uncaught

  /** The store after running some statements, what they printed, and
      whether the program stopped. */
  datatype Run = Run(db: Db, out: seq<Report>, stop: Option<Stop>)

  /** The store only grows: no table disappears or changes its columns,
      and each keeps its rows as a prefix of its new rows. */
  predicate Grows(before: Db, after: Db) {
    forall n | n in before ::
      && n in after
      && after[n].name == before[n].name
      && after[n].cols == before[n].cols
      && after[n].types == before[n].types
      && |before[n].rows| <= |after[n].rows|
      && after[n].rows[..|before[n].rows|] == before[n].rows
  }

  lemma GrowsRefl(db: Db)
    ensures Grows(db, db)
  {
    forall n | n in db ensures db[n].rows[..|db[n].rows|] == db[n].rows {
    }
  }

  lemma GrowsTrans(a: Db, b: Db, c: Db)
    requires Grows(a, b) && Grows(b, c)
    ensures Grows(a, c)
  {
    forall n | n in a ensures c[n].rows[..|a[n].rows|] == a[n].rows {
      var m := |a[n].rows|;
      assert c[n].rows[..m] == c[n].rows[..|b[n].rows|][..m];
    }
  }

  /** A CREATE only adds a table. */
  lemma CreateGrows(db: Db, toks: seq<string>)
    ensures Grows(db, HandleCreate(db, toks).db)
  {
    GrowsRefl(db);
  }

  /** An INSERT only appends a row. */
  lemma InsertGrows(db: Db, toks: seq<string>)
    requires Consistent(db)
    ensures Grows(db, HandleInsert(db, toks).db)
  {
    GrowsRefl(db);
    var r := HandleInsert(db, toks);
    if r.status.Done? {
      var name := toks[2];
      var t := db[name];
      var t' := r.db[name];
      assert t'.rows[..|t.rows|] == t.rows;
    }
  }

  /** How a SELECT answer stops the program. */
  function SelectStop(a: Answer): (r: Option<Stop>)
    ensures r == Some(IndexPastEnd) <==> a.OutOfBounds?
    ensures r == Some(Uncaught) <==> a.ConversionThrows?
    ensures r.None? <==> a.Listed? || a.Rejected?
  {
    match a
    case OutOfBounds => Some(IndexPastEnd)
    case ConversionThrows(_, _) => Some(Uncaught)
    case _ => None
  }

  /** One turn of the statement loop (code.cpp:325-339). */
  function RunStatement(db: Db, stmt: string): (r: Run)
    requires Consistent(db)
    ensures Consistent(r.db)
    ensures Checked(db) ==> Checked(r.db)
    ensures Grows(db, r.db)
    ensures |r.out| <= 1
  {
    var s := Trim(stmt);
    GrowsRefl(db);
    if |s| == 0 then Run(db, [], None)
    else
      match Tokenize(s)
      case Diverges(at) => Run(db, [], Some(Hangs(at)))
      case Tokens(toks) =>
        match Classify(toks)
        case Blank => Run(db, [], None)
        case Quit => Run(db, [], Some(Exit))
        case CreateTable =>
          var st := HandleCreate(db, toks);
          CreateGrows(db, toks);
          Run(st.db, [Ended(st.status)], None)
        case InsertInto =>
          var st := HandleInsert(db, toks);
          InsertGrows(db, toks);
          Run(st.db, [Ended(st.status)], None)
        case SelectFrom =>
          var a := HandleSelect(db, toks);
          Run(db, [Answered(a)], SelectStop(a))
        case Unrecognised => Run(db, [Ended(Failed(Unsupported))], None)
  }

  /** A blank statement is skipped. */
  lemma BlankSkipped(db: Db, stmt: string)
    requires Consistent(db) && IsBlank(stmt)
    ensures RunStatement(db, stmt) == Run(db, [], None)
  {
  }

  /** Only a successful CREATE or INSERT changes the store, and it prints
      that it succeeded. */
  lemma OnlySuccessChanges(db: Db, stmt: string)
    requires Consistent(db)
    ensures var r := RunStatement(db, stmt);
      r.db != db ==> r.out == [Ended(Done)] && r.stop.None?
  {
    var s := Trim(stmt);
    if |s| > 0 && Tokenize(s).Tokens? {
      var toks := Tokenize(s).toks;
      var cmd := Classify(toks);
      if cmd == CreateTable {
        var st := HandleCreate(db, toks);
        assert st.db != db ==> st.status == Done;
      } else if cmd == InsertInto {
        var st := HandleInsert(db, toks);
        assert st.db != db ==> st.status == Done;
      }
    }
  }

  /** The program hangs on a statement exactly when the tokenizer does. */
  lemma HangsExactly(db: Db, stmt: string)
    requires Consistent(db)
    ensures var r := RunStatement(db, stmt);
      r.stop.Some? && r.stop.value.Hangs? <==> !IsBlank(stmt) && Tokenize(Trim(stmt)).Diverges?
  {
  }

  /** The program exits on a statement exactly when its first token is
      `exit`, in any case. */
  lemma ExitsExactly(db: Db, stmt: string)
    requires Consistent(db)
    ensures RunStatement(db, stmt).stop == Some(Exit) <==>
      && !IsBlank(stmt)
      && Tokenize(Trim(stmt)).Tokens?
      && var toks := Tokenize(Trim(stmt)).toks;
      && |toks| > 0 && IsKeyword(toks[0], "exit")
  {
  }

  /** A statement starting with `CREATE TABLE`, in any case, runs the
      CREATE handler on its tokens and reports how it ended. */
  lemma CreateDispatched(db: Db, stmt: string, toks: seq<string>)
    requires Consistent(db) && !IsBlank(stmt) && Tokenize(Trim(stmt)) == Tokens(toks)
    requires |toks| > 1 && IsKeyword(toks[0], "create") && IsKeyword(toks[1], "table")
    ensures var st := HandleCreate(db, toks);
      RunStatement(db, stmt) == Run(st.db, [Ended(st.status)], None)
  {
    assert Classify(toks) == CreateTable;
  }

  /** A statement starting with `INSERT INTO`, in any case, runs the INSERT
      handler on its tokens and reports how it ended. */
  lemma InsertDispatched(db: Db, stmt: string, toks: seq<string>)
    requires Consistent(db) && !IsBlank(stmt) && Tokenize(Trim(stmt)) == Tokens(toks)
    requires |toks| > 1 && IsKeyword(toks[0], "insert") && IsKeyword(toks[1], "into")
    ensures var st := HandleInsert(db, toks);
      RunStatement(db, stmt) == Run(st.db, [Ended(st.status)], None)
  {
    assert Classify(toks) == InsertInto;
  }

  /** A statement starting with `SELECT`, in any case, leaves the store as
      it was and reports the SELECT handler's answer. */
  lemma SelectDispatched(db: Db, stmt: string, toks: seq<string>)
    requires Consistent(db) && !IsBlank(stmt) && Tokenize(Trim(stmt)) == Tokens(toks)
    requires |toks| > 0 && IsKeyword(toks[0], "select")
    ensures var r := RunStatement(db, stmt);
      r.db == db && r.out == [Answered(HandleSelect(db, toks))]
  {
    assert Classify(toks) == SelectFrom;
  }

  /** Any other statement is reported as unsupported and changes nothing;
      `CREATE` or `INSERT` without `TABLE` or `INTO` after it is one. */
  lemma OthersUnsupported(db: Db, stmt: string, toks: seq<string>)
    requires Consistent(db) && !IsBlank(stmt) && Tokenize(Trim(stmt)) == Tokens(toks)
    requires |toks| > 0
    requires !IsKeyword(toks[0], "exit") && !IsKeyword(toks[0], "select")
    requires !(|toks| > 1 && IsKeyword(toks[0], "create") && IsKeyword(toks[1], "table"))
    requires !(|toks| > 1 && IsKeyword(toks[0], "insert") && IsKeyword(toks[1], "into"))
    ensures RunStatement(db, stmt) == Run(db, [Ended(Failed(Unsupported))], None)
  {
    assert Classify(toks) == Unrecognised;
  }

  /** A run followed by more: the output of both, and the later store and stop. */
  function Then(first: Run, more: Run): Run {
    Run(more.db, first.out + more.out, more.stop)
  }

  /** Output accumulates the same way however the runs are grouped. */
  lemma ThenAssoc(a: Run, b: Run, c: Run)
    ensures Then(a, Then(b, c)) == Then(Then(a, b), c)
  {
    Assoc(a.out, b.out, c.out);
  }

  /** The statements in order, up to the first that stops the program. */
  function RunAll(db: Db, stmts: seq<string>): (r: Run)
    requires Consistent(db)
    ensures Consistent(r.db)
    ensures Checked(db) ==> Checked(r.db)
    ensures Grows(db, r.db)
    ensures |r.out| <= |stmts|
    decreases |stmts|
  {
    if |stmts| == 0 then
      GrowsRefl(db);
      Run(db, [], None)
    else
      var first := RunStatement(db, stmts[0]);
      if first.stop.Some? then first
      else
        var rest := RunAll(first.db, stmts[1..]);
        GrowsTrans(db, first.db, rest.db);
        Then(first, rest)
  }

  /** The reading loop of code.cpp:316-341 with the text buffered so far:
      each line is added to the buffer with its newline, and a line holding
      a `;` runs every statement in the buffer and empties it. Text still
      buffered when the input ends is never run. */
  function Interpret(db: Db, pending: string, lines: seq<string>): (r: Run)
    requires Consistent(db)
    ensures Consistent(r.db)
    ensures Checked(db) ==> Checked(r.db)
    ensures Grows(db, r.db)
    decreases |lines|
  {
    if |lines| == 0 then
      GrowsRefl(db);
      Run(db, [], None)
    else
      var input := pending + lines[0] + "\n";
      if ';' !in lines[0] then Interpret(db, input, lines[1..])
      else
        var batch := RunAll(db, SplitStatements(input));
        if batch.stop.Some? then batch
        else
          var rest := Interpret(batch.db, "", lines[1..]);
          GrowsTrans(db, batch.db, rest.db);
          Then(batch, rest)
  }

  /** A whole session, from the empty store. */
  function Session(lines: seq<string>): (r: Run)
    ensures Checked(r.db)
  {
    Interpret(EmptyDb(), "", lines)
  }

  /** Running two lists of statements one after the other is running their
      concatenation: the second runs only if the first did not stop. */
  lemma {:induction false} RunAllAppend(db: Db, a: seq<string>, b: seq<string>)
    requires Consistent(db)
    ensures var first := RunAll(db, a);
      RunAll(db, a + b) == if first.stop.Some? then first else Then(first, RunAll(first.db, b))
    decreases |a|
  {
    if |a| == 0 {
      assert a + b == b;
      var more := RunAll(db, b);
      assert [] + more.out == more.out;
    } else {
      assert (a + b)[0] == a[0];
      assert (a + b)[1..] == a[1..] + b;
      var first := RunStatement(db, a[0]);
      if first.stop.None? {
        RunAllAppend(first.db, a[1..], b);
        var mid := RunAll(first.db, a[1..]);
        if mid.stop.None? {
          var more := RunAll(mid.db, b);
          assert RunAll(db, a) == Then(first, mid);
          assert RunAll(db, a + b) == Then(first, Then(mid, more));
          ThenAssoc(first, mid, more);
        }
      }
    }
  }

  /** Once a statement stops the program, nothing after it runs. */
  lemma StopDiscardsRest(db: Db, a: seq<string>, b: seq<string>)
    requires Consistent(db) && RunAll(db, a).stop.Some?
    ensures RunAll(db, a + b) == RunAll(db, a)
  {
    RunAllAppend(db, a, b);
  }

  /** Lines without `;` are only buffered: nothing runs. */
  lemma {:induction false} UnterminatedNeverRuns(db: Db, pending: string, lines: seq<string>)
    requires Consistent(db)
    requires forall k | 0 <= k < |lines| :: ';' !in lines[k]
    ensures Interpret(db, pending, lines) == Run(db, [], None)
    decreases |lines|
  {
    if |lines| > 0 {
      assert ';' !in lines[0];
      UnterminatedNeverRuns(db, pending + lines[0] + "\n", lines[1..]);
    }
  }

  /** Lines without `;` at the end of the input are never run, whatever
      came before them. */
  lemma {:induction false} TrailingLinesIgnored(db: Db, pending: string, lines: seq<string>, tail: seq<string>)
    requires Consistent(db)
    requires forall k | 0 <= k < |tail| :: ';' !in tail[k]
    ensures Interpret(db, pending, lines + tail) == Interpret(db, pending, lines)
    decreases |lines|
  {
    if |lines| == 0 {
      assert lines + tail == tail;
      UnterminatedNeverRuns(db, pending, tail);
    } else {
      assert (lines + tail)[0] == lines[0];
      assert (lines + tail)[1..] == lines[1..] + tail;
      var input := pending + lines[0] + "\n";
      if ';' !in lines[0] {
        TrailingLinesIgnored(db, input, lines[1..], tail);
      } else {
        var batch := RunAll(db, SplitStatements(input));
        if batch.stop.None? {
          TrailingLinesIgnored(batch.db, "", lines[1..], tail);
        }
      }
    }
  }

  /** A line that closes a statement also runs what follows its last `;`
      at once, as a statement of its own, when that is not blank. */
  lemma RemainderRunsAtOnce(db: Db, stmt: string, rest: string)
    requires Consistent(db)
    requires Terminated(stmt) && ';' !in rest && !IsBlank(rest)
    ensures Interpret(db, "", [stmt + rest]) == RunAll(db, [stmt, rest + "\n"])
  {
    LineSplit(stmt, rest);
    var batch := RunAll(db, [stmt, rest + "\n"]);
    assert batch.out + [] == batch.out;
  }

  /** A lone `SELECT` reads past the end of its tokens. */
  lemma LoneSelect(db: Db, stmt: string)
    requires Consistent(db) && !IsBlank(stmt)
    requires var lexed := Tokenize(Trim(stmt));
      lexed.Tokens? && |lexed.toks| == 1 && IsKeyword(lexed.toks[0], "select")
    ensures RunStatement(db, stmt) == Run(db, [Answered(OutOfBounds)], Some(IndexPastEnd))
  {
  }

  /** An INSERT that gives an INT column the value `-` is accepted: the
      bare sign passes the type check and is stored at the column's
      position. */
  lemma BareSignAccepted(db: Db, name: string, c: string)
    requires Consistent(db) && name in db
    requires c in db[name].cols && c != ")" && db[name].types[Position(db[name].cols, c)] == IntCol
    ensures var t := db[name];
      HandleInsert(db, InsertTokens(name, [c], ["-"]))
        == Step(db[name := t.(rows := t.rows + [Layout(t.cols, [c], ["-"])])], Done)
    ensures var t := db[name];
      Layout(t.cols, [c], ["-"])[Position(t.cols, c)] == "-"
  {
    var t := db[name];
    BareSignsPass();
    assert Accepts(t, c, "-");
    InsertRoundTrip(db, name, [c], ["-"]);
    var j := Position(t.cols, c);
    assert IndexOf(t.cols, t.cols[j]) == Some(j);
    assert c in [c] && LastIndexOf([c], c) == 0;
  }

  /** A row holding a bare sign in an INT column makes a `SELECT *` whose
      WHERE clause compares that column with an integer literal throw,
      whatever the operator. */
  lemma BareSignCellThrows(db: Db, name: string, c: string, k: nat, op: string, lit: string)
    requires Consistent(db) && name in db
    requires c in db[name].cols && db[name].types[Position(db[name].cols, c)] == IntCol
    requires k < |db[name].rows| && IsBareSign(db[name].rows[k][Position(db[name].cols, c)])
    requires IsIntegerString(lit)
    ensures HandleSelect(db, SelectStarTokens(name, [Cond(c, op, lit)])).ConversionThrows?
  {
    var t := db[name];
    var cond := Cond(c, op, lit);
    BareSignsPass();
    SelectStarRoundTrip(db, name, [cond]);
    assert EvalCond(cond, t, t.rows[k]) == Throws;
    assert AllHold([cond], t, t.rows[k]) == Throws;
  }

  /** An INSERT of a bare `-` into an INT column is accepted, and from then
      on a `SELECT *` whose WHERE clause compares that column with an
      integer literal throws. */
  lemma BareSignPoisonsTable(db: Db, name: string, c: string, op: string, lit: string)
    requires Consistent(db) && name in db
    requires c in db[name].cols && c != ")" && db[name].types[Position(db[name].cols, c)] == IntCol
    requires IsIntegerString(lit)
    ensures var st := HandleInsert(db, InsertTokens(name, [c], ["-"]));
      && st.status == Done
      && HandleSelect(st.db, SelectStarTokens(name, [Cond(c, op, lit)])).ConversionThrows?
  {
    var t := db[name];
    BareSignAccepted(db, name, c);
    var row := Layout(t.cols, [c], ["-"]);
    var db' := db[name := t.(rows := t.rows + [row])];
    assert db'[name].rows[|t.rows|] == row;
    BareSignCellThrows(db', name, c, |t.rows|, op, lit);
  }
}

=== FILE: split.dfy ===
/** Splitting the buffered input into statements (`splitStatements`,
    code.cpp:299-311): every `;` ends a statement and stays part of it; what
    follows the last `;` is a statement of its own unless it is blank. */
module Split {
  import opened Ascii
  import opened Seqs

  /** A statement closed by its only `;`. */
  predicate Terminated(p: string) {
    |p| > 0 && p[|p| - 1] == ';' && ';' !in p[..|p| - 1]
  }

  /** What `splitStatements` can return: closed statements, the last of
      which may instead be an unclosed, non-blank remainder. */
  predicate Pieces(ps: seq<string>) {
    forall k | 0 <= k < |ps| ::
      Terminated(ps[k]) || (k == |ps| - 1 && ';' !in ps[k] && !IsBlank(ps[k]))
  }

  /** The pieces written one after the other. */
  function Concat(ps: seq<string>): string {
    if |ps| == 0 then "" else ps[0] + Concat(ps[1..])
  }

  /** The loop of code.cpp:302-309 with the characters still to read and
      the statement read so far (`cur`). */
  function Cut(s: string, cur: string): seq<string>
    decreases |s|
  {
    if |s| == 0 then (if |Trim(cur)| > 0 then [cur] else [])
    else if s[0] == ';' then [cur + ";"] + Cut(s[1..], "")
    else Cut(s[1..], cur + [s[0]])
  }

  /** `splitStatements`. */
  function SplitStatements(s: string): (r: seq<string>)
    ensures Pieces(r)
    ensures var c := Concat(r);
      |c| <= |s| && s[..|c|] == c && IsBlank(s[|c|..]) && ';' !in s[|c|..]
  {
    CutShape(s, "");
    SplitCovers(s);
    Cut(s, "")
  }

  /** The statements found in `s` spell out `s` up to a blank remainder
      that holds no `;`. */
  lemma SplitCovers(s: string)
    ensures var c := Concat(Cut(s, ""));
      |c| <= |s| && s[..|c|] == c && IsBlank(s[|c|..]) && ';' !in s[|c|..]
  {
    var rest := CutCovers(s, "");
    assert "" + s == s;
    var c := Concat(Cut(s, ""));
    assert s == c + rest;
    assert s[..|c|] == c && s[|c|..] == rest;
  }

  lemma PiecesCons(p: string, ps: seq<string>)
    requires Terminated(p) && Pieces(ps)
    ensures Pieces([p] + ps)
  {
    var qs := [p] + ps;
    forall k | 0 <= k < |qs|
      ensures Terminated(qs[k]) || (k == |qs| - 1 && ';' !in qs[k] && !IsBlank(qs[k]))
    {
      if k > 0 {
        assert qs[k] == ps[k - 1];
      }
    }
  }

  /** A `;` closes the statement read so far. */
  lemma ClosedByOne(cur: string)
    requires ';' !in cur
    ensures Terminated(cur + ";")
  {
    assert (cur + ";")[..|cur|] == cur;
  }

  /** Every piece the loop emits is a closed statement or the non-blank
      remainder. */
  lemma {:induction false} CutShape(s: string, cur: string)
    requires ';' !in cur
    ensures Pieces(Cut(s, cur))
    decreases |s|
  {
    if |s| == 0 {
    } else if s[0] == ';' {
      ClosedByOne(cur);
      CutShape(s[1..], "");
      PiecesCons(cur + ";", Cut(s[1..], ""));
    } else {
      CutShape(s[1..], cur + [s[0]]);
    }
  }

  /** Joining a piece in front of others. */
  lemma ConcatCons(p: string, ps: seq<string>)
    ensures Concat([p] + ps) == p + Concat(ps)
  {
    assert ([p] + ps)[1..] == ps;
  }

  /** The pieces and a blank remainder without `;` make up `cur + s`. */
  lemma {:induction false} CutCovers(s: string, cur: string) returns (rest: string)
    requires ';' !in cur
    ensures cur + s == Concat(Cut(s, cur)) + rest
    ensures IsBlank(rest) && ';' !in rest
    decreases |s|
  {
    if |s| == 0 {
      assert cur + s == cur;
      if |Trim(cur)| > 0 {
        rest := "";
        ConcatCons(cur, []);
      } else {
        rest := cur;
      }
    } else if s[0] == ';' {
      var r := Cut(s[1..], "");
      var more := CutCovers(s[1..], "");
      assert s[1..] == Concat(r) + more by {
        assert "" + s[1..] == s[1..];
      }
      assert Cut(s, cur) == [cur + ";"] + r;
      ConcatCons(cur + ";", r);
      assert cur + s == (cur + ";") + s[1..] by {
        ShiftOne(cur, s);
      }
      Assoc(cur + ";", Concat(r), more);
      rest := more;
    } else {
      rest := CutCovers(s[1..], cur + [s[0]]);
      ShiftOne(cur, s);
    }
  }

  /** Reading a statement body and its `;` emits the statement and starts
      afresh. */
  lemma {:induction false} CutThrough(body: string, rest: string, cur: string)
    requires ';' !in body && ';' !in cur
    ensures Cut(body + ";" + rest, cur) == [cur + body + ";"] + Cut(rest, "")
    decreases |body|
  {
    var s := body + ";" + rest;
    if |body| == 0 {
      assert s == ";" + rest && s[1..] == rest;
      assert cur + body == cur;
    } else {
      assert s[0] == body[0] && s[1..] == body[1..] + ";" + rest;
      CutThrough(body[1..], rest, cur + [body[0]]);
      assert cur + [body[0]] + body[1..] == cur + body by {
        ShiftOne(cur, body);
      }
    }
  }

  /** Text without `;` is emitted as one statement unless it is blank. */
  lemma {:induction false} CutEnd(s: string, cur: string)
    requires ';' !in s
    ensures Cut(s, cur) == if IsBlank(cur + s) then [] else [cur + s]
    decreases |s|
  {
    if |s| == 0 {
      assert cur + s == cur;
    } else {
      CutEnd(s[1..], cur + [s[0]]);
      ShiftOne(cur, s);
    }
  }

  /** Splitting closed statements written one after the other, followed by
      text without `;`, gives back the statements, and the text too when it
      is not blank. */
  lemma {:induction false} SplitJoin(stmts: seq<string>, trailer: string)
    requires forall k | 0 <= k < |stmts| :: Terminated(stmts[k])
    requires ';' !in trailer
    ensures SplitStatements(Concat(stmts) + trailer)
         == stmts + (if IsBlank(trailer) then [] else [trailer])
    decreases |stmts|
  {
    if |stmts| == 0 {
      assert Concat(stmts) + trailer == trailer && stmts == [];
      CutEnd(trailer, "");
      assert "" + trailer == trailer;
    } else {
      var p := stmts[0];
      var body := p[..|p| - 1];
      var more := Concat(stmts[1..]) + trailer;
      assert Terminated(p);
      assert p == body + ";";
      assert Concat(stmts) + trailer == body + ";" + more by {
        Assoc(p, Concat(stmts[1..]), trailer);
      }
      CutThrough(body, more, "");
      assert "" + body + ";" == p;
      SplitJoin(stmts[1..], trailer);
      HeadTail(stmts);
    }
  }

  /** One closed statement followed by non-blank text without `;` splits
      into the two. */
  lemma SplitRemainder(stmt: string, rest: string)
    requires Terminated(stmt) && ';' !in rest && !IsBlank(rest)
    ensures SplitStatements(stmt + rest) == [stmt, rest]
  {
    assert Concat([stmt]) == stmt by {
      assert Concat([stmt]) == stmt + Concat([]);
      assert stmt + "" == stmt;
    }
    SplitJoin([stmt], rest);
    assert [stmt] + [rest] == [stmt, rest];
  }

  /** The same for a whole input line, which the reader buffers with its
      newline: the line holds a `;`, and its buffer splits into the
      statement and the rest. */
  lemma LineSplit(stmt: string, rest: string)
    requires Terminated(stmt) && ';' !in rest && !IsBlank(rest)
    ensures ';' in stmt + rest
    ensures SplitStatements("" + (stmt + rest) + "\n") == [stmt, rest + "\n"]
  {
    var line := stmt + rest;
    assert line[|stmt| - 1] == ';';
    assert "" + line + "\n" == stmt + (rest + "\n");
    assert ';' !in rest + "\n" && !IsBlank(rest + "\n") by {
      var k :| 0 <= k < |rest| && !IsSpace(rest[k]);
      assert (rest + "\n")[k] == rest[k];
    }
    SplitRemainder(stmt, rest + "\n");
  }
}

=== FILE: store.dfy ===
/** The table store the statement handlers read and update: `ColType`,
    `Table` and the global `db` map (code.cpp:12-21), with the lookups and
    the quote stripping the handlers share. */
module Store {
  import opened Outcomes
  import opened Integers

  /** `ColType`: decides how a cell is compared, not how it is stored. */
  datatype ColType = IntCol | TextCol

  /** Every cell is stored as text. */
  type Row = seq<string>

  /** `Table`: its name, the ordered column names and types, and the rows in
      insertion order. */
  datatype Table = Table(name: string, cols: seq<string>, types: seq<ColType>, rows: seq<Row>)

  /** `db`, keyed by the case-sensitive table name. */
  type Db = map<string, Table>

  /** Why a statement was refused; each case is one of the messages the
      handlers print before returning. */
  datatype Error =
    | CreateSyntax                  // fewer than six tokens in CREATE
    | TableExists
    | ExpectedOpenParen
    | TruncatedColumn               // a column name with no type after it
    | UnknownType(typ: string)      // the type keyword, lower-cased
    | MissingCloseParen
    | InsertSyntax                  // fewer than six tokens in INSERT
    | NoSuchTable
    | ExpectedValues
    | CountMismatch
    | UnknownColumn(col: string)
    | TypeMismatch(col: string)
    | ExpectedFrom
    | ExpectedTableName
    | UnknownSelectColumn(col: string)
    | Unsupported                   // no recognised leading keyword

  /** How a CREATE or INSERT ended. */
  datatype Status = Done | Failed(error: Error)

  /** The store after a CREATE or INSERT, and how it ended. */
  datatype Step = Step(db: Db, status: Status)

  /** Column names and types line up, and every row has one cell per column. */
  predicate WellFormed(t: Table) {
    && |t.types| == |t.cols|
    && forall i | 0 <= i < |t.rows| :: |t.rows[i]| == |t.cols|
  }

  /** Every INT cell holds either the empty string (a column an INSERT left
      out) or a string that passes `IsIntegerString`. */
  predicate IntCellsChecked(t: Table)
    requires WellFormed(t)
  {
    forall i, j | 0 <= i < |t.rows| && 0 <= j < |t.cols| ::
      t.types[j] == IntCol ==> t.rows[i][j] == "" || IsIntegerString(t.rows[i][j])
  }

  /** The store invariant: every table sits under its own name and is well formed. */
  predicate Consistent(db: Db) {
    forall n | n in db :: db[n].name == n && WellFormed(db[n])
  }

  /** The store invariant together with the INSERT type check's guarantee. */
  predicate Checked(db: Db) {
    Consistent(db) && forall n | n in db :: IntCellsChecked(db[n])
  }

  /** `std::find` over a column list: the first position holding `x`. */
  function IndexOf(xs: seq<string>, x: string): (r: Option<nat>)
    ensures r.None? <==> x !in xs
    ensures r.Some? ==> r.value < |xs| && xs[r.value] == x
    ensures r.Some? ==> forall k | 0 <= k < r.value :: xs[k] != x
  {
    if |xs| == 0 then None
    else if xs[0] == x then Some(0)
    else match IndexOf(xs[1..], x)
      case None => None
      case Some(k) => Some(k + 1)
  }

  /** Position of a column known to exist. */
  function Position(xs: seq<string>, x: string): (j: nat)
    requires x in xs
    ensures j < |xs| && xs[j] == x
    ensures forall k | 0 <= k < j :: xs[k] != x
  {
    IndexOf(xs, x).value
  }

  /** Removes one pair of surrounding quotes, as INSERT and WHERE do with a
      literal of at least two characters that starts and ends with `'`. */
  function Unquote(v: string): (r: string)
    ensures |v| >= 2 && v[0] == '\'' && v[|v| - 1] == '\'' ==> "'" + r + "'" == v
    ensures !(|v| >= 2 && v[0] == '\'' && v[|v| - 1] == '\'') ==> r == v
  {
    if |v| >= 2 && v[0] == '\'' && v[|v| - 1] == '\'' then v[1..|v| - 1] else v
  }

  /** Wraps a value in quotes, as a statement author writes a text literal. */
  function Quote(v: string): string {
    "'" + v + "'"
  }

  /** Stripping undoes quoting, whatever the value holds. */
  lemma UnquoteQuote(v: string)
    ensures Unquote(Quote(v)) == v
  {
    var q := Quote(v);
    assert q[1..|q| - 1] == v;
  }

  /** The store a session starts from. */
  function EmptyDb(): (db: Db)
    ensures Checked(db) && |db| == 0
  {
    map[]
  }
}

=== FILE: where.dfy ===
/** The WHERE clause parser (`parseWhere`, code.cpp:206-222). */
module Where {
  import opened Ascii
  import opened Store
  import opened Conditions
  import opened Seqs

  /** Position `i + 4k`, where the `k`-th triple after `i` starts (written
      as a sum, so that the solver stays in linear arithmetic). */
  function Slot(i: nat, k: nat): nat {
    i + k + k + k + k
  }

  /** The condition written in tokens `i + 4k`, `i + 4k + 1`, `i + 4k + 2`:
      column, operator, literal with its quotes stripped. */
  function TripleAt(toks: seq<string>, i: nat, k: nat): Cond
    requires Slot(i, k) + 2 < |toks|
  {
    Cond(toks[Slot(i, k)], toks[Slot(i, k) + 1], Unquote(toks[Slot(i, k) + 2]))
  }

  /** Token `i + 4k + 3`, the one after the `k`-th triple, is `AND` in any case. */
  predicate AndAfter(toks: seq<string>, i: nat, k: nat) {
    Slot(i, k) + 3 < |toks| && IsKeyword(toks[Slot(i, k) + 3], "and")
  }

  /** Condition `k` of `r` is the `k`-th triple after `i`, and unless it is
      the last condition an `AND` follows it. */
  predicate TripleTaken(toks: seq<string>, i: nat, r: seq<Cond>, k: nat)
    requires k < |r|
  {
    && Slot(i, k) + 2 < |toks|
    && r[k] == TripleAt(toks, i, k)
    && (k < |r| - 1 ==> AndAfter(toks, i, k))
  }

  /** `r` is what reading triples joined by `AND` from token `i` yields:
      nothing when fewer than three tokens remain; otherwise each condition
      is the next triple, and reading stops after the last one because no
      `AND` follows it or no full triple follows the `AND`. */
  predicate ReadsAs(toks: seq<string>, i: nat, r: seq<Cond>) {
    && (|r| == 0 <==> i + 2 >= |toks|)
    && (forall k | 0 <= k < |r| :: TripleTaken(toks, i, r, k))
    && (|r| > 0 && AndAfter(toks, i, |r| - 1) ==> Slot(i, |r|) + 2 >= |toks|)
  }

  /** Condition `k` of the longer list is taken from its triple. */
  lemma PrependTaken(toks: seq<string>, i: nat, rest: seq<Cond>, k: nat)
    requires i + 3 < |toks| && IsKeyword(toks[i + 3], "and")
    requires ReadsAs(toks, i + 4, rest)
    requires k < 1 + |rest|
    ensures TripleTaken(toks, i, [TripleAt(toks, i, 0)] + rest, k)
  {
    var r := [TripleAt(toks, i, 0)] + rest;
    if k > 0 {
      assert TripleTaken(toks, i + 4, rest, k - 1);
      assert Slot(i + 4, k - 1) == Slot(i, k);
      assert r[k] == rest[k - 1];
    }
  }

  /** Reading from `i + 4` extends to reading from `i` with one more triple
      in front, when an `AND` follows that triple. */
  lemma PrependTriple(toks: seq<string>, i: nat, rest: seq<Cond>)
    requires i + 3 < |toks| && IsKeyword(toks[i + 3], "and")
    requires ReadsAs(toks, i + 4, rest)
    ensures ReadsAs(toks, i, [TripleAt(toks, i, 0)] + rest)
  {
    var r := [TripleAt(toks, i, 0)] + rest;
    forall k | 0 <= k < |r| ensures TripleTaken(toks, i, r, k) {
      PrependTaken(toks, i, rest, k);
    }
    assert Slot(i + 4, |rest|) == Slot(i, |r|);
    assert |rest| > 0 ==> Slot(i + 4, |rest| - 1) == Slot(i, |r| - 1);
  }

  /** Triple `k + 1` after `i` is triple `k` after `i + 4`. */
  lemma ShiftTaken(toks: seq<string>, i: nat, r: seq<Cond>, k: nat)
    requires k + 1 < |r| && TripleTaken(toks, i, r, k + 1)
    ensures TripleTaken(toks, i + 4, r[1..], k)
  {
    assert Slot(i, k + 1) == Slot(i + 4, k);
    assert r[1..][k] == r[k + 1];
  }

  /** Reading with at least two triples, minus the first, is reading from `i + 4`. */
  lemma DropTriple(toks: seq<string>, i: nat, r: seq<Cond>)
    requires |r| >= 2 && ReadsAs(toks, i, r)
    ensures i + 3 < |toks| && IsKeyword(toks[i + 3], "and")
    ensures ReadsAs(toks, i + 4, r[1..])
  {
    var r' := r[1..];
    assert TripleTaken(toks, i, r, 0);
    assert TripleTaken(toks, i, r, 1);
    var j := i + 4;
    forall k | 0 <= k < |r'| ensures TripleTaken(toks, j, r', k) {
      assert TripleTaken(toks, i, r, k + 1);
      ShiftTaken(toks, i, r, k);
    }
    assert Slot(i, 1) == i + 4 && |r'| > 0;
    assert Slot(i, |r| - 1) == Slot(i + 4, |r'| - 1);
    assert AndAfter(toks, i + 4, |r'| - 1) == AndAfter(toks, i, |r| - 1);
    assert Slot(i, |r|) == Slot(i + 4, |r'|);
    assert |r'| == 0 <==> i + 4 + 2 >= |toks|;
    assert |r'| > 0 && AndAfter(toks, i + 4, |r'| - 1) ==> Slot(i + 4, |r'|) + 2 >= |toks|;
  }

  /** `parseWhere` from token `i`: triples joined by `AND`. Parsing stops
      silently where fewer than three tokens remain or where the token after
      a triple is not `AND`; the rest of the statement is ignored. No more
      than a third of the remaining tokens become conditions. */
  function ParseWhere(toks: seq<string>, i: nat): (r: seq<Cond>)
    requires i <= |toks|
    ensures |r| == 0 <==> i + 2 >= |toks|
    ensures |r| + |r| + |r| <= |toks| - i
    decreases |toks| - i
  {
    if i + 2 >= |toks| then []
    else
      var c := Cond(toks[i], toks[i + 1], Unquote(toks[i + 2]));
      if i + 3 < |toks| && IsKeyword(toks[i + 3], "and") then [c] + ParseWhere(toks, i + 4)
      else [c]
  }

  /** The parse is what `ReadsAs` describes. */
  lemma {:induction false} ParseWhereReads(toks: seq<string>, i: nat)
    requires i <= |toks|
    ensures ReadsAs(toks, i, ParseWhere(toks, i))
    decreases |toks| - i
  {
    if i + 2 < |toks| {
      var c := Cond(toks[i], toks[i + 1], Unquote(toks[i + 2]));
      assert c == TripleAt(toks, i, 0);
      if i + 3 < |toks| && IsKeyword(toks[i + 3], "and") {
        ParseWhereReads(toks, i + 4);
        PrependTriple(toks, i, ParseWhere(toks, i + 4));
      } else {
        assert TripleTaken(toks, i, [c], 0);
      }
    }
  }

  /** The description `ReadsAs` determines the parse: any list of
      conditions it admits is the one the parser returns. */
  lemma {:induction false} WhereUnique(toks: seq<string>, i: nat, r: seq<Cond>)
    requires i <= |toks| && ReadsAs(toks, i, r)
    ensures r == ParseWhere(toks, i)
    decreases |toks| - i
  {
    if |r| == 0 {
    } else {
      assert TripleTaken(toks, i, r, 0);
      if |r| == 1 {
        if AndAfter(toks, i, 0) {
          assert Slot(i, 1) + 2 >= |toks|;
          assert ParseWhere(toks, i + 4) == [];
        }
      } else {
        DropTriple(toks, i, r);
        WhereUnique(toks, i + 4, r[1..]);
        assert r == [r[0]] + r[1..];
      }
    }
  }

  /** Conditions written out as WHERE tokens: `col op 'lit' AND ...`. */
  function WhereTokens(conds: seq<Cond>): seq<string> {
    if |conds| == 0 then []
    else
      var c := conds[0];
      [c.col, c.op, Quote(c.lit)] + (if |conds| == 1 then [] else ["AND"] + WhereTokens(conds[1..]))
  }

  lemma LowerAnd()
    ensures IsKeyword("AND", "and")
  {
    assert Lower("D") == "d";
    assert Lower("ND") == "nd";
  }

  /** One turn of the parser over a written condition. */
  lemma ParseWhereStep(toks: seq<string>, i: nat, c: Cond)
    requires i + 2 < |toks| && toks[i] == c.col && toks[i + 1] == c.op && toks[i + 2] == Quote(c.lit)
    ensures ParseWhere(toks, i) ==
      [c] + (if i + 3 < |toks| && IsKeyword(toks[i + 3], "and") then ParseWhere(toks, i + 4) else [])
  {
    UnquoteQuote(c.lit);
  }

  /** The parser's last turn: a written condition with no `AND` after it. */
  lemma ParseWhereLast(toks: seq<string>, i: nat, c: Cond)
    requires i + 2 < |toks| && toks[i] == c.col && toks[i + 1] == c.op && toks[i + 2] == Quote(c.lit)
    requires !(i + 3 < |toks| && IsKeyword(toks[i + 3], "and"))
    ensures ParseWhere(toks, i) == [c]
  {
    UnquoteQuote(c.lit);
  }

  /** A single written condition is read back when no `AND` follows it. */
  lemma OneConditionRoundTrip(p: seq<string>, c: Cond, rest: seq<string>)
    requires |rest| == 0 || !IsKeyword(rest[0], "and")
    ensures ParseWhere(p + [c.col, c.op, Quote(c.lit)] + rest, |p|) == [c]
  {
    var m := [c.col, c.op, Quote(c.lit)];
    var toks := p + m + rest;
    var i := |p|;
    assert i + 2 < |toks| && toks[i] == c.col && toks[i + 1] == c.op && toks[i + 2] == Quote(c.lit)
      && (i + 3 < |toks| ==> toks[i + 3] == rest[0]) by {
      Parts(p, m, rest);
    }
    ParseWhereLast(toks, i, c);
  }

  /** Parsing written conditions gives them back, as long as what follows
      them does not start with `AND`. */
  lemma {:induction false} WhereRoundTrip(p: seq<string>, conds: seq<Cond>, rest: seq<string>)
    requires |conds| > 0
    requires |rest| == 0 || !IsKeyword(rest[0], "and")
    ensures ParseWhere(p + WhereTokens(conds) + rest, |p|) == conds
    decreases |conds|
  {
    var c := conds[0];
    var m := [c.col, c.op, Quote(c.lit)];
    if |conds| == 1 {
      assert WhereTokens(conds) == m;
      OneConditionRoundTrip(p, c, rest);
    } else {
      var toks := p + WhereTokens(conds) + rest;
      var i := |p|;
      LowerAnd();
      var m' := m + ["AND"];
      var more := WhereTokens(conds[1..]);
      assert WhereTokens(conds) == m' + more;
      assert toks == (p + m') + more + rest
        && toks[i] == c.col && toks[i + 1] == c.op && toks[i + 2] == Quote(c.lit) && toks[i + 3] == "AND" by {
        Regroup(p, m', more, rest);
      }
      ParseWhereStep(toks, i, c);
      WhereRoundTrip(p + m', conds[1..], rest);
      HeadTail(conds);
    }
  }
}
